=== FILE: README.md ===
# StudyFlow decision rules in Dafny

StudyFlow is a Django + React question-and-answer site. Students and
instructors register, ask and answer questions, vote, and see
role-specific dashboards. Most of its code is rendering and
`fetch`/ORM plumbing. This project models the small deterministic rules
underneath that plumbing, and proves properties of them. Each handler is
a pure function `store × request → (outcome, store)` over immutable
sequences and maps.

The backend part covers:

- the vote endpoint's toggle machine and the scores derived from votes;
- the best-answer flag;
- the serializers' field step (trimming, required, null, blank and
  length checks), which runs before `create`, `update` and `validate`;
- tag bookkeeping when a question is created or updated;
- choosing the author of a posted question;
- the post-save notification receivers;
- the `login` and `signup` views;
- the login serializer;
- the duplicate-email cleanup script;
- the `make_instructor` command.

The client part covers:

- the session kept in `localStorage` (a `map<string, string>`), including
  a writer and reader for the stored user JSON;
- header and URL construction;
- the role router;
- the student, instructor and profile dashboards: tag parsing,
  notification read state, statistics and redirects;
- the question list's day labels and previews;
- the answer form;
- the registration form.

Modules, one per source area:

- Shared helpers:
  - `Wrappers`: `Option`.
  - `Seqs`: `Count`, `Filter` and their algebra.
  - `Text`: trim, split, join, ASCII lower-casing, number rendering, first-match replace.
  - `Ordering`: a stable insertion sort and the preorder it needs.
  - `Browser`: storage, responses, navigation.
- Backend:
  - `Fields`: Django REST framework's `CharField`, `EmailField` and
    `ListField` as the serializers declare them;
  - `CoreModels`, `CoreViews`, `Voting`, `Answers`, `Questions`,
    `Signals`, `Posting`;
  - `Accounts`: the backend's own `users` table;
  - `AuthUsers`: the configured Django user model;
  - `Cleanup`, `MakeInstructor`.
- Client:
  - `StoredUserJson`, `Session`;
  - `ServicesApi`, `ApiHelpers`, `ConfigApi`, `AppConfig`;
  - `UserPage`, `StudentDashboard`, `InstructorDashboard`, `ProfilePage`,
    `PostCard`, `QuestionsPage`, `QuestionDetail`, `RegisterForm`.

Effects are parameters or returned values:

- the server's answer is a `Response` (`NetworkError`, or a status with a
  body);
- navigation is a returned `Nav`;
- an alert is a returned string;
- a time difference is a whole number of milliseconds.

Three behaviours of the code worth knowing when reading the model:

- **The role router on a 401.** The router
  (frontend/src/pages/UserPage.tsx:35-39) removes the token and navigates
  to `/login` without setting an error. Only a non-OK status other than
  401, or a thrown request, reaches the error screen.
- **Logout.** `authAPI.logout` in frontend/src/Service/api.ts:144-146
  removes only `user`. The other `logout`, in
  frontend/src/services/api.ts:208-218, removes both the token and `user`,
  and only when the server answered OK.
- **The vote widget.** The question page keeps no local vote counter: it
  re-fetches the question after voting
  (frontend/src/pages/QuestionDetailPage.tsx:39-55), so no counter is
  modelled.

## Model

| member | source | states |
|---|---|---|
| Voting.KindNamed | backend/core/views.py:41-49 | only "question" and "answer" select a content type, and never the comment type |
| Voting.FindVote | backend/core/views.py:54-58 | the found position is the first vote with the key, and none is found exactly when no vote has the key |
| Voting.CastVote | backend/core/views.py:24-82 | missing field (object id 0 counts as missing) gives 400, unknown user 404, duplicated username the lookup's exception, other content type 400, each iff its condition and with the vote table unchanged; only a complete request with one user and a known type reaches the table |
| Voting.CastVoteEffect | backend/core/views.py:54-82 | no vote at the key: exactly that vote is appended (201); a vote of the other type: only its type changes (200); a vote of the same type: exactly it is deleted (200) |
| Voting.CastVoteKeepsUnique | backend/core/models.py:33-34 | every vote request preserves at most one vote per (user, content type, object) |
| Voting.CastVoteKeepsWellTyped | backend/core/models.py:19-25 | when requests carry only "up" or "down", the table holds only those types |
| Voting.VoteTwiceRestores | backend/core/views.py:66-69 | a fresh vote followed by the same request removes it and restores the table |
| Voting.ToggleEffect | backend/core/views.py:60-69 | toggling an existing vote flips it iff its type differs (keys kept, only that vote changed) and otherwise removes exactly that vote, keeping the rest in order |
| Voting.FlipTwiceRestores | backend/core/views.py:60-65 | flipping a vote and flipping it back restores the table |
| Voting.Score | backend/questions/models.py:35-38 | up minus down votes on one object lies between minus and plus the number of votes on it, and is 0 with no votes |
| Voting.TalliesWithin | backend/answers/models.py:34-37 | up and down votes on an object together never exceed all votes on it |
| Voting.ScoreAppend | backend/core/views.py:72-82 | a created vote moves the object's score by its weight (+1 up, -1 down, 0 elsewhere) |
| Voting.ScoreUpdate | backend/core/views.py:62-65 | a changed vote moves the score by the new weight minus the old |
| Voting.ScoreRemove | backend/core/views.py:66-69 | a deleted vote takes its weight off the score |
| Voting.CastVoteScore | backend/core/views.py:54-82 | every table change of the endpoint moves each score by written minus replaced weight |
| Voting.OtherKindUntouched | backend/core/views.py:54-58 | a vote on one (content type, id) never moves another object's score, so question and answer ids do not collide |
| CoreModels.NewTag | backend/core/models.py:9-12 | a new tag has usage 0 and a blank description |
| CoreModels.NewNotification | backend/core/models.py:54-72 | a new notification is unread and has no link; recipient, type, message, actor and target are those given |
| CoreModels.NewReport | backend/core/models.py:78-93 | a new report is pending |
| CoreViews.NotificationsFor | backend/core/views.py:12-13 | exactly the notifications addressed to the requester are listed |
| CoreViews.MoreUsedPreorder | backend/core/views.py:16 | "more used" is a total preorder, so sorting by it is well defined |
| CoreViews.ListTags | backend/core/views.py:16 | the listing is a permutation of the tags with usage counts non-increasing |
| Answers.NewAnswer | backend/answers/models.py:16 | a new answer is not best |
| Answers.MarkAsBest | backend/answers/models.py:39-44 | the answer becomes best, every other answer of its question is unmarked, answers of other questions are untouched |
| Answers.MarkAsBestUnique | backend/answers/models.py:41-43 | afterwards it is its question's only best answer, and at-most-one-best per question is preserved |
| Answers.MarkAsBestIdempotent | backend/answers/models.py:39-44 | marking the same answer twice equals marking it once |
| Answers.BestThenNewerPreorder | backend/answers/models.py:25 | best-then-newer is a total preorder |
| Answers.ListAnswers | backend/answers/models.py:25 | the default order is a permutation with best answers first and newer first among equals |
| Answers.VoteCount | backend/answers/models.py:34-37 | an answer's vote count is bounded by the votes on it |
| Questions.NewQuestion | backend/questions/models.py:16-17 | a new question has no views, is open and has no tags |
| Questions.TagIndex | backend/questions/serializers.py:25 | the lookup finds the first tag with the name, and finds none exactly when no tag has it |
| Questions.GetOrCreate | backend/questions/serializers.py:25 | an existing tag is returned with the table unchanged; otherwise exactly one usage-0 tag is appended; "created" iff the name was absent |
| Questions.Increment | backend/questions/serializers.py:26 | only the chosen tag's usage grows, by one |
| Questions.StepUsage | backend/questions/serializers.py:23-27 | one loop step adds at most one use, to the lower-cased name, and creates only that tag |
| Questions.CreateUsage | backend/questions/serializers.py:23-27 | after create, each tag's usage grows by the number of submitted names that lower-case to it |
| Questions.UpdateUsage | backend/questions/serializers.py:42-45 | after update, usage grows by one exactly for tags the loop created |
| Questions.AddTags | backend/questions/serializers.py:19-49 | the loop keeps every existing tag in place with its name, never lowers a usage count, adds at most one tag per submitted name, and in the update loop leaves existing tags untouched |
| Questions.AddTagsNames | backend/questions/serializers.py:23-27 | after the loop a tag exists iff it existed or some submitted name lower-cases to it |
| Questions.AddTagsKeepsUnique | backend/questions/serializers.py:43 | get-or-create never makes a second tag with a name in use |
| Fields.CleanText | backend/questions/serializers.py:6-10 | a present string is refused as blank iff it is all white space, as too long iff its trimmed form exceeds the limit, and otherwise becomes its trimmed form, which is non-blank and within the limit |
| Fields.CleanTextFixes | backend/questions/serializers.py:6-10 | a value the field already accepts passes unchanged, so cleaning twice is cleaning once |
| Fields.CheckText | backend/users/serializers.py:39-41 | a missing member is an error iff the field is required and the update is not partial, otherwise skipped; a null is always refused; a present string is cleaned |
| Fields.CheckEmail | backend/users/serializers.py:40 | cleaned like a `CharField`, then refused iff the email validator rejects the trimmed value |
| Fields.ItemProblems | backend/questions/serializers.py:6-10 | exactly the positions of the items the child field refuses, each with its error |
| Fields.NoItemProblems | backend/questions/serializers.py:6-10 | no position is reported iff every item is accepted |
| Fields.CheckList | backend/questions/serializers.py:6-10 | a missing list is skipped and a null one refused; a present list is accepted iff every item is, and then each item is trimmed and clean; otherwise the errors are the refused positions |
| Fields.CheckListFixes | backend/questions/serializers.py:6-10 | a list of clean items passes unchanged |
| Questions.ValidateQuestion | backend/questions/serializers.py:5-17 | a request is refused iff some field refuses it, and the errors name exactly those fields; otherwise the validated title, body and tags are the trimmed members sent, title within 255 and tags within 50 characters, none blank; outside a partial update title and body are present |
| Questions.RevalidatePatch | backend/questions/serializers.py:5-17 | clean data sent again validates to itself |
| Questions.RevalidateQuestion | backend/questions/serializers.py:5-17 | the field step is idempotent: its output passes it again unchanged |
| Questions.CreateQuestion | backend/questions/serializers.py:19-29 | on validated data, the question is new and tagged with the lower-cased names (none when tags are absent), every tag exists, usage counts each occurrence, names stay unique |
| Questions.UpdateQuestion | backend/questions/serializers.py:31-51 | on validated data, supplied title/body overwrite and absent ones stay; absent tags keep the set and the table; present tags replace the set by the lower-cased names; usage grows only for new tags |
| Questions.CaseInsensitiveTags | backend/questions/serializers.py:25 | stored tag names have no upper-case ASCII letter, and names differing only in case land on one tag |
| Questions.VoteCount | backend/questions/models.py:35-38 | a question's vote count is bounded by the votes on it |
| Questions.CommentCount | backend/questions/models.py:40-41 | the count is at most the number of comments, and 0 iff none is attached to this question |
| Questions.CommentCountAdd | backend/questions/models.py:40-41 | a new comment raises only its own question's count, by one |
| Questions.NewerFirstPreorder | backend/questions/models.py:26 | newer-first is a total preorder |
| Questions.ListQuestions | backend/questions/models.py:26 | the default order is a permutation, newest first |
| Posting.ChooseAuthor | backend/questions/views.py:10-28 | a named existing user is the author; an absent or unknown name falls back to the first user; no users gives no author; a username held twice raises |
| Posting.ChooseAuthorValid | backend/questions/views.py:15-26 | with unique usernames the lookup never raises, and the fallback is the lowest id |
| Posting.StoreQuestion | backend/questions/serializers.py:19-29 | saving validated data appends exactly one question with the next id, the given author, title and body and the lower-cased tags, notifies an existing author once, and keeps tag names unique and stored questions clean |
| Posting.PostQuestion | backend/questions/views.py:5-28 | a field refusal is a 400 with exactly the validation errors and stores nothing; otherwise the author rule decides, and each post stores exactly one question with the next id, the trimmed title and body and the trimmed, lower-cased tags, and notifies an existing author once; stored questions stay clean |
| Posting.QuestionIndex | backend/questions/views.py:30-37 | the first question with the primary key; none iff no question has it |
| Posting.EditQuestion | backend/questions/views.py:30-37 | 404 iff no question has the id; then 400 iff the fields refuse (partial for PATCH), storing nothing; otherwise only that question changes, sent members replace title, body and tags in trimmed form, absent ones stay, notifications are unchanged and stored questions stay clean |
| Signals.TitleExcerpt | backend/core/signals.py:23 | messages quote a prefix of the title: exactly its first 30 characters when longer, the whole title otherwise |
| Signals.AnsweredMessage | backend/core/signals.py:23 | the message is the answerer's name, " answered your question: ", the 30-character excerpt and "...", in that order |
| Signals.AnsweredMessageTitles | backend/core/signals.py:23 | for one answerer, two titles give the same "answered your question" message exactly when their first 30 characters agree |
| Signals.PostedMessage | backend/core/signals.py:37 | the message is "Your question '", the 30-character excerpt, and "...' was posted successfully!", in that order |
| Signals.PostedMessageTitles | backend/core/signals.py:37 | two titles give the same confirmation exactly when their first 30 characters agree |
| Signals.Notify | backend/core/signals.py:20-26 | exactly one row is appended, earlier rows untouched: it is unread, carries the next id and the given user, type, message, actor and target; ids stay distinct and below the next id |
| Signals.OnAnswerSaved | backend/core/signals.py:7-26 | a created answer by someone other than the question's author adds exactly one notification to that author, pointing at the answer; own answers and re-saves add none; notification ids stay distinct |
| Signals.OnQuestionSaved | backend/core/signals.py:28-39 | a created question adds exactly one notification to its author; re-saves add none; notification ids stay distinct |
| Signals.SignalsReachOnlyTheirRecipient | backend/core/signals.py:7-39 | any other user's notification list is unchanged by both receivers |
| Accounts.WithEmail | backend/users/views.py:99 | the email filter keeps exactly the rows with that email |
| Accounts.WithUsername | backend/users/views.py:141 | the username filter keeps exactly the rows with that username |
| Accounts.Login | backend/users/views.py:85-121 | non-POST 400; missing email or password 400; unknown email 404; several rows with the email raise; one row with a different password 401; success iff one row has the email and its password matches, and reports that row; each iff its condition; the store is never changed |
| Accounts.Get | backend/users/views.py:129-131 | `data.get(key)` is Python's None for a missing member and for an explicit null, and the string otherwise |
| Accounts.GetOr | backend/users/views.py:132-133 | `data.get(key, default)` gives the default only for a missing member; an explicit null stays None |
| Accounts.Signup | backend/users/views.py:123-165 | a rejection leaves the store unchanged; success appends exactly one row with the next id and the submitted fields; role is "user" when missing, bio is "" when missing and null when sent as null |
| Accounts.SignupDecision | backend/users/views.py:135-150 | missing fields, email taken, username taken (only if the email is free), an explicit null role (the NOT NULL insert fails, 400), else success, each iff its condition |
| Accounts.EmailCheckedFirst | backend/users/views.py:139-142 | when both email and username are taken the email error is reported |
| Accounts.SignupKeepsValid | backend/users/models.py:19-29 | a signup keeps ids, usernames and emails unique |
| Accounts.SignupsKeepValid | backend/users/views.py:139-142 | uniqueness holds through any sequence of signups |
| Accounts.SignupThenLogin | backend/users/views.py:104-116 | a new user logs in with the same email and password and gets exactly the stored row |
| Accounts.UniqueEmailMatch | backend/users/views.py:99 | with unique emails the lookup by a present email yields exactly that row |
| Accounts.UsernameUnique | backend/users/models.py:19-29 | in a valid table a username names at most one row |
| AuthUsers.ByEmail | backend/users/serializers.py:59 | the filter keeps exactly the users with that email |
| AuthUsers.Conclude | backend/users/serializers.py:67-74 | no authenticated user: invalid credentials; an inactive one: disabled; success iff active, carrying that user |
| AuthUsers.IsValid | backend/users/serializers.py:38-74 | the field step refuses exactly the null, blank or badly formed members and a missing password, naming those fields; after it "Password is required." is never the answer, "Username or Email is required." is the answer iff a good password comes with neither identifier, and `authenticate` sees trimmed values |
| AuthUsers.CleanLoginIsValidated | backend/users/serializers.py:38-74 | on values the fields already accept, `is_valid` gives exactly what `validate` gives |
| AuthUsers.ValidateLogin | backend/users/serializers.py:43-74 | `validate` as written: password checked first, then an identifier; a given email resolves the username (unknown: invalid credentials; duplicated: the lookup raises); only active users validate |
| AuthUsers.EmailOverridesUsername | backend/users/serializers.py:57-60 | once an email is given, the submitted username makes no difference |
| AuthUsers.ValidateEmail | backend/users/serializers.py:21-24 | an email is refused iff some user holds it, and passes unchanged otherwise |
| Cleanup.CleanDuplicates | cleanup_users.py:15-36 | only existing users survive; empty-email users and users with a unique email all survive; every survivor joined no later than anyone sharing its email |
| Cleanup.OnlyHolder | cleanup_users.py:17-21 | a user whose email nobody else holds survives |
| Cleanup.TwoHolders | cleanup_users.py:17 | two holders of an email make it a duplicate |
| Cleanup.EarliestHolder | cleanup_users.py:29-31 | every present email has a holder that joined no later than all others |
| Cleanup.ExactlyOneHolder | cleanup_users.py:29-35 | after cleanup each present non-empty email has exactly one holder, so occurrences minus one were deleted |
| Cleanup.NoSharedEmail | cleanup_users.py:23-35 | after cleanup no two users share a non-empty email |
| Cleanup.NoDuplicatesUnchanged | cleanup_users.py:19-21 | a table without duplicates is left unchanged |
| MakeInstructor.PromoteRows | backend/users/management/commands/make_instructor.py:27-28 | rows with the name get the instructor role and nothing else changes |
| MakeInstructor.Handle | backend/users/management/commands/make_instructor.py:11-38 | unknown user, already instructor and duplicated name (each iff) leave the table unchanged; otherwise only that user's role changes |
| MakeInstructor.Idempotent | backend/users/management/commands/make_instructor.py:22-28 | running the command twice equals running it once |
| MakeInstructor.SameNamesCount | backend/users/management/commands/make_instructor.py:15 | changing roles does not change how many rows a username matches |
| MakeInstructor.HandleKeepsValid | backend/users/management/commands/make_instructor.py:27-28 | promotion keeps ids, usernames and emails unique |
| StoredUserJson.ReadQuotedRoundTrip | frontend/src/Service/api.ts:94-100 | a written string literal reads back as the string, leaving the rest |
| StoredUserJson.ReadStringCanonical | frontend/src/Service/api.ts:148-151 | every string literal the reader accepts is the writer's spelling |
| StoredUserJson.ReadNatRoundTrip | frontend/src/Service/api.ts:94-100 | a written id reads back as the same number |
| StoredUserJson.ReadNatCanonical | frontend/src/Service/api.ts:148-151 | every number the reader accepts is the writer's rendering |
| StoredUserJson.Encode | frontend/src/Service/api.ts:94-100 | the stored text is a JSON object that opens with the `id` member and ends with "}" (its round trip is `DecodeEncode`) |
| StoredUserJson.Decode | frontend/src/Service/api.ts:148-151 | only a text that opens with the `id` member is read as a record (its round trip is `EncodeDecode`) |
| StoredUserJson.DecodeEncode | frontend/src/Service/api.ts:94-100 | parsing the stored text of a user record gives the record back |
| StoredUserJson.EncodeDecode | frontend/src/Service/api.ts:148-151 | every text the parser accepts is exactly the writer's output for the record it reads |
| Session.GetCurrentUser | frontend/src/Service/api.ts:148-151 | null iff the `user` entry is missing, empty or the text "null"; a logged-in user is exactly what the entry encodes, and any encoded record is read |
| Session.AuthCall | frontend/src/Service/api.ts:72-142 | a thrown fetch maps a TypeError mentioning "fetch" to the connection message; a non-OK reply throws its error or the fallback with storage unchanged; an OK reply sets only `user` so the current user is the reply's record |
| Session.Register | frontend/src/Service/api.ts:72-109 | failure throws "Registration failed" by default and leaves storage; success makes the reply's user current |
| Session.Login | frontend/src/Service/api.ts:111-142 | failure throws "Login failed" by default and leaves storage; success makes the reply's user current |
| Session.Logout | frontend/src/Service/api.ts:144-146 | afterwards there is no current user, and only `user` was removed |
| Session.LoginThenLogout | frontend/src/Service/api.ts:111-146 | logging in then out equals logging out |
| Session.GetStats | frontend/src/Service/api.ts:156-196 | no user throws "User not logged in"; otherwise only the asked count can be non-zero, it is 0 on a failed fetch, and 0 iff no question is by the user |
| Session.StatsCountOwnQuestions | frontend/src/Service/api.ts:166 | each question by the user raises the asked count by one and others' leave it |
| ServicesApi.GetHeaders | frontend/src/services/api.ts:10-23 | always the JSON content type; `Authorization` is "Token " + token iff auth is wanted and a token is stored |
| ServicesApi.Logout | frontend/src/services/api.ts:208-218 | token and user are removed only when the server answered OK; other entries stay |
| ServicesApi.LogoutForgetsSession | frontend/src/services/api.ts:208-218 | after an accepted logout no request carries credentials and no user is stored |
| ApiHelpers.GetHeaders | frontend/src/utils/apiHelpers.ts:12-25 | always the JSON content type; `Authorization` iff auth is wanted and a token is stored |
| ApiHelpers.SameHeaders | frontend/src/utils/apiHelpers.ts:12-25 | the helpers' headers equal the services module's for every storage and flag |
| ApiHelpers.ApiGet | frontend/src/utils/apiHelpers.ts:28-35 | a GET to base + endpoint verbatim, without body; credentials iff asked and a token exists |
| ApiHelpers.ApiPost | frontend/src/utils/apiHelpers.ts:38-46 | a POST to base + endpoint with the JSON body; credentials iff asked and a token exists |
| ApiHelpers.Defaults | frontend/src/utils/apiHelpers.ts:28-38 | by default reads go without credentials and writes with them |
| ApiHelpers.HelperUrlMatchesGetApiUrl | frontend/src/utils/apiHelpers.ts:29-39 | the helpers' URL equals `getApiUrl`'s iff the endpoint starts with "/" |
| ConfigApi.ApiBaseUrl | frontend/src/config/api.ts:6-12 | a set `VITE_API_URL` plus "/api", else the local default; either way it ends in "/api" |
| ConfigApi.GetApiUrl | frontend/src/config/api.ts:17-21 | base, then the endpoint with one "/" ensured; always starts with base + "/" |
| ConfigApi.GetApiUrlSlash | frontend/src/config/api.ts:19 | writing the endpoint's leading "/" or not names the same URL |
| AppConfig.ServerUrl | frontend/src/config.ts:5 | the base with its first "/api" removed, or unchanged when none occurs |
| AppConfig.ServerUrlHostNamedApi | frontend/src/config.ts:5 | for "https://api.example.com/api" the first match is inside "//api.", giving "https:/.example.com/api" |
| AppConfig.ServerUrlTrailing | frontend/src/config.ts:5 | the corrected server URL: the base minus a trailing "/api", so appending "/api" gives the base back |
| AppConfig.ServerUrlTrailingHost | frontend/src/config.ts:5 | for every host, the corrected server URL of host + "/api" is the host |
| AppConfig.TrailingAgreesWithWritten | frontend/src/config.ts:5 | when "/api" occurs only at the end, the corrected and the written server URLs agree |
| AppConfig.LocalServerUrl | frontend/src/config.ts:5-8 | with the local default base both the written and the corrected server URL are "http://localhost:8000" |
| AppConfig.ApiUrl | frontend/src/config.ts:14-18 | `SERVER_URL` (first "/api" removed), "/" and the path with one leading "/" dropped; always starts with `SERVER_URL` + "/" |
| AppConfig.ApiUrlCorrected | frontend/src/config.ts:14-18 | the corrected endpoint URL: the base minus its trailing "/api", "/" and the cleaned path |
| AppConfig.ApiUrlAgreesWhenTrailing | frontend/src/config.ts:5-18 | when "/api" occurs only at the end of the base, the written and corrected endpoint URLs agree |
| AppConfig.ApiUrlHostNamedApi | frontend/src/config.ts:5-18 | for base "https://api.example.com/api" and path "/x" the code builds "https:/.example.com/api/x", the corrected rule "https://api.example.com/x" |
| AppConfig.ApiUrlSlash | frontend/src/config.ts:16-17 | one leading "/" is optional, a second one is kept |
| UserPage.FetchUserRole | frontend/src/pages/UserPage.tsx:20-58 | no token: to login without a request; 401: token removed, to login; OK: the role; other status: "Failed to fetch user data"; thrown: "Connection error"; loading always ends; storage changes only on 401 |
| UserPage.Render | frontend/src/pages/UserPage.tsx:61-134 | spinner iff loading, error screen iff an error, instructor view iff the role is "instructor", else the student view |
| UserPage.RouteByRole | frontend/src/pages/UserPage.tsx:128-134 | an OK response with role "instructor" shows the instructor dashboard and any other role, "user" included, the student one |
| UserPage.ChosenDashboardStays | frontend/src/pages/UserPage.tsx:128-134 | the dashboard the router picks does not redirect again for the same role |
| StudentDashboard.ParseTags | frontend/src/pages/student/Dashboard.tsx:182 | every tag is non-empty, trimmed and comma-free; every non-blank piece's trim appears; no more tags than pieces |
| StudentDashboard.ParseTagsSingle | frontend/src/pages/student/Dashboard.tsx:182 | a field without a comma gives no tag when blank and its trim otherwise |
| StudentDashboard.ParseTagsConcat | frontend/src/pages/student/Dashboard.tsx:182 | the tags of a + "," + b are the tags of a followed by those of b; with ParseTagsSingle this fixes the tags as the trimmed non-blank pieces, in order, with repeats |
| Text.SplitConcat | frontend/src/pages/student/Dashboard.tsx:182 | `split(',')` of a + "," + b is the pieces of a followed by those of b |
| StudentDashboard.ParseTagsJoin | frontend/src/pages/student/Dashboard.tsx:182 | canonical tags joined with commas parse back to the same list |
| StudentDashboard.ParseTagsStable | frontend/src/pages/student/Dashboard.tsx:182 | re-joining and re-parsing parsed tags changes nothing |
| StudentDashboard.PostRequestFor | frontend/src/pages/student/Dashboard.tsx:168-184 | no request iff title or body empty; the request carries them, the parsed tags and "Token " + token ("Token null" without one) |
| StudentDashboard.CreatePost | frontend/src/pages/student/Dashboard.tsx:168-201 | OK: modal cleared and closed, questions tab, refetch and success alert; non-OK: draft kept with the failure alert; network error: draft kept, no alert |
| StudentDashboard.MarkRead | frontend/src/pages/student/Dashboard.tsx:203-207 | notes with the id become read; length, order and every other field are preserved |
| StudentDashboard.MarkAllRead | frontend/src/pages/student/Dashboard.tsx:209-211 | every note read, nothing else changed, unread count 0 |
| StudentDashboard.UnreadCount | frontend/src/pages/student/Dashboard.tsx:235 | at most the list length, and 0 iff every note is read |
| StudentDashboard.MarkReadAbsent | frontend/src/pages/student/Dashboard.tsx:203-207 | marking an id no note carries changes nothing |
| StudentDashboard.MarkReadCount | frontend/src/pages/student/Dashboard.tsx:203-235 | with unique ids, marking one read lowers the unread count by one iff that note was unread |
| StudentDashboard.MarkReadIdempotent | frontend/src/pages/student/Dashboard.tsx:203-211 | marking twice equals once, and mark-all after one mark equals mark-all |
| StudentDashboard.PendingQuestions | frontend/src/pages/student/Dashboard.tsx:236 | exactly the profile's uncommented questions; none before the profile loads |
| StudentDashboard.PendingAppend | frontend/src/pages/student/Dashboard.tsx:236 | an appended uncommented question joins the end of the pending list; a commented one does not |
| StudentDashboard.FormatRelativeTime | frontend/src/pages/student/Dashboard.tsx:220-233 | missing date "N/A"; under an hour floored minutes; under a day hours; under a week days; a week or more the calendar date |
| StudentDashboard.RelativeTimeRanges | frontend/src/pages/student/Dashboard.tsx:225-231 | shown numbers stay within 0-59 minutes, 1-23 hours, 1-6 days |
| StudentDashboard.FetchProfile | frontend/src/pages/student/Dashboard.tsx:136-166 | no token: to login; 401: token removed, to login; instructor: to /user, nothing stored; other OK profiles stored |
| InstructorDashboard.InitialStats | frontend/src/pages/instructor/Dashboard.tsx:80-87 | every statistic starts at 0 |
| InstructorDashboard.AcceptanceTenths | frontend/src/pages/instructor/Dashboard.tsx:165-167 | 0 without answers; otherwise the nearest tenth of a percent to best/answers, halves up, at most 1000 |
| InstructorDashboard.ProfileStats | frontend/src/pages/instructor/Dashboard.tsx:163-174 | answered is the answer count (0 if absent), best the best count, best <= answered, rate <= 100 %; the other statistics are kept |
| InstructorDashboard.BestAnswers | frontend/src/pages/instructor/Dashboard.tsx:239 | exactly the loaded profile's best answers |
| InstructorDashboard.BestAnswersAppend | frontend/src/pages/instructor/Dashboard.tsx:239 | no answers list no entries, and one more answer joins the end of the tab exactly when it is best: the tab is the order-preserving filter |
| InstructorDashboard.BestAnswersMatchStat | frontend/src/pages/instructor/Dashboard.tsx:163-172 | the best-answers tab lists as many answers as the statistic counts |
| InstructorDashboard.UnansweredStats | frontend/src/pages/instructor/Dashboard.tsx:194-197 | unanswered is the list length; nothing else changes |
| InstructorDashboard.TotalCount | frontend/src/pages/instructor/Dashboard.tsx:206 | a positive count wins, else the length, else 0; 0 iff both are absent or zero |
| InstructorDashboard.TotalStats | frontend/src/pages/instructor/Dashboard.tsx:207-210 | only the platform total changes |
| InstructorDashboard.FetchUnanswered | frontend/src/pages/instructor/Dashboard.tsx:181-215 | a thrown list request changes nothing; each OK response updates only its own statistic |
| InstructorDashboard.FetchProfile | frontend/src/pages/instructor/Dashboard.tsx:135-179 | no token or 401: to login (401 drops the token); non-instructor: to /user, nothing stored; an instructor's profile stored and statistics recomputed |
| ProfilePage.FetchProfile | frontend/src/pages/user.tsx:98-134 | no token: nothing; 401: token removed, to login; instructor: to /instructor, nothing stored; a profile is stored iff OK and not an instructor |
| ProfilePage.CreatePost | frontend/src/pages/user.tsx:136-179 | same guard and request as the student dashboard; 401: token removed, to login, draft kept; success: fields cleared, modal closed, posts tab |
| ProfilePage.PostLikeStudentDashboard | frontend/src/pages/user.tsx:136-179 | apart from 401 and the tab chosen, posting equals the student dashboard's |
| ProfilePage.Badge | frontend/src/pages/user.tsx:213 | the badge reads "Instructor" iff the role is "instructor" |
| PostCard.Preview | frontend/src/components/posts.tsx:20 | short text unchanged; longer text is its first `limit` characters and "..."; never longer than limit + 3 |
| PostCard.ShownStats | frontend/src/components/posts.tsx:28-45 | an item is shown iff its statistic is defined, carrying that value |
| PostCard.Card | frontend/src/components/posts.tsx:14-50 | title shown iff non-empty; content previewed at 150; handle is "@" + username |
| QuestionsPage.DiffDays | frontend/src/pages/QuestionsPage.tsx:31-32 | the ceiling of the absolute difference in days |
| QuestionsPage.FormatDate | frontend/src/pages/QuestionsPage.tsx:28-38 | "Today" iff the timestamps are equal; "Yesterday" iff within a day; 2-6 "days ago" iff within six days; else the calendar date |
| QuestionsPage.FormatDateSymmetric | frontend/src/pages/QuestionsPage.tsx:31 | past and future dates the same distance away get the same label |
| QuestionsPage.BodyPreview | frontend/src/pages/QuestionsPage.tsx:99-100 | the first 200 characters, with "..." iff the body is longer |
| QuestionsPage.BodyPreviewIsCardRule | frontend/src/pages/QuestionsPage.tsx:99-100 | the list's preview is the card's rule with limit 200 |
| QuestionDetail.AnswersOf | frontend/src/pages/QuestionDetailPage.tsx:25-27 | exactly the answers to this question, counted once each |
| QuestionDetail.AnswersOfAppend | frontend/src/pages/QuestionDetailPage.tsx:74 | the local append agrees with what a reload would list |
| QuestionDetail.SubmitAnswer | frontend/src/pages/QuestionDetailPage.tsx:57-84 | blank body: only the "Answer cannot be empty" error, no request; success appends one answer and clears the body; failure reports the message; never left submitting |
| QuestionDetail.Heading | frontend/src/pages/QuestionDetailPage.tsx:190 | "1 Answer" for one, "N Answers" otherwise |
| QuestionDetail.SubmitDisabled | frontend/src/pages/QuestionDetailPage.tsx:236 | disabled iff submitting or the body is blank |
| QuestionDetail.EnabledButtonSends | frontend/src/pages/QuestionDetailPage.tsx:57-76 | a click on the enabled button sends the request, and success adds exactly one answer |
| RegisterForm.Flatten | frontend/src/components/Form.tsx:55 | a message is in the flattened list iff some error value holds it |
| RegisterForm.ErrorMessage | frontend/src/components/Form.tsx:55-56 | never empty; the space-joined messages when one is non-empty; "Registration failed" when they join to nothing |
| RegisterForm.JoinNonEmpty | frontend/src/components/Form.tsx:55-56 | the join is empty iff there are no messages or a single empty one |
| RegisterForm.ErrorMessageWords | frontend/src/components/Form.tsx:55 | space-free messages split back out of the shown error |
| RegisterForm.Submit | frontend/src/components/Form.tsx:24-62 | no request iff passwords differ; role always "student"; OK: welcome alert and to login; rejection: server messages; network or non-JSON failure: generic error |
| RegisterForm.SubmitShowsError | frontend/src/components/Form.tsx:24-62 | the form stays iff an error is shown |

## Left out

- HTTP, `fetch`, React state, rendering, JSX and styling are not modelled. Server answers are parameters; navigation and alerts are returned values.
- Timers are not modelled: the 3 s clearing of the answer form's success message (frontend/src/pages/QuestionDetailPage.tsx:78).
- Date parsing and locale formatting are out. Time differences are whole milliseconds, and the calendar-date branches stop at a `CalendarDate` label. An invalid date string, and the floating-point exactness of `Math.ceil` on huge differences, are not modelled.
- InstructorDashboard.AcceptanceTenths: the floating-point division and `Math.round` are replaced by exact integer tenths rounded half up.
- Lower-casing of tag names is ASCII only. Python's `str.lower` on other letters is not modelled.
- StoredUserJson: `JSON.stringify`/`JSON.parse` are modelled for the one stored record shape. Only `"` and `\` are escaped; other control-character escapes and other key orders are not read.
- Questions.Increment: `Tag.increment_usage` is not defined in backend/core/models.py and is taken to add one.
- Signals: the receivers use notification types ("answer", "question") and an `actor` field that backend/core/models.py:54-72 does not declare. The model stores the intended values. A question without an author creates no notification; the database would refuse a null recipient.
- Voting: backend/core/tests.py expects an `action` key and authenticated voting, which the view does not have. The model follows the view's status codes and table effects. The view's generic exception path when a content type cannot be loaded (backend/core/views.py:50-51) is not modelled, because ContentType loading is not modelled. The object id is a natural number, so parsing failures of `object_id` are not modelled.
- MultipleObjectsReturned: a `get` that matches several rows raises, and each place is modelled as its own outcome. What the caller then sees differs:
  - `Accounts.MultipleMatches` (the `login` view): the view's `except Exception` catches it and answers 400 with the exception text (backend/users/views.py:118-119).
  - `Voting.AmbiguousUser` (the vote endpoint), `Posting.LookupRaised` (posting a question) and `AuthUsers.MultipleObjectsReturned` (the login serializer): nothing catches it, so the server answers with its 500 error page. Only `Voting` gives its outcome a status (500); the page itself is not modelled.
  - `MakeInstructor.Ambiguous` (the `make_instructor` command): nothing catches it, so the command stops with a traceback. There is no HTTP status.
- Django's `authenticate` is a function parameter; password hashing is not modelled. The backend `users` table compares passwords as stored text, as the view does.
- backend/core/urls.py imports views that backend/core/views.py does not define. Those views are not part of this model. The answers, comments, reports and logout views are left out for the same reason.
- Two user models exist: backend/users/models.py and the configured `get_user_model()`. They are kept as two tables (`Accounts`, `AuthUsers`).
- The make_instructor command's console output is not modelled; the outcome names which message it prints.
- Fields: the serializers trim with Python's `str.strip`, and the model uses the white-space set of JavaScript's `trim`. They differ on U+001C to U+001F and U+0085, which Python strips, and on U+FEFF, which JavaScript strips. A list item that is null or not a string, a `tags` value that is not a list, and non-string values of the other fields are not modelled. Django's email validator is the parameter `isEmail`.
- AuthUsers.ValidateEmail: it models the `validate_email` hook on a value the email field has already cleaned. The register serializer's own field step is not modelled, and no view in backend/users/views.py uses either serializer.
- Posting.EditQuestion: PUT and PATCH are told apart by the `partial` parameter. `updated_at` is not a field of the model.
- Accounts.Payload: a request body member is a string or `null`. Numbers, booleans, arrays and objects as member values are not modelled.
- AppConfig: frontend/src/config.ts imports an `API_BASE_URL` that its source module does not export, so the base is a parameter. `ApiUrlConstant` and `GetServerUrl` are definitions without a separate contract.
- PostCard.Preview: JavaScript's `length` and `substring` count UTF-16 code units, and the model counts Unicode scalar values. A body of characters outside the Basic Multilingual Plane (emoji, say) is cut later in the model than in the browser, and a cut that splits a surrogate pair is not representable.
- QuestionsPage.BodyPreview: the 200-character limit counts Unicode scalar values, not UTF-16 code units, for the same reason as PostCard.Preview.
- Cleanup.CleanDuplicates: the database leaves the order of users with equal `date_joined` unspecified. The model breaks such ties by the lower id, which is a modelling choice.
- Posting.PostQuestion: with no users at all the model saves a question without an author. `Question.user` is not nullable in backend/questions/models.py, so the database would refuse that save; the refusal is not modelled.
- Signals.OnAnswerSaved: the answerer's username is a parameter. It is not looked up from `answer.user` through a user table.
- StoredUserJson.Decode: the contract states only the text's opening; that it also ends with "}" and spells each member follows from `EncodeDecode`.
- InstructorDashboard.FetchUnanswered: the list body's `data.results || data || []` is taken as already resolved to a list. InstructorDashboard.BestAnswers treats a missing answers list as empty, where the code would throw.
- QuestionDetail: loading the question, the loading and error flags of the first fetch, and the vote handler's re-fetch are not modelled.
- RegisterForm: the registration URL is fixed in the component and is only a constant here. Other login and sign-up pages (LoginPage, FormSign, SigninPage) are not part of this model.
- The dashboards' fetch URLs and the `Authorization` header of their profile requests are not modelled.
- Repository scripts, mock-data pages, duplicated role-change scripts and pure rendering components are not part of this model.

## Findings

| source | as written | input that shows it | evidently intended | confidence | as-written member | corrected member |
|---|---|---|---|---|---|---|
| frontend/src/config.ts:5 | `SERVER_URL` removes the first "/api" anywhere in the base URL | base "https://api.example.com/api" gives "https:/.example.com/api" | remove the trailing "/api" of the API base, giving "https://api.example.com" | medium, not executed | AppConfig.ServerUrlHostNamedApi | AppConfig.ServerUrlTrailingHost |

`AppConfig.ServerUrl`, `GetServerUrl` and `ApiUrl` model frontend/src/config.ts as written. `AppConfig.ServerUrlTrailing` and `AppConfig.ApiUrlCorrected` are the corrected rules. `AppConfig.TrailingAgreesWithWritten` and `AppConfig.ApiUrlAgreesWhenTrailing` show the written and corrected rules agree on every base whose only "/api" is the trailing one, such as the local default. `AppConfig.ApiUrlHostNamedApi` shows where they part for an endpoint URL.

=== FILE: accounts.dfy ===
/**
  The backend's own user table (backend/users/models.py) and the two
  function-based JSON endpoints over it, `login` and `signup`
  (backend/users/views.py). Each handler is a pure function from the user
  store and one request to a reply and, for `signup`, the new store.
 */
module Accounts {

  import opened Wrappers
  import opened Seqs
  import opened Text

  type UserId = nat

  /** One row of the `users` table. `bio` is nullable; `is_banned` defaults to 0. */
  datatype User = User(
    id: UserId,
    username: string,
    email: string,
    passwordHash: string,
    role: string,
    bio: Option<string>,
    isBanned: int)

  /** The table in primary-key order, and the id the next insert receives. */
  datatype UserStore = UserStore(rows: seq<User>, nextId: UserId)

  /** The table's constraints: ids are unique primary keys below `nextId`,
      and `username` and `email` are both declared unique. */
  predicate Valid(st: UserStore) {
    && (forall i :: 0 <= i < |st.rows| ==> st.rows[i].id < st.nextId)
    && (forall i, j :: 0 <= i < j < |st.rows| ==> st.rows[i].id < st.rows[j].id)
    && (forall i, j :: 0 <= i < j < |st.rows| ==> st.rows[i].username != st.rows[j].username)
    && (forall i, j :: 0 <= i < j < |st.rows| ==> st.rows[i].email != st.rows[j].email)
  }

  /** `User.objects.filter(email=email)`, in primary-key order. */
  function WithEmail(rows: seq<User>, email: string): (r: seq<User>)
    ensures forall i :: 0 <= i < |r| ==> r[i] in rows && r[i].email == email
    ensures forall i :: 0 <= i < |rows| && rows[i].email == email ==> rows[i] in r
  {
    Filter(rows, (u: User) => u.email == email)
  }

  /** `User.objects.filter(username=name)`, in primary-key order. */
  function WithUsername(rows: seq<User>, name: string): (r: seq<User>)
    ensures forall i :: 0 <= i < |r| ==> r[i] in rows && r[i].username == name
    ensures forall i :: 0 <= i < |rows| && rows[i].username == name ==> rows[i] in r
  {
    Filter(rows, (u: User) => u.username == name)
  }

  /** A member value of the decoded JSON body: a string or `null`. */
  datatype JsonValue = JString(text: string) | JNull

  /** A decoded JSON request body. */
  type Payload = map<string, JsonValue>

  /** An HTTP request: its method and its body, `None` when the body is not
      a JSON object (the view's `json.loads` raises). */
  datatype HttpRequest = HttpRequest(verb: string, body: Option<Payload>)

  /** `data.get(key)`: Python's `None` both for a missing member and for an
      explicit `null`. */
  function Get(p: Payload, key: string): (r: Option<string>)
    ensures r.Some? <==> key in p && p[key].JString?
    ensures r.Some? ==> p[key] == JString(r.value)
  {
    if key in p && p[key].JString? then Some(p[key].text) else None
  }

  /** `data.get(key, default)`: the default only for a missing member; an
      explicit `null` is `None`. */
  function GetOr(p: Payload, key: string, default: string): (r: Option<string>)
    ensures key !in p ==> r == Some(default)
    ensures key in p ==> r == Get(p, key)
  {
    if key !in p then Some(default) else Get(p, key)
  }

  /** The error replies of the two views. */
  datatype AuthError =
    | UsePost              // any method other than POST
    | MalformedBody        // an exception inside the try block, reported as str(e)
    | MissingCredentials   // login without email or password
    | UserNotFound         // login with an unknown email
    | InvalidPassword      // login with a wrong password
    | MissingFields        // signup without username, email or password
    | NullRole             // signup with `"role": null`: the insert violates NOT NULL
    | EmailExists
    | UsernameExists
    | MultipleMatches      // `get(email=...)` matched several rows

  function ErrorText(e: AuthError): string {
    match e
    case UsePost => "Use POST method"
    case MalformedBody => "<exception text>"
    case MissingCredentials => "Email and password are required"
    case UserNotFound => "User not found"
    case InvalidPassword => "Invalid password"
    case MissingFields => "Missing fields"
    case NullRole => "<exception text>"
    case EmailExists => "Email already exists"
    case UsernameExists => "Username already exists"
    case MultipleMatches => "<exception text>"
  }

  function ErrorStatus(e: AuthError): nat {
    match e
    case UserNotFound => 404
    case InvalidPassword => 401
    case _ => 400
  }

  /** A JSON reply: an error with its HTTP status, or success (status 200)
      carrying the user whose id, username, email, role and bio it reports. */
  datatype AuthReply = Rejected(error: AuthError) | Accepted(user: User) {
    function Status(): nat {
      match this
      case Rejected(e) => ErrorStatus(e)
      case Accepted(_) => 200
    }
  }

  /** `login`: looks the user up by email and compares the stored password.
      It has no store output: logging in never changes the table. */
  function Login(st: UserStore, req: HttpRequest): (r: AuthReply)
    ensures req.verb != "POST" ==> r == Rejected(UsePost)
    ensures req.verb == "POST" && req.body.None? ==> r == Rejected(MalformedBody)
    ensures req.verb == "POST" && req.body.Some? ==>
      var email := Get(req.body.value, "email");
      var password := Get(req.body.value, "password");
      && ((!Truthy(email) || !Truthy(password)) <==> r == Rejected(MissingCredentials))
      && (r == Rejected(UserNotFound) <==>
            Truthy(email) && Truthy(password)
            && forall i :: 0 <= i < |st.rows| ==> st.rows[i].email != email.value)
      && (r == Rejected(MultipleMatches) <==>
            Truthy(email) && Truthy(password) && |WithEmail(st.rows, email.value)| > 1)
      && (r == Rejected(InvalidPassword) <==>
            Truthy(email) && Truthy(password)
            && |WithEmail(st.rows, email.value)| == 1
            && WithEmail(st.rows, email.value)[0].passwordHash != password.value)
      && (r.Accepted? <==>
            Truthy(email) && Truthy(password)
            && |WithEmail(st.rows, email.value)| == 1
            && WithEmail(st.rows, email.value)[0].passwordHash == password.value)
      && (r.Accepted? ==>
            r.user in st.rows && r.user.email == email.value && r.user.passwordHash == password.value)
    ensures r.Status() == 200 <==> r.Accepted?
  {
    if req.verb != "POST" then Rejected(UsePost)
    else if req.body.None? then Rejected(MalformedBody)
    else
      var data := req.body.value;
      var email := Get(data, "email");
      var password := Get(data, "password");
      if !Truthy(email) || !Truthy(password) then Rejected(MissingCredentials)
      else
        var matches := WithEmail(st.rows, email.value);
        if |matches| == 0 then Rejected(UserNotFound)
        else if |matches| > 1 then Rejected(MultipleMatches)
        else if matches[0].passwordHash != password.value then Rejected(InvalidPassword)
        else Accepted(matches[0])
  }

  /** `signup`: a passing request inserts exactly one row, whose role
      defaults to "user" and whose bio defaults to "" when the member is
      missing; an explicit null bio is stored as null, and an explicit null
      role makes the insert fail. A failing request leaves the table as it
      was. `SignupDecision` states which requests fail. */
  function Signup(st: UserStore, req: HttpRequest): (res: (AuthReply, UserStore))
    ensures res.0.Rejected? ==> res.1 == st
    ensures res.0.Status() == 200 <==> res.0.Accepted?
    ensures res.0.Accepted? ==> req.verb == "POST" && req.body.Some?
    ensures res.0.Accepted? ==>
      var data := req.body.value;
      && res.1.rows == st.rows + [res.0.user]
      && res.1.nextId == st.nextId + 1
      && res.0.user.id == st.nextId
      && Get(data, "username") == Some(res.0.user.username)
      && Get(data, "email") == Some(res.0.user.email)
      && Get(data, "password") == Some(res.0.user.passwordHash)
      && GetOr(data, "role", "user") == Some(res.0.user.role)
      && res.0.user.bio == GetOr(data, "bio", "")
      && res.0.user.isBanned == 0
  {
    if req.verb != "POST" then (Rejected(UsePost), st)
    else if req.body.None? then (Rejected(MalformedBody), st)
    else
      var data := req.body.value;
      var username := Get(data, "username");
      var email := Get(data, "email");
      var password := Get(data, "password");
      if !Truthy(username) || !Truthy(email) || !Truthy(password) then (Rejected(MissingFields), st)
      else if |WithEmail(st.rows, email.value)| > 0 then (Rejected(EmailExists), st)
      else if |WithUsername(st.rows, username.value)| > 0 then (Rejected(UsernameExists), st)
      else
        match GetOr(data, "role", "user")
        case None => (Rejected(NullRole), st)
        case Some(role) =>
          var user := User(st.nextId, username.value, email.value, password.value,
                           role, GetOr(data, "bio", ""), 0);
          (Accepted(user), UserStore(st.rows + [user], st.nextId + 1))
  }

  /** Which signups fail, and why: the checks run in the order method, body,
      missing fields, email taken, username taken; every other request succeeds. */
  lemma SignupDecision(st: UserStore, req: HttpRequest)
    ensures req.verb != "POST" ==> Signup(st, req).0 == Rejected(UsePost)
    ensures req.verb == "POST" && req.body.None? ==> Signup(st, req).0 == Rejected(MalformedBody)
    ensures req.verb == "POST" && req.body.Some? ==>
      var data := req.body.value;
      var username := Get(data, "username");
      var email := Get(data, "email");
      var password := Get(data, "password");
      var complete := Truthy(username) && Truthy(email) && Truthy(password);
      var emailTaken := complete && exists i :: 0 <= i < |st.rows| && st.rows[i].email == email.value;
      var nameTaken := complete && exists i :: 0 <= i < |st.rows| && st.rows[i].username == username.value;
      && (!complete <==> Signup(st, req).0 == Rejected(MissingFields))
      && (emailTaken <==> Signup(st, req).0 == Rejected(EmailExists))
      && (!emailTaken && nameTaken <==> Signup(st, req).0 == Rejected(UsernameExists))
      && ((complete && !emailTaken && !nameTaken && GetOr(data, "role", "user").None?)
          <==> Signup(st, req).0 == Rejected(NullRole))
      && ((complete && !emailTaken && !nameTaken && GetOr(data, "role", "user").Some?)
          <==> Signup(st, req).0.Accepted?)
  {
    if req.verb == "POST" && req.body.Some? {
      var data := req.body.value;
      var username := Get(data, "username");
      var email := Get(data, "email");
      if Truthy(username) && Truthy(email) {
        var byEmail := WithEmail(st.rows, email.value);
        var byName := WithUsername(st.rows, username.value);
        assert |byEmail| > 0 <==> exists i :: 0 <= i < |st.rows| && st.rows[i].email == email.value by {
          if |byEmail| > 0 { assert byEmail[0] in st.rows; }
        }
        assert |byName| > 0 <==> exists i :: 0 <= i < |st.rows| && st.rows[i].username == username.value by {
          if |byName| > 0 { assert byName[0] in st.rows; }
        }
      }
    }
  }

  /** A signup keeps ids, usernames and emails unique. */
  lemma SignupKeepsValid(st: UserStore, req: HttpRequest)
    requires Valid(st)
    ensures Valid(Signup(st, req).1)
  {
    SignupDecision(st, req);
    var (reply, st') := Signup(st, req);
    if reply.Accepted? {
      var u := reply.user;
      assert forall i :: 0 <= i < |st.rows| ==> st.rows[i].email != u.email;
      assert forall i :: 0 <= i < |st.rows| ==> st.rows[i].username != u.username;
    }
  }

  /** Usernames and emails stay unique through any sequence of signups. */
  lemma {:induction false} SignupsKeepValid(st: UserStore, reqs: seq<HttpRequest>)
    requires Valid(st)
    ensures Valid(SignupAll(st, reqs))
    decreases |reqs|
  {
    if |reqs| > 0 {
      SignupKeepsValid(st, reqs[0]);
      SignupsKeepValid(Signup(st, reqs[0]).1, reqs[1..]);
    }
  }

  /** The store after handling `reqs` in order. */
  function SignupAll(st: UserStore, reqs: seq<HttpRequest>): UserStore
    decreases |reqs|
  {
    if |reqs| == 0 then st else SignupAll(Signup(st, reqs[0]).1, reqs[1..])
  }

  /** A signup whose email and username are both taken reports the email:
      the email check runs first. */
  lemma EmailCheckedFirst(st: UserStore, req: HttpRequest, i: nat, j: nat)
    requires req.verb == "POST" && req.body.Some?
    requires Truthy(Get(req.body.value, "username")) && Truthy(Get(req.body.value, "email"))
    requires Truthy(Get(req.body.value, "password"))
    requires i < |st.rows| && st.rows[i].email == Get(req.body.value, "email").value
    requires j < |st.rows| && st.rows[j].username == Get(req.body.value, "username").value
    ensures Signup(st, req).0 == Rejected(EmailExists)
  {
  }

  /** After a successful signup the new user can log in with the same email
      and password, and login reports exactly the stored row. */
  lemma SignupThenLogin(st: UserStore, req: HttpRequest, login: HttpRequest)
    requires Valid(st)
    requires Signup(st, req).0.Accepted?
    requires login.verb == "POST" && login.body.Some?
    requires Get(login.body.value, "email") == Get(req.body.value, "email")
    requires Get(login.body.value, "password") == Get(req.body.value, "password")
    ensures Login(Signup(st, req).1, login) == Signup(st, req).0
  {
    var (reply, st') := Signup(st, req);
    var email := Get(req.body.value, "email").value;
    SignupKeepsValid(st, req);
    assert st'.rows[|st'.rows| - 1] == reply.user;
    UniqueEmailMatch(st'.rows, email, |st'.rows| - 1);
  }

  /** With unique emails, filtering by the email of row `k` yields that row alone. */
  lemma UniqueEmailMatch(rows: seq<User>, email: string, k: nat)
    requires forall i, j :: 0 <= i < j < |rows| ==> rows[i].email != rows[j].email
    requires k < |rows| && rows[k].email == email
    ensures WithEmail(rows, email) == [rows[k]]
  {
    var m := WithEmail(rows, email);
    var p := (u: User) => u.email == email;
    assert |m| == Count(rows, p);
    CountOne(rows, p, k);
    assert rows[k] in m;
  }

  /** Exactly one row satisfies `p` when `p` holds of row `k` and no two rows
      share an email while `p` constrains the email. */
  lemma {:induction false} CountOne(rows: seq<User>, p: User -> bool, k: nat)
    requires forall i, j :: 0 <= i < j < |rows| ==> rows[i].email != rows[j].email
    requires k < |rows| && p(rows[k])
    requires forall u :: p(u) ==> u.email == rows[k].email
    ensures Count(rows, p) == 1
  {
    if k == 0 {
      assert forall i :: 0 <= i < |rows[1..]| ==> !p(rows[1..][i]) by {
        forall i | 0 <= i < |rows[1..]| ensures !p(rows[1..][i]) {
          assert rows[1..][i] == rows[i + 1];
        }
      }
    } else {
      assert !p(rows[0]);
      CountOne(rows[1..], p, k - 1);
    }
  }

  /** In a valid table a username names at most one row. */
  lemma UsernameUnique(st: UserStore, name: string)
    requires Valid(st)
    ensures |WithUsername(st.rows, name)| <= 1
  {
    var p := (u: User) => u.username == name;
    if k :| 0 <= k < |st.rows| && st.rows[k].username == name {
      assert Distinct(st.rows) by {
        forall i, j | 0 <= i < j < |st.rows| ensures st.rows[i] != st.rows[j] {
          assert st.rows[i].id < st.rows[j].id;
        }
      }
      CountAtMostOne(st.rows, p, st.rows[k]);
    }
  }
}

=== FILE: answers.dfy ===
/**
  Answers (backend/answers/models.py): the best-answer flag and its
  `mark_as_best` operation, the default order, and `vote_count`.
 */
module Answers {

  import opened CoreModels
  import Ordering
  import Voting

  datatype Answer = Answer(id: nat, question: nat, body: string, user: UserId, createdAt: int, isBest: bool)

  /** A new answer is not the best one. */
  function NewAnswer(id: nat, question: nat, body: string, user: UserId, createdAt: int): (a: Answer)
    ensures !a.isBest
    ensures a.id == id && a.question == question && a.body == body && a.user == user && a.createdAt == createdAt
  {
    Answer(id, question, body, user, createdAt, false)
  }

  /** No question has two best answers. */
  predicate AtMostOneBest(answers: seq<Answer>) {
    forall i, j :: 0 <= i < j < |answers| && answers[i].question == answers[j].question
      ==> !(answers[i].isBest && answers[j].isBest)
  }

  /** `answers[k].mark_as_best()`: every best answer of the same question is
      unmarked, then this one is marked. */
  function MarkAsBest(answers: seq<Answer>, k: nat): (r: seq<Answer>)
    requires k < |answers|
    ensures |r| == |answers|
    ensures r[k] == answers[k].(isBest := true)
    ensures forall i :: 0 <= i < |answers| && i != k && answers[i].question == answers[k].question ==>
      r[i] == answers[i].(isBest := false)
    ensures forall i :: 0 <= i < |answers| && answers[i].question != answers[k].question ==> r[i] == answers[i]
  {
    var q := answers[k].question;
    var cleared := seq(|answers|, i requires 0 <= i < |answers| =>
      if answers[i].question == q && answers[i].isBest then answers[i].(isBest := false) else answers[i]);
    cleared[k := answers[k].(isBest := true)]
  }

  /** After marking, the marked answer is its question's only best answer,
      and the one-best-per-question rule holds if it held before. */
  lemma MarkAsBestUnique(answers: seq<Answer>, k: nat)
    requires k < |answers|
    ensures var r := MarkAsBest(answers, k);
      forall i :: 0 <= i < |r| && r[i].question == answers[k].question && r[i].isBest ==> i == k
    ensures AtMostOneBest(answers) ==> AtMostOneBest(MarkAsBest(answers, k))
  {
  }

  /** Marking the same answer again changes nothing. */
  lemma MarkAsBestIdempotent(answers: seq<Answer>, k: nat)
    requires k < |answers|
    ensures MarkAsBest(MarkAsBest(answers, k), k) == MarkAsBest(answers, k)
  {
  }

  /** `Meta.ordering = ['-is_best_answer', '-created_at']` */
  predicate BestThenNewer(a: Answer, b: Answer) {
    (a.isBest && !b.isBest) || (a.isBest == b.isBest && a.createdAt >= b.createdAt)
  }

  lemma BestThenNewerPreorder()
    ensures Ordering.Preorder(BestThenNewer)
  {
  }

  /** The answers in their default order: the same answers, best ones first,
      and newest first among answers with the same flag. */
  function ListAnswers(answers: seq<Answer>): (r: seq<Answer>)
    ensures multiset(r) == multiset(answers)
    ensures forall i, j :: 0 <= i < j < |r| && r[j].isBest ==> r[i].isBest
    ensures forall i, j :: 0 <= i < j < |r| && r[i].isBest == r[j].isBest ==> r[i].createdAt >= r[j].createdAt
  {
    BestThenNewerPreorder();
    var r := Ordering.Sort(answers, BestThenNewer);
    assert forall i, j :: 0 <= i < j < |r| ==> BestThenNewer(r[i], r[j]);
    r
  }

  /** `Answer.vote_count`: up votes minus down votes on this answer. */
  function VoteCount(a: Answer, votes: seq<Vote>): (r: int)
    ensures -(Voting.VotesOn(votes, AnswerKind, a.id) as int) <= r <= Voting.VotesOn(votes, AnswerKind, a.id)
  {
    Voting.Score(votes, AnswerKind, a.id)
  }
}

=== FILE: auth_serializers.dfy ===
/**
  The REST serializers over Django's configured user model
  (backend/users/serializers.py): `LoginSerializer.validate` and
  `RegisterSerializer.validate_email`. This user model is a different table
  from the one in backend/users/models.py; it carries `is_active` and
  `date_joined`. Django's `authenticate` (password hashing, backends) is a
  parameter: a function from a username and password to the user it accepts.
 */
module AuthUsers {

  import opened Wrappers
  import opened Seqs
  import opened Text
  import opened Fields

  /** A row of the configured user model. */
  datatype AuthUser = AuthUser(
    id: nat,
    username: string,
    email: string,
    role: string,
    isActive: bool,
    dateJoined: int)

  /** `User.objects.filter(email=email)` */
  function ByEmail(users: seq<AuthUser>, email: string): (r: seq<AuthUser>)
    ensures forall i :: 0 <= i < |r| ==> r[i] in users && r[i].email == email
    ensures forall i :: 0 <= i < |users| && users[i].email == email ==> users[i] in r
  {
    Filter(users, (u: AuthUser) => u.email == email)
  }

  /** The submitted login fields; each may be absent. */
  datatype LoginData = LoginData(username: Option<string>, email: Option<string>, password: Option<string>)

  datatype LoginError =
    | PasswordRequired        // "Password is required."
    | IdentifierRequired      // "Username or Email is required."
    | InvalidCredentials      // "Invalid credentials."
    | AccountDisabled         // "User account is disabled."
    | MultipleObjectsReturned // `get(email=...)` matched several rows; not a validation error

  function Message(e: LoginError): string {
    match e
    case PasswordRequired => "Password is required."
    case IdentifierRequired => "Username or Email is required."
    case InvalidCredentials => "Invalid credentials."
    case AccountDisabled => "User account is disabled."
    case MultipleObjectsReturned => "<server error>"
  }

  datatype LoginResult = Validated(user: AuthUser) | Invalid(error: LoginError)

  /** The last two checks, applied to what `authenticate` returned. */
  function Conclude(found: Option<AuthUser>): (r: LoginResult)
    ensures found.None? ==> r == Invalid(InvalidCredentials)
    ensures found.Some? && !found.value.isActive ==> r == Invalid(AccountDisabled)
    ensures r.Validated? <==> found.Some? && found.value.isActive
    ensures r.Validated? ==> r.user == found.value
  {
    match found
    case None => Invalid(InvalidCredentials)
    case Some(u) => if !u.isActive then Invalid(AccountDisabled) else Validated(u)
  }

  /** `LoginSerializer.validate`. The password is checked first, then that some
      identifier is given. When an email is given, the username passed to
      `authenticate` is the one stored for that email, whatever username was
      submitted. */
  function ValidateLogin(users: seq<AuthUser>, data: LoginData,
                         authenticate: (string, string) -> Option<AuthUser>): (r: LoginResult)
    ensures !Truthy(data.password) <==> r == Invalid(PasswordRequired)
    ensures (Truthy(data.password) && !Truthy(data.username) && !Truthy(data.email))
              <==> r == Invalid(IdentifierRequired)
    ensures (Truthy(data.password) && Truthy(data.email) && |ByEmail(users, data.email.value)| == 0)
              ==> r == Invalid(InvalidCredentials)
    ensures (Truthy(data.password) && Truthy(data.email) && |ByEmail(users, data.email.value)| > 1)
              <==> r == Invalid(MultipleObjectsReturned)
    ensures (Truthy(data.password) && Truthy(data.email) && |ByEmail(users, data.email.value)| == 1)
              ==> r == Conclude(authenticate(ByEmail(users, data.email.value)[0].username, data.password.value))
    ensures (Truthy(data.password) && !Truthy(data.email) && Truthy(data.username))
              ==> r == Conclude(authenticate(data.username.value, data.password.value))
    ensures r.Validated? ==> r.user.isActive
  {
    if !Truthy(data.password) then Invalid(PasswordRequired)
    else if !Truthy(data.username) && !Truthy(data.email) then Invalid(IdentifierRequired)
    else if Truthy(data.email) then
      var matches := ByEmail(users, data.email.value);
      if |matches| == 0 then Invalid(InvalidCredentials)
      else if |matches| > 1 then Invalid(MultipleObjectsReturned)
      else Conclude(authenticate(matches[0].username, data.password.value))
    else Conclude(authenticate(data.username.value, data.password.value))
  }

  /** The login members as they arrive, before the field step. */
  datatype LoginFields = LoginFields(username: Field<string>, email: Field<string>, password: Field<string>)

  /** The field errors of a refused login; `None` for a field that passed. */
  datatype LoginFieldErrors = LoginFieldErrors(username: Option<FieldError>, email: Option<FieldError>, password: Option<FieldError>)

  /** `is_valid` on a `LoginSerializer`: a 400 with field errors, or what
      `validate` concluded. */
  datatype LoginOutcome = LoginFieldsRefused(errors: LoginFieldErrors) | Concluded(result: LoginResult)

  /** `username = CharField(required=False)` */
  function CheckUsername(f: LoginFields): Checked<string> {
    CheckText(f.username, false, false, None)
  }

  /** `email = EmailField(required=False)` */
  function CheckLoginEmail(f: LoginFields, isEmail: string -> bool): Checked<string> {
    CheckEmail(f.email, false, false, isEmail)
  }

  /** `password = CharField(write_only=True)`, required. */
  function CheckPassword(f: LoginFields): Checked<string> {
    CheckText(f.password, true, false, None)
  }

  /** The password field lets the request through: present and not blank. */
  predicate PasswordGiven(f: LoginFields) {
    f.password.Given? && !AllSpace(f.password.value)
  }

  /** `LoginSerializer.is_valid`: the field step, then `validate` on the
      cleaned values. Blank and missing passwords are refused by the field
      itself, so `validate`'s "Password is required." is never the answer;
      "Username or Email is required." is the answer exactly when a good
      password comes with neither identifier member; a blank or null
      identifier is a field error even when the other one is good; and the
      values `authenticate` sees are trimmed. Django's email validator is the
      parameter `isEmail`. */
  function IsValid(users: seq<AuthUser>, fields: LoginFields, isEmail: string -> bool,
                   authenticate: (string, string) -> Option<AuthUser>): (r: LoginOutcome)
    ensures r.LoginFieldsRefused? <==>
      CheckUsername(fields).Refused? || CheckLoginEmail(fields, isEmail).Refused? || CheckPassword(fields).Refused?
    ensures r.LoginFieldsRefused? ==>
      && (r.errors.username.Some? <==> CheckUsername(fields).Refused?)
      && (r.errors.email.Some? <==> CheckLoginEmail(fields, isEmail).Refused?)
      && (r.errors.password.Some? <==> !PasswordGiven(fields))
    ensures r != Concluded(Invalid(PasswordRequired))
    ensures r == Concluded(Invalid(IdentifierRequired)) <==>
      fields.username.Absent? && fields.email.Absent? && PasswordGiven(fields)
    ensures fields.username.Given? && !AllSpace(fields.username.value) && fields.email.Absent? && PasswordGiven(fields) ==>
      r == Concluded(Conclude(authenticate(Trim(fields.username.value), Trim(fields.password.value))))
    ensures CheckLoginEmail(fields, isEmail).Clean? && !CheckUsername(fields).Refused? && PasswordGiven(fields)
            && |ByEmail(users, Trim(fields.email.value))| == 1 ==>
      r == Concluded(Conclude(authenticate(ByEmail(users, Trim(fields.email.value))[0].username, Trim(fields.password.value))))
  {
    var username := CheckUsername(fields);
    var email := CheckLoginEmail(fields, isEmail);
    var password := CheckPassword(fields);
    if username.Refused? || email.Refused? || password.Refused? then
      LoginFieldsRefused(LoginFieldErrors(username.ErrorOf(), email.ErrorOf(), password.ErrorOf()))
    else
      Concluded(ValidateLogin(users, LoginData(username.ValueOf(), email.ValueOf(), password.ValueOf()), authenticate))
  }

  /** A login request carrying exactly the given values. */
  function LoginRequest(data: LoginData): LoginFields {
    LoginFields(
      if data.username.Some? then Given(data.username.value) else Absent,
      if data.email.Some? then Given(data.email.value) else Absent,
      if data.password.Some? then Given(data.password.value) else Absent)
  }

  lemma CleanFieldAgain(v: Option<string>, required: bool)
    requires v.Some? ==> CleanValue(v.value, None)
    requires required ==> v.Some?
    ensures CheckText(if v.Some? then Given(v.value) else Absent, required, false, None)
         == if v.Some? then Clean(v.value) else Skipped
  {
    if v.Some? { CleanTextFixes(v.value, None); }
  }

  /** On values the fields already accept, `is_valid` is `validate`: the
      field step changes nothing and refuses nothing. */
  lemma CleanLoginIsValidated(users: seq<AuthUser>, data: LoginData, isEmail: string -> bool,
                              authenticate: (string, string) -> Option<AuthUser>)
    requires data.password.Some? && CleanValue(data.password.value, None)
    requires data.username.Some? ==> CleanValue(data.username.value, None)
    requires data.email.Some? ==> CleanValue(data.email.value, None) && isEmail(data.email.value)
    ensures IsValid(users, LoginRequest(data), isEmail, authenticate) == Concluded(ValidateLogin(users, data, authenticate))
  {
    CleanFieldAgain(data.username, false);
    CleanFieldAgain(data.email, false);
    CleanFieldAgain(data.password, true);
  }

  /** The submitted username plays no part once an email is given: two
      requests that differ only in it validate alike. */
  lemma EmailOverridesUsername(users: seq<AuthUser>, data: LoginData, otherName: Option<string>,
                               authenticate: (string, string) -> Option<AuthUser>)
    requires Truthy(data.email)
    ensures ValidateLogin(users, data, authenticate)
         == ValidateLogin(users, data.(username := otherName), authenticate)
  {
  }

  datatype EmailCheck = EmailOk(value: string) | EmailTaken

  /** `RegisterSerializer.validate_email`: an email already in the table is
      refused; any other passes through unchanged. */
  function ValidateEmail(users: seq<AuthUser>, value: string): (r: EmailCheck)
    ensures r == EmailTaken <==> exists i :: 0 <= i < |users| && users[i].email == value
    ensures r.EmailOk? ==> r.value == value
  {
    var matches := ByEmail(users, value);
    if |matches| > 0 then
      assert matches[0] in users;
      EmailTaken
    else EmailOk(value)
  }
}

=== FILE: browser.dfy ===
/**
  What the pages see of the browser: `localStorage` as a map from keys to
  string values, the answer a `fetch` produced, and where the page asked
  the router to go.
 */
module Browser {

  import opened Wrappers

  type Storage = map<string, string>

  /** `localStorage.getItem(key)`; `None` stands for `null`. */
  function GetItem(s: Storage, key: string): Option<string> {
    if key in s then Some(s[key]) else None
  }

  /** The result of a `fetch`: the promise rejected, or the server answered
      with a status and a parsed body. */
  datatype Response<T> = NetworkError | Answered(status: int, body: T)

  /** `response.ok`: a status in the range 200-299. */
  predicate Ok<T>(r: Response<T>) {
    r.Answered? && 200 <= r.status <= 299
  }

  /** The navigation a handler requested, if any. */
  datatype Nav = Stay | GoTo(path: string)

  /** The text a template literal gives a stored token: the token itself, or
      "null" when there is none. */
  function TokenText(token: Option<string>): (r: string)
    ensures token.Some? ==> r == token.value
    ensures token.None? ==> r == "null"
  {
    match token
    case Some(t) => t
    case None => "null"
  }
}

=== FILE: cleanup.dfy ===
/**
  The maintenance script cleanup_users.py, `clean_duplicates`: for every
  non-empty email held by more than one user, keep the user who joined
  first and delete the others. The database does not fix an order among
  users who joined at the same instant; the model keeps the lower id.
 */
module Cleanup {

  import opened Seqs
  import opened AuthUsers

  /** `a` sorts no later than `b` under `order_by('date_joined')`, ties by id. */
  predicate JoinedNoLater(a: AuthUser, b: AuthUser) {
    a.dateJoined < b.dateJoined || (a.dateJoined == b.dateJoined && a.id <= b.id)
  }

  /** Primary keys are unique. */
  predicate UniqueIds(users: seq<AuthUser>) {
    forall i, j :: 0 <= i < j < |users| ==> users[i].id != users[j].id
  }

  /** `u` survives: its email is empty (skipped by the script), or it joined
      no later than every user sharing its email. */
  predicate Survives(users: seq<AuthUser>, u: AuthUser) {
    u.email == "" || forall j :: 0 <= j < |users| && users[j].email == u.email ==> JoinedNoLater(u, users[j])
  }

  /** The table after `clean_duplicates`. */
  function CleanDuplicates(users: seq<AuthUser>): (r: seq<AuthUser>)
    ensures forall i :: 0 <= i < |r| ==> r[i] in users
    ensures forall i :: 0 <= i < |users| && users[i].email == "" ==> users[i] in r
    ensures forall i :: 0 <= i < |users| && EmailCount(users, users[i].email) == 1 ==> users[i] in r
    ensures forall i, j :: 0 <= i < |r| && 0 <= j < |users| && r[i].email != "" && users[j].email == r[i].email
              ==> JoinedNoLater(r[i], users[j])
  {
    var r := Filter(users, (u: AuthUser) => Survives(users, u));
    assert forall i :: 0 <= i < |users| && EmailCount(users, users[i].email) == 1 ==> users[i] in r by {
      forall i | 0 <= i < |users| && EmailCount(users, users[i].email) == 1
        ensures users[i] in r
      {
        OnlyHolder(users, i);
      }
    }
    r
  }

  /** How many users hold `email`. */
  function EmailCount(users: seq<AuthUser>, email: string): nat {
    Count(users, (u: AuthUser) => u.email == email)
  }

  /** A user whose email nobody else holds is the only one to compare with. */
  lemma OnlyHolder(users: seq<AuthUser>, i: nat)
    requires i < |users| && EmailCount(users, users[i].email) == 1
    ensures Survives(users, users[i])
  {
    var e := users[i].email;
    forall j | 0 <= j < |users| && users[j].email == e
      ensures users[j] == users[i]
    {
      if users[j] != users[i] {
        TwoHolders(users, e, i, j);
      }
    }
  }

  /** Two different positions holding `e` make its count at least two. */
  lemma {:induction false} TwoHolders(users: seq<AuthUser>, e: string, i: nat, j: nat)
    requires i < |users| && j < |users| && i != j
    requires users[i].email == e && users[j].email == e
    ensures EmailCount(users, e) >= 2
  {
    var p := (u: AuthUser) => u.email == e;
    var lo := if i < j then i else j;
    var hi := if i < j then j else i;
    assert users == users[..hi] + users[hi..];
    CountAppend(users[..hi], users[hi..], p);
    assert users[..hi][lo] == users[lo];
    assert users[hi..][0] == users[hi];
  }

  /** Among the holders of a present email there is one that joined no later
      than all the others. */
  lemma {:induction false} EarliestHolder(users: seq<AuthUser>, e: string) returns (k: nat)
    requires exists i :: 0 <= i < |users| && users[i].email == e
    ensures k < |users| && users[k].email == e
    ensures forall j :: 0 <= j < |users| && users[j].email == e ==> JoinedNoLater(users[k], users[j])
  {
    if users[0].email == e && forall j :: 1 <= j < |users| && users[j].email == e ==> JoinedNoLater(users[0], users[j]) {
      k := 0;
    } else {
      var rest := users[1..];
      assert exists i :: 0 <= i < |rest| && rest[i].email == e by {
        if users[0].email == e {
          var j :| 1 <= j < |users| && users[j].email == e && !JoinedNoLater(users[0], users[j]);
          assert rest[j - 1].email == e;
        } else {
          var i :| 0 <= i < |users| && users[i].email == e;
          assert rest[i - 1].email == e;
        }
      }
      var k' := EarliestHolder(rest, e);
      k := k' + 1;
      forall j | 0 <= j < |users| && users[j].email == e
        ensures JoinedNoLater(users[k], users[j])
      {
        if j > 0 {
          assert rest[j - 1] == users[j];
        }
      }
    }
  }

  /** After cleanup every non-empty email that was present is held by exactly
      one user: each duplicated email lost all but one of its holders. */
  lemma ExactlyOneHolder(users: seq<AuthUser>, e: string)
    requires UniqueIds(users)
    requires e != ""
    requires exists i :: 0 <= i < |users| && users[i].email == e
    ensures EmailCount(CleanDuplicates(users), e) == 1
  {
    var r := CleanDuplicates(users);
    var p := (u: AuthUser) => u.email == e;
    var k := EarliestHolder(users, e);
    var keeper := users[k];
    assert Survives(users, keeper);
    assert keeper in r;
    DistinctByIds(users);
    FilterDistinct(users, (u: AuthUser) => Survives(users, u));
    forall i | 0 <= i < |r| && p(r[i])
      ensures r[i] == keeper
    {
      assert JoinedNoLater(r[i], keeper) && JoinedNoLater(keeper, r[i]);
      assert r[i].id == keeper.id;
      var m :| 0 <= m < |users| && users[m] == r[i];
      assert m == k;
    }
    CountAtMostOne(r, p, keeper);
    var ki :| 0 <= ki < |r| && r[ki] == keeper;
    assert Count(r, p) != 0;
  }

  lemma DistinctByIds(users: seq<AuthUser>)
    requires UniqueIds(users)
    ensures Distinct(users)
  {
  }

  /** No two survivors share a non-empty email. */
  lemma NoSharedEmail(users: seq<AuthUser>)
    requires UniqueIds(users)
    ensures var r := CleanDuplicates(users);
      forall i, j :: 0 <= i < j < |r| && r[i].email != "" ==> r[i].email != r[j].email
  {
    var r := CleanDuplicates(users);
    forall i, j | 0 <= i < j < |r| && r[i].email != ""
      ensures r[i].email != r[j].email
    {
      if r[i].email == r[j].email {
        var a :| 0 <= a < |users| && users[a].email == r[i].email;
        ExactlyOneHolder(users, r[i].email);
        TwoHolders(r, r[i].email, i, j);
      }
    }
  }

  /** A table without duplicated non-empty emails is left unchanged. */
  lemma NoDuplicatesUnchanged(users: seq<AuthUser>)
    requires forall i, j :: 0 <= i < j < |users| && users[i].email != "" ==> users[i].email != users[j].email
    ensures CleanDuplicates(users) == users
  {
    var p := (u: AuthUser) => Survives(users, u);
    forall i | 0 <= i < |users|
      ensures p(users[i])
    {
      forall j | 0 <= j < |users| && users[j].email == users[i].email && users[i].email != ""
        ensures users[j] == users[i]
      {
      }
    }
    FilterAll(users, p);
  }
}

=== FILE: config.dfy ===
/**
  The client's URL configuration: the API base URL chosen from the build
  environment (frontend/src/config/api.ts) and the server URL and path
  joining derived from it (frontend/src/config.ts).
 */
module ConfigApi {

  import opened Wrappers
  import opened Text

  const DefaultBase := "http://localhost:8000/api"

  /** `getApiBaseUrl`, with `VITE_API_URL` given as the environment's value
      (`None` when unset). An empty value counts as unset. */
  function ApiBaseUrl(env: Option<string>): (r: string)
    ensures Truthy(env) ==> r == env.value + "/api"
    ensures !Truthy(env) ==> r == DefaultBase
    ensures |r| >= 4 && r[|r| - 4..] == "/api"
  {
    if Truthy(env) then env.value + "/api" else DefaultBase
  }

  /** `getApiUrl`: the base followed by the endpoint, with a "/" put in
      front of an endpoint that lacks one. */
  function GetApiUrl(env: Option<string>, endpoint: string): (r: string)
    ensures StartsWith(r, ApiBaseUrl(env) + "/")
    ensures StartsWith(endpoint, "/") ==> r == ApiBaseUrl(env) + endpoint
    ensures !StartsWith(endpoint, "/") ==> r == ApiBaseUrl(env) + "/" + endpoint
  {
    var base := ApiBaseUrl(env);
    var normalized := if StartsWith(endpoint, "/") then endpoint else "/" + endpoint;
    assert (base + normalized)[..|base| + 1] == base + "/";
    base + normalized
  }

  /** Writing the leading slash or leaving it out names the same URL. */
  lemma {:induction false} GetApiUrlSlash(env: Option<string>, endpoint: string)
    requires !StartsWith(endpoint, "/")
    ensures GetApiUrl(env, "/" + endpoint) == GetApiUrl(env, endpoint)
  {
    assert StartsWith("/" + endpoint, "/");
    assert ApiBaseUrl(env) + ("/" + endpoint) == ApiBaseUrl(env) + "/" + endpoint;
  }
}

/**
  frontend/src/config.ts. Its `API_BASE_URL` comes from a module that does
  not export one, so the base is a parameter here.
 */
module AppConfig {

  import opened Text
  import ConfigApi

  /** `SERVER_URL`: the base with its first "/api" removed
      (`String.prototype.replace` with a string pattern). */
  function ServerUrl(base: string): (r: string)
    ensures (forall j: nat :: !OccursAt(base, "/api", j)) ==> r == base
    ensures forall i: nat :: FirstOccurrence(base, "/api", i) ==> r == base[..i] + base[i + 4..]
    ensures forall i: nat :: FirstOccurrence(base, "/api", i) ==> |r| == |base| - 4
  {
    ReplaceFirst(base, "/api", "")
  }

  /** `getServerUrl()` */
  function GetServerUrl(base: string): string {
    ServerUrl(base)
  }

  /** `API_URL` */
  function ApiUrlConstant(base: string): string {
    base
  }

  /** The path as `apiUrl` appends it: one leading "/" (if any) dropped. */
  function CleanPath(path: string): (r: string)
    ensures StartsWith(path, "/") ==> r == path[1..]
    ensures !StartsWith(path, "/") ==> r == path
  {
    if StartsWith(path, "/") then path[1..] else path
  }

  /** `apiUrl(path)`: `SERVER_URL`, one "/", and the path with one leading
      "/" (if any) dropped. */
  function ApiUrl(base: string, path: string): (r: string)
    ensures StartsWith(r, GetServerUrl(base) + "/")
    ensures !StartsWith(path, "/") ==> r == GetServerUrl(base) + "/" + path
    ensures StartsWith(path, "/") ==> r == GetServerUrl(base) + "/" + path[1..]
  {
    var server := GetServerUrl(base);
    assert (server + "/" + CleanPath(path))[..|server| + 1] == server + "/";
    server + "/" + CleanPath(path)
  }

  /** One leading slash is optional; a second one is kept. */
  lemma {:induction false} ApiUrlSlash(base: string, path: string)
    requires !StartsWith(path, "/")
    ensures ApiUrl(base, "/" + path) == ApiUrl(base, path)
    ensures ApiUrl(base, "//" + path) == GetServerUrl(base) + "//" + path
  {
    assert StartsWith("/" + path, "/");
    assert ("/" + path)[1..] == path;
    assert StartsWith("//" + path, "/");
    assert ("//" + path)[1..] == "/" + path;
  }

  /** `apiUrl` on the corrected server URL (see `ServerUrlTrailing`): for a
      base `host + "/api"` it points under the host. */
  function ApiUrlCorrected(base: string, path: string): (r: string)
    ensures StartsWith(r, ServerUrlTrailing(base) + "/")
    ensures r[|ServerUrlTrailing(base)| + 1..] == CleanPath(path)
  {
    var server := ServerUrlTrailing(base);
    var r := server + "/" + CleanPath(path);
    assert r[..|server| + 1] == server + "/";
    r
  }

  /** Where "/api" occurs only at the end of the base, as in the development
      base, the corrected endpoint URL is the one the code builds. */
  lemma ApiUrlAgreesWhenTrailing(base: string, path: string)
    requires |base| >= 4 && base[|base| - 4..] == "/api"
    requires forall j: nat :: j < |base| - 4 ==> !OccursAt(base, "/api", j)
    ensures ApiUrlCorrected(base, path) == ApiUrl(base, path)
  {
    TrailingAgreesWithWritten(base);
  }

  /** With a host named "api.…" the code's endpoint URL keeps "/api" and
      loses a slash of "//", while the corrected one points under the host. */
  lemma ApiUrlHostNamedApi(s: string)
    requires s == "https://api.example.com/api"
    ensures ApiUrl(s, "/x") == "https:/.example.com/api/x"
    ensures ApiUrlCorrected(s, "/x") == "https://api.example.com/x"
  {
    ServerUrlHostNamedApi(s);
    ServerUrlTrailingHost("https://api.example.com");
    assert s == "https://api.example.com" + "/api";
    assert StartsWith("/x", "/") && "/x"[1..] == "x";
  }

  /** Where "/api" occurs only at the end of the base, as in the development
      base, the corrected server URL is the one the code computes. */
  lemma TrailingAgreesWithWritten(base: string)
    requires |base| >= 4 && base[|base| - 4..] == "/api"
    requires forall j: nat :: j < |base| - 4 ==> !OccursAt(base, "/api", j)
    ensures ServerUrlTrailing(base) == ServerUrl(base)
  {
    var i := |base| - 4;
    assert base[i..i + 4] == "/api";
    assert FirstOccurrence(base, "/api", i);
    assert base[i + 4..] == "";
  }

  /** A position whose first two characters differ from the pattern's is
      not a match. */
  lemma NoMatchAt(s: string, pat: string, j: nat)
    requires |pat| >= 2 && j + 1 < |s|
    requires s[j] != pat[0] || s[j + 1] != pat[1]
    ensures !OccursAt(s, pat, j)
  {
    if j + |pat| <= |s| {
      assert s[j..j + |pat|][0] == s[j] && s[j..j + |pat|][1] == s[j + 1];
    }
  }

  /** With the development base the server URL is the bare host. */
  lemma LocalServerUrl(s: string)
    requires s == ConfigApi.DefaultBase
    ensures ServerUrl(s) == "http://localhost:8000"
    ensures ServerUrlTrailing(s) == "http://localhost:8000"
  {
    assert s[21..25] == "/api";
    forall j: nat | j < 21 ensures !OccursAt(s, "/api", j) {
      assert s[j] != '/' || s[j + 1] != 'a' by {
        assert j == 0 || j == 1 || j == 2 || j == 3 || j == 4 || j == 5 || j == 6 || j == 7 || j == 8 || j == 9
          || j == 10 || j == 11 || j == 12 || j == 13 || j == 14 || j == 15 || j == 16 || j == 17 || j == 18
          || j == 19 || j == 20;
      }
      NoMatchAt(s, "/api", j);
    }
    assert FirstOccurrence(s, "/api", 21);
    assert s[..21] + s[25..] == "http://localhost:8000";
    TrailingAgreesWithWritten(s);
  }

  /** A base whose host name begins with "api." also contains "/api" in its
      "//" separator, and that earlier match is the one removed. */
  lemma ServerUrlHostNamedApi(s: string)
    requires s == "https://api.example.com/api"
    ensures ServerUrl(s) == "https:/.example.com/api"
  {
    assert s[7..11] == "/api";
    forall j: nat | j < 7 ensures !OccursAt(s, "/api", j) {
      assert s[j] != '/' || s[j + 1] != 'a' by {
        assert j == 0 || j == 1 || j == 2 || j == 3 || j == 4 || j == 5 || j == 6;
      }
      NoMatchAt(s, "/api", j);
    }
    assert FirstOccurrence(s, "/api", 7);
    assert s[..7] + s[11..] == "https:/.example.com/api";
  }

  /** The server URL as the comment beside `SERVER_URL` describes it: the
      base without its trailing "/api" (every base `getApiBaseUrl` builds
      has one). */
  function ServerUrlTrailing(base: string): (r: string)
    ensures |base| >= 4 && base[|base| - 4..] == "/api" ==> r + "/api" == base
    ensures !(|base| >= 4 && base[|base| - 4..] == "/api") ==> r == base
  {
    if |base| >= 4 && base[|base| - 4..] == "/api" then
      assert base == base[..|base| - 4] + base[|base| - 4..];
      base[..|base| - 4]
    else base
  }

  /** For every host, including one named "api.…", the corrected server URL
      is the host itself. */
  lemma ServerUrlTrailingHost(host: string)
    ensures ServerUrlTrailing(host + "/api") == host
  {
    var b := host + "/api";
    assert b[|b| - 4..] == "/api";
    assert b[..|b| - 4] == host;
  }
}

=== FILE: core_models.dfy ===
/**
  The shared content records of backend/core/models.py: tags, votes,
  comments, notifications and reports. A generic foreign key
  (`content_type`, `object_id`) is a `ContentKind` and an id. Timestamps are
  left out of the records that only carry them for display.
 */
module CoreModels {

  import opened Wrappers

  type UserId = nat

  /** The models a generic foreign key can point at here. */
  datatype ContentKind = QuestionKind | AnswerKind | CommentKind

  /** A tag: the name is unique and `usage_count` is a non-negative counter. */
  datatype Tag = Tag(name: string, description: string, usageCount: nat)

  /** A newly created tag: blank description, usage 0. */
  function NewTag(name: string): (t: Tag)
    ensures t.name == name && t.usageCount == 0 && t.description == ""
  {
    Tag(name, "", 0)
  }

  /** No two tags share a name. */
  predicate UniqueTagNames(tags: seq<Tag>) {
    forall i, j :: 0 <= i < j < |tags| ==> tags[i].name != tags[j].name
  }

  /** A vote. Its type is meant to be "up" or "down" (the field's choices),
      but nothing on the vote endpoint's path checks that, so it is a string. */
  datatype Vote = Vote(user: UserId, voteType: string, kind: ContentKind, objectId: nat)

  /** The triple declared `unique_together`. */
  datatype VoteKey = VoteKey(user: UserId, kind: ContentKind, objectId: nat)

  function KeyOf(v: Vote): VoteKey {
    VoteKey(v.user, v.kind, v.objectId)
  }

  /** `unique_together = ('user', 'content_type', 'object_id')` */
  predicate OneVotePerKey(votes: seq<Vote>) {
    forall i, j :: 0 <= i < j < |votes| ==> KeyOf(votes[i]) != KeyOf(votes[j])
  }

  /** Every vote has one of the two declared types. */
  predicate WellTyped(votes: seq<Vote>) {
    forall i :: 0 <= i < |votes| ==> votes[i].voteType in {"up", "down"}
  }

  datatype Comment = Comment(user: UserId, content: string, kind: ContentKind, objectId: nat)

  /** A notification. Its `user` is the recipient, `actor` the user whose
      action caused it, and `target` the optional generic reference to the
      content it is about. */
  datatype Notification = Notification(
    id: nat,
    user: UserId,
    kind: string,
    message: string,
    isRead: bool,
    link: string,
    actor: Option<UserId>,
    target: Option<(ContentKind, nat)>)

  /** A notification as `Notification.objects.create` stores it when the
      recipient, type, message, actor and target are given: unread, no link. */
  function NewNotification(id: nat, user: UserId, kind: string, message: string,
                           actor: Option<UserId>, target: Option<(ContentKind, nat)>): (n: Notification)
    ensures !n.isRead && n.link == ""
    ensures n.user == user && n.kind == kind && n.message == message && n.actor == actor && n.target == target
  {
    Notification(id, user, kind, message, false, "", actor, target)
  }

  datatype ReportStatus = Pending | Reviewed | Resolved

  datatype Report = Report(reporter: UserId, reason: string, status: ReportStatus, kind: ContentKind, objectId: nat)

  /** A report as first filed: its status is pending. */
  function NewReport(reporter: UserId, reason: string, kind: ContentKind, objectId: nat): (r: Report)
    ensures r.status == Pending
    ensures r.reporter == reporter && r.reason == reason && r.kind == kind && r.objectId == objectId
  {
    Report(reporter, reason, Pending, kind, objectId)
  }
}

=== FILE: core_views.dfy ===
/**
  The two listing views of backend/core/views.py: the notifications of the
  requesting user, and the tags by popularity.
 */
module CoreViews {

  import opened Seqs
  import opened CoreModels
  import Ordering

  /** `NotificationListView.get_queryset`: the notifications addressed to the
      requesting user, in stored order. */
  function NotificationsFor(notes: seq<Notification>, user: UserId): (r: seq<Notification>)
    ensures forall i :: 0 <= i < |r| ==> r[i] in notes && r[i].user == user
    ensures forall i :: 0 <= i < |notes| && notes[i].user == user ==> notes[i] in r
  {
    Filter(notes, (n: Notification) => n.user == user)
  }

  /** `order_by('-usage_count')` */
  predicate MoreUsed(a: Tag, b: Tag) {
    a.usageCount >= b.usageCount
  }

  lemma MoreUsedPreorder()
    ensures Ordering.Preorder(MoreUsed)
  {
  }

  /** `TagListView.queryset`: every tag once, most used first. */
  function ListTags(tags: seq<Tag>): (r: seq<Tag>)
    ensures multiset(r) == multiset(tags)
    ensures forall i, j :: 0 <= i < j < |r| ==> r[i].usageCount >= r[j].usageCount
  {
    MoreUsedPreorder();
    Ordering.Sort(tags, MoreUsed)
  }
}

=== FILE: fields.dfy ===
/**
  The field step of Django REST framework's `Serializer.is_valid`, for the
  field kinds the backend's serializers declare: `CharField` with its
  defaults (`allow_blank=False`, `allow_null=False`, `trim_whitespace=True`),
  an optional `max_length`, `EmailField`, and `ListField` of such
  `CharField`s. The step runs on every field before any `validate` hook,
  `create` or `update`; a refused field makes the request a 400 with one
  error per field.
 */
module Fields {

  import opened Wrappers
  import opened Text

  /** A member of the request body as a field receives it: missing, an
      explicit JSON null, or a value. */
  datatype Field<T> = Absent | Null | Given(value: T)

  /** The field errors the model covers, by DRF's error code. */
  datatype FieldError =
    | Required      // "This field is required."
    | NotNull       // "This field may not be null."
    | Blank         // "This field may not be blank."
    | TooLong       // "Ensure this field has no more than N characters."
    | InvalidEmail  // "Enter a valid email address."

  /** What one field contributes: nothing (a `SkipField`), a cleaned value,
      or an error. */
  datatype Checked<T> = Skipped | Clean(value: T) | Refused(error: FieldError) {

    /** The error to report, if any. */
    function ErrorOf(): Option<FieldError> {
      if Refused? then Some(error) else None
    }

    /** The cleaned value, if any. */
    function ValueOf(): Option<T> {
      if Clean? then Some(value) else None
    }
  }

  /** What a `CharField` lets through: trimmed, not blank, and within the
      length limit if there is one. */
  predicate CleanValue(s: string, maxLength: Option<nat>) {
    s != "" && Trimmed(s) && (maxLength.None? || |s| <= maxLength.value)
  }

  /** `CharField.run_validation` on a present string: a value that is blank
      once trimmed is refused first, then the trimmed value is held to
      `max_length`. */
  function CleanText(s: string, maxLength: Option<nat>): (r: Checked<string>)
    ensures !r.Skipped?
    ensures r == Refused(Blank) <==> AllSpace(s)
    ensures r == Refused(TooLong) <==> !AllSpace(s) && maxLength.Some? && |Trim(s)| > maxLength.value
    ensures r.Clean? ==> r.value == Trim(s) && CleanValue(r.value, maxLength)
  {
    if AllSpace(s) then Refused(Blank)
    else if maxLength.Some? && |Trim(s)| > maxLength.value then Refused(TooLong)
    else Clean(Trim(s))
  }

  /** A value that is already clean passes the field unchanged, so cleaning
      twice is cleaning once. */
  lemma CleanTextFixes(s: string, maxLength: Option<nat>)
    requires CleanValue(s, maxLength)
    ensures CleanText(s, maxLength) == Clean(s)
  {
    TrimOfTrimmed(s);
  }

  /** A `CharField` as a whole: a missing member is an error only for a
      required field outside a partial update, a null is always an error,
      and a present string is cleaned. */
  function CheckText(f: Field<string>, required: bool, partial: bool, maxLength: Option<nat>): (r: Checked<string>)
    ensures r == Skipped <==> f.Absent? && (!required || partial)
    ensures r == Refused(Required) <==> f.Absent? && required && !partial
    ensures r == Refused(NotNull) <==> f.Null?
    ensures f.Given? ==> r == CleanText(f.value, maxLength)
  {
    match f
    case Absent => if required && !partial then Refused(Required) else Skipped
    case Null => Refused(NotNull)
    case Given(s) => CleanText(s, maxLength)
  }

  /** An `EmailField`: a `CharField` whose cleaned value must also pass the
      email validator, here a parameter. */
  function CheckEmail(f: Field<string>, required: bool, partial: bool,
                      isEmail: string -> bool): (r: Checked<string>)
    ensures r == Refused(InvalidEmail) <==> f.Given? && !AllSpace(f.value) && !isEmail(Trim(f.value))
    ensures r.Clean? <==> f.Given? && !AllSpace(f.value) && isEmail(Trim(f.value))
    ensures r.Clean? ==> r.value == Trim(f.value) && CleanValue(r.value, None)
    ensures !f.Given? ==> r == CheckText(f, required, partial, None)
  {
    match CheckText(f, required, partial, None)
    case Clean(s) => if isEmail(s) then Clean(s) else Refused(InvalidEmail)
    case other => other
  }

  /** A list field's error: a null list, or the errors of its items by
      position. */
  datatype ListError = ListNull | ItemErrors(items: map<nat, FieldError>)

  datatype ListChecked = ListSkipped | ListClean(values: seq<string>) | ListRefused(error: ListError) {

    function ErrorOf(): Option<ListError> {
      if ListRefused? then Some(error) else None
    }

    function ValuesOf(): Option<seq<string>> {
      if ListClean? then Some(values) else None
    }
  }

  /** The positions whose item the child field refuses, with its error. */
  function ItemProblems(items: seq<string>, maxLength: Option<nat>): (r: map<nat, FieldError>)
    ensures forall i: nat :: i in r <==> i < |items| && CleanText(items[i], maxLength).Refused?
    ensures forall i: nat :: i in r ==> i < |items| && r[i] == CleanText(items[i], maxLength).error
  {
    map i: nat | i < |items| && CleanText(items[i], maxLength).Refused? :: CleanText(items[i], maxLength).error
  }

  /** Each item of a list passes its child field exactly when no position
      is reported. */
  lemma NoItemProblems(items: seq<string>, maxLength: Option<nat>)
    ensures ItemProblems(items, maxLength) == map[]
      <==> forall i :: 0 <= i < |items| ==> CleanText(items[i], maxLength).Clean?
  {
    var m := ItemProblems(items, maxLength);
    if m == map[] {
      forall i | 0 <= i < |items| ensures CleanText(items[i], maxLength).Clean? {
        assert i !in m;
      }
    } else {
      var k :| k in m;
      assert !CleanText(items[k], maxLength).Clean?;
    }
  }

  /** An optional `ListField(child=CharField(max_length=…))`: a missing list
      is skipped, a null list is refused, and a present list is accepted
      only when every item is, each item then trimmed. */
  function CheckList(f: Field<seq<string>>, maxLength: Option<nat>): (r: ListChecked)
    ensures r == ListSkipped <==> f.Absent?
    ensures r == ListRefused(ListNull) <==> f.Null?
    ensures f.Given? ==>
      (r.ListClean? <==> forall i :: 0 <= i < |f.value| ==> CleanText(f.value[i], maxLength).Clean?)
    ensures r.ListClean? ==>
      && r.values == TrimAll(f.value)
      && forall i :: 0 <= i < |r.values| ==> CleanValue(r.values[i], maxLength)
    ensures f.Given? && r.ListRefused? ==> r.error == ItemErrors(ItemProblems(f.value, maxLength))
  {
    match f
    case Absent => ListSkipped
    case Null => ListRefused(ListNull)
    case Given(items) =>
      NoItemProblems(items, maxLength);
      var problems := ItemProblems(items, maxLength);
      if problems != map[] then ListRefused(ItemErrors(problems))
      else ListClean(TrimAll(items))
  }

  /** A list that is already clean passes unchanged. */
  lemma CheckListFixes(values: seq<string>, maxLength: Option<nat>)
    requires forall i :: 0 <= i < |values| ==> CleanValue(values[i], maxLength)
    ensures CheckList(Given(values), maxLength) == ListClean(values)
  {
    forall i | 0 <= i < |values| ensures CleanText(values[i], maxLength) == Clean(values[i]) {
      CleanTextFixes(values[i], maxLength);
    }
    NoItemProblems(values, maxLength);
    assert TrimAll(values) == values;
  }
}

=== FILE: http.dfy ===
/**
  Request construction on the client: the two copies of `getHeaders`
  (frontend/src/services/api.ts and frontend/src/utils/apiHelpers.ts), the
  `apiGet` / `apiPost` helpers and the storage effect of the services
  module's `authAPI.logout`. Headers are a map from name to value.
 */
module ServicesApi {

  import opened Wrappers
  import opened Text
  import opened Browser

  type Headers = map<string, string>

  const TokenKey := "token"
  const UserKey := "user"

  /** The token `getAuthToken` reads. */
  function AuthToken(storage: Storage): Option<string> {
    GetItem(storage, TokenKey)
  }

  /** `getHeaders(includeAuth)`: always the JSON content type; an
      `Authorization` header exactly when auth is asked for and a non-empty
      token is stored. */
  function GetHeaders(storage: Storage, includeAuth: bool := true): (r: Headers)
    ensures "Content-Type" in r && r["Content-Type"] == "application/json"
    ensures "Authorization" in r <==> includeAuth && Truthy(AuthToken(storage))
    ensures "Authorization" in r ==> r["Authorization"] == "Token " + storage[TokenKey]
    ensures r.Keys <= {"Content-Type", "Authorization"}
  {
    var headers := map["Content-Type" := "application/json"];
    if includeAuth && Truthy(AuthToken(storage)) then
      headers["Authorization" := "Token " + storage[TokenKey]]
    else headers
  }

  /** `authAPI.logout`, given whether the server answered OK: the token and
      the stored user are forgotten only then. */
  function Logout(storage: Storage, ok: bool): (r: (bool, Storage))
    ensures r.0 == ok
    ensures !ok ==> r.1 == storage
    ensures ok ==> TokenKey !in r.1 && UserKey !in r.1
    ensures ok ==> forall k :: k in storage && k != TokenKey && k != UserKey ==> k in r.1 && r.1[k] == storage[k]
    ensures r.1.Keys <= storage.Keys
  {
    if ok then (true, storage - {TokenKey, UserKey}) else (false, storage)
  }

  /** After a logout the server accepted, requests carry no credentials
      and the client has no current user. */
  lemma LogoutForgetsSession(storage: Storage, includeAuth: bool)
    ensures var s := Logout(storage, true).1;
      && "Authorization" !in GetHeaders(s, includeAuth)
      && GetItem(s, UserKey).None?
  {
    var s := Logout(storage, true).1;
    assert AuthToken(s).None?;
  }
}

module ApiHelpers {

  import opened Wrappers
  import opened Text
  import opened Browser
  import ConfigApi
  import ServicesApi

  type Headers = map<string, string>

  datatype Verb = Get | Post

  /** What `fetch` is called with. */
  datatype Request = Request(url: string, verb: Verb, headers: Headers, body: Option<string>)

  /** `getHeaders` of the helpers module. */
  function GetHeaders(storage: Storage, includeAuth: bool := true): (r: Headers)
    ensures "Content-Type" in r && r["Content-Type"] == "application/json"
    ensures "Authorization" in r <==> includeAuth && Truthy(GetItem(storage, "token"))
    ensures "Authorization" in r ==> r["Authorization"] == "Token " + storage["token"]
    ensures r.Keys <= {"Content-Type", "Authorization"}
  {
    var token := GetItem(storage, "token");
    var headers := map["Content-Type" := "application/json"];
    if includeAuth && Truthy(token) then headers["Authorization" := "Token " + token.value]
    else headers
  }

  /** The two copies agree for every stored token and flag. */
  lemma SameHeaders(storage: Storage, includeAuth: bool)
    ensures GetHeaders(storage, includeAuth) == ServicesApi.GetHeaders(storage, includeAuth)
  {
    var a, b := GetHeaders(storage, includeAuth), ServicesApi.GetHeaders(storage, includeAuth);
    assert a.Keys == b.Keys;
  }

  /** `apiGet(endpoint, requireAuth = false)`; `env` is `VITE_API_URL`. */
  function ApiGet(env: Option<string>, storage: Storage, endpoint: string, requireAuth: bool := false): (r: Request)
    ensures r.url == ConfigApi.ApiBaseUrl(env) + endpoint
    ensures r.verb == Get && r.body.None?
    ensures "Authorization" in r.headers <==> requireAuth && Truthy(GetItem(storage, "token"))
  {
    Request(ConfigApi.ApiBaseUrl(env) + endpoint, Get, GetHeaders(storage, requireAuth), None)
  }

  /** `apiPost(endpoint, data, requireAuth = true)`, with `json` the
      serialized `data`. */
  function ApiPost(env: Option<string>, storage: Storage, endpoint: string, json: string,
                   requireAuth: bool := true): (r: Request)
    ensures r.url == ConfigApi.ApiBaseUrl(env) + endpoint
    ensures r.verb == Post && r.body == Some(json)
    ensures "Authorization" in r.headers <==> requireAuth && Truthy(GetItem(storage, "token"))
  {
    Request(ConfigApi.ApiBaseUrl(env) + endpoint, Post, GetHeaders(storage, requireAuth), Some(json))
  }

  /** Reads go out without credentials and writes with them, unless asked
      otherwise. */
  lemma Defaults(env: Option<string>, storage: Storage, endpoint: string, json: string)
    requires Truthy(GetItem(storage, "token"))
    ensures "Authorization" !in ApiGet(env, storage, endpoint).headers
    ensures ApiPost(env, storage, endpoint, json).headers["Authorization"] == "Token " + storage["token"]
  {
  }

  /** The helpers join verbatim, so they agree with `getApiUrl` exactly for
      endpoints written with their leading slash; without one they run the
      base into the path. */
  lemma HelperUrlMatchesGetApiUrl(env: Option<string>, storage: Storage, endpoint: string)
    ensures StartsWith(endpoint, "/") <==> ApiGet(env, storage, endpoint).url == ConfigApi.GetApiUrl(env, endpoint)
  {
    var base := ConfigApi.ApiBaseUrl(env);
    assert !StartsWith(endpoint, "/") ==> |base + endpoint| < |base + "/" + endpoint|;
  }
}

=== FILE: instructor_dashboard.dfy ===
/**
  The instructor dashboard (frontend/src/pages/instructor/Dashboard.tsx):
  the statistics it derives from the instructor's answers and from the
  question listings, the best-answers tab, and the redirect of everyone
  else. Relative timestamps use the same rule as the student dashboard
  (`StudentDashboard.FormatRelativeTime`).
 */
module InstructorDashboard {

  import opened Wrappers
  import opened Seqs
  import opened Text
  import opened Browser

  datatype AnswerSummary = AnswerSummary(id: int, question: int, isBest: bool)

  datatype QuestionSummary = QuestionSummary(id: int, title: string)

  /** The profile as the dashboard reads it; `answers` may be missing. */
  datatype Profile = Profile(username: string, email: string, role: string, answers: Option<seq<AnswerSummary>>)

  /** `InstructorStats`, with the acceptance rate in tenths of a percent. */
  datatype Stats = Stats(totalQuestions: nat, unanswered: nat, totalStudents: nat,
                         answered: nat, bestGiven: nat, rateTenths: nat)

  /** Every statistic starts at zero. */
  function InitialStats(): (s: Stats)
    ensures s.totalQuestions == 0 && s.unanswered == 0 && s.totalStudents == 0
    ensures s.answered == 0 && s.bestGiven == 0 && s.rateTenths == 0
  {
    Stats(0, 0, 0, 0, 0, 0)
  }

  predicate IsBest(a: AnswerSummary) { a.isBest }

  /** `Math.round(best / answers * 100 * 10) / 10`, kept as the integer
      number of tenths: the nearest whole number of tenths to the exact
      percentage, halves rounded up; zero without answers. */
  function AcceptanceTenths(best: nat, answers: nat): (t: nat)
    ensures answers == 0 ==> t == 0
    ensures answers > 0 ==> 2 * t * answers <= 2000 * best + answers < 2 * (t + 1) * answers
    ensures best <= answers ==> t <= 1000
    ensures best == 0 ==> t == 0
  {
    if answers == 0 then 0
    else
      var n, d := 2000 * best + answers, 2 * answers;
      var t := n / d;
      RoundBounds(n, d, t);
      if best <= answers then
        assert n < 1001 * d;
        LessTimes(t, 1001, d);
        t
      else t
  }

  /** Floor division brackets the dividend. */
  lemma RoundBounds(n: nat, d: nat, t: nat)
    requires d > 0 && t == n / d
    ensures t * d <= n < (t + 1) * d
  {
  }

  /** Multiplying by a positive number preserves order. */
  lemma TimesMonotone(a: nat, b: nat, d: nat)
    requires a <= b
    ensures a * d <= b * d
  {
  }

  /** A multiple of `d` below `x * d` is a multiple by less than `x`. */
  lemma LessTimes(t: nat, x: nat, d: nat)
    requires d > 0 && t * d < x * d
    ensures t < x
  {
    if x <= t {
      TimesMonotone(x, t, d);
    }
  }

  /** The statistics update after the profile loaded: the answer count (0
      when the list is missing), the best-answer count and their rate; the
      other statistics keep their previous values. */
  function ProfileStats(prev: Stats, answers: Option<seq<AnswerSummary>>): (r: Stats)
    ensures answers.None? ==> r.answered == 0 && r.bestGiven == 0 && r.rateTenths == 0
    ensures answers.Some? ==> r.answered == |answers.value| && r.bestGiven == Count(answers.value, IsBest)
    ensures r.bestGiven <= r.answered
    ensures r.rateTenths <= 1000
    ensures r.answered == 0 ==> r.rateTenths == 0
    ensures r.totalQuestions == prev.totalQuestions && r.unanswered == prev.unanswered
    ensures r.totalStudents == prev.totalStudents
  {
    var count := if answers.Some? then |answers.value| else 0;
    var best := if answers.Some? then Count(answers.value, IsBest) else 0;
    prev.(answered := count, bestGiven := best, rateTenths := AcceptanceTenths(best, count))
  }

  /** `bestAnswers`: the loaded profile's best answers, in order. */
  function BestAnswers(profile: Option<Profile>): (r: seq<AnswerSummary>)
    ensures forall i :: 0 <= i < |r| ==> r[i].isBest
    ensures profile.Some? && profile.value.answers.Some? ==>
      && (forall i :: 0 <= i < |r| ==> r[i] in profile.value.answers.value)
      && (forall a :: a in profile.value.answers.value && a.isBest ==> a in r)
    ensures profile.None? || profile.value.answers.None? ==> r == []
  {
    match profile
    case None => []
    case Some(p) => if p.answers.Some? then Filter(p.answers.value, IsBest) else []
  }

  /** One more loaded answer joins the end of the tab exactly when it is a
      best answer: with the empty list giving no entries, this fixes the tab
      as the order-preserving filter on `is_best_answer`. */
  lemma BestAnswersAppend(p: Profile, answers: seq<AnswerSummary>, a: AnswerSummary)
    ensures BestAnswers(Some(p.(answers := Some([])))) == []
    ensures BestAnswers(Some(p.(answers := Some(answers + [a])))) ==
      BestAnswers(Some(p.(answers := Some(answers)))) + (if a.isBest then [a] else [])
  {
    FilterAppend(answers, [a], IsBest);
    FilterSingleton(a, IsBest);
  }

  /** The best-answers tab lists exactly as many answers as the statistic
      counts. */
  lemma BestAnswersMatchStat(prev: Stats, profile: Profile)
    ensures |BestAnswers(Some(profile))| == ProfileStats(prev, profile.answers).bestGiven
  {
  }

  /** The update after the unanswered list loaded: its length; nothing
      else changes. */
  function UnansweredStats(prev: Stats, questions: seq<QuestionSummary>): (r: Stats)
    ensures r.unanswered == |questions|
    ensures r.(unanswered := prev.unanswered) == prev
  {
    prev.(unanswered := |questions|)
  }

  /** The body of the total-count request: its `count` and `length`, when
      present. */
  datatype TotalBody = TotalBody(count: Option<nat>, length: Option<nat>)

  /** `totalData.count || totalData.length || 0`: a zero count falls through
      to the length. */
  function TotalCount(body: TotalBody): (n: nat)
    ensures body.count.Some? && body.count.value > 0 ==> n == body.count.value
    ensures !(body.count.Some? && body.count.value > 0) && body.length.Some? ==> n == body.length.value
    ensures n == 0 <==> (body.count.None? || body.count.value == 0) && (body.length.None? || body.length.value == 0)
  {
    if body.count.Some? && body.count.value > 0 then body.count.value
    else if body.length.Some? && body.length.value > 0 then body.length.value
    else 0
  }

  /** The update after the total request: the platform total; nothing else
      changes. */
  function TotalStats(prev: Stats, body: TotalBody): (r: Stats)
    ensures r.totalQuestions == TotalCount(body)
    ensures r.(totalQuestions := prev.totalQuestions) == prev
  {
    prev.(totalQuestions := TotalCount(body))
  }

  /** `fetchUnansweredQuestions`: the list request, then the total request.
      A rejected list request abandons both; an answered one that is not OK
      skips only its own update. Returns the list shown (if set) and the
      statistics. */
  function FetchUnanswered(prev: Stats, list: Response<seq<QuestionSummary>>, total: Response<TotalBody>)
    : (r: (Option<seq<QuestionSummary>>, Stats))
    ensures list.NetworkError? ==> r == (None, prev)
    ensures Ok(list) ==> r.0 == Some(list.body) && r.1.unanswered == |list.body|
    ensures !Ok(list) ==> r.0.None? && r.1.unanswered == prev.unanswered
    ensures list.Answered? && Ok(total) ==> r.1.totalQuestions == TotalCount(total.body)
    ensures !(list.Answered? && Ok(total)) ==> r.1.totalQuestions == prev.totalQuestions
    ensures r.1.totalStudents == prev.totalStudents && r.1.answered == prev.answered
    ensures r.1.bestGiven == prev.bestGiven && r.1.rateTenths == prev.rateTenths
  {
    if list.NetworkError? then (None, prev)
    else
      var shown := if Ok(list) then Some(list.body) else None;
      var s1 := if Ok(list) then UnansweredStats(prev, list.body) else prev;
      var s2 := if Ok(total) then TotalStats(s1, total.body) else s1;
      (shown, s2)
  }

  /** What loading the profile did; as on the student dashboard. */
  datatype ProfileStep = ProfileStep(nav: Nav, profile: Option<Profile>, storage: Storage, fetched: bool, stats: Stats)

  /** `fetchProfile`: without a token go to the login page; a 401 drops the
      token and goes there too; anyone but an instructor is sent to `/user`
      with nothing stored; an instructor's profile is stored and the answer
      statistics recomputed from it. */
  function FetchProfile(storage: Storage, response: Response<Profile>, prev: Stats): (r: ProfileStep)
    ensures !r.fetched <==> !Truthy(GetItem(storage, "token"))
    ensures !r.fetched ==> r == ProfileStep(GoTo("/login"), None, storage, false, prev)
    ensures r.fetched && response.Answered? && response.status == 401 ==>
      r == ProfileStep(GoTo("/login"), None, storage - {"token"}, true, prev)
    ensures r.fetched && Ok(response) && response.body.role != "instructor" ==>
      r == ProfileStep(GoTo("/user"), None, storage, true, prev)
    ensures r.fetched && Ok(response) && response.body.role == "instructor" ==>
      r == ProfileStep(Stay, Some(response.body), storage, true, ProfileStats(prev, response.body.answers))
    ensures r.profile.Some? ==> r.profile.value.role == "instructor" && r.nav == Stay
    ensures r.stats != prev ==> r.profile.Some?
  {
    if !Truthy(GetItem(storage, "token")) then ProfileStep(GoTo("/login"), None, storage, false, prev)
    else if response.Answered? && response.status == 401 then
      ProfileStep(GoTo("/login"), None, storage - {"token"}, true, prev)
    else if Ok(response) then
      if response.body.role != "instructor" then ProfileStep(GoTo("/user"), None, storage, true, prev)
      else ProfileStep(Stay, Some(response.body), storage, true, ProfileStats(prev, response.body.answers))
    else ProfileStep(Stay, None, storage, true, prev)
  }
}

=== FILE: make_instructor.dfy ===
/**
  The management command `make_instructor <username>`
  (backend/users/management/commands/make_instructor.py) over the backend's
  user table: it promotes one user to the instructor role and reports what
  it did. Console output is left out; the outcome names which message
  the command prints.
 */
module MakeInstructor {

  import opened Accounts

  const InstructorRole := "instructor"

  datatype Outcome =
    | NoSuchUser         // prints the error and the list of users
    | AlreadyInstructor  // prints that nothing needs doing
    | Promoted           // prints the new role
    | Ambiguous          // `get` matched several rows and raised

  /** The table with every row named `username` given the instructor role. */
  function PromoteRows(rows: seq<User>, username: string): (r: seq<User>)
    ensures |r| == |rows|
    ensures forall i :: 0 <= i < |rows| && rows[i].username != username ==> r[i] == rows[i]
    ensures forall i :: 0 <= i < |rows| && rows[i].username == username ==> r[i] == rows[i].(role := InstructorRole)
  {
    seq(|rows|, i requires 0 <= i < |rows| =>
      if rows[i].username == username then rows[i].(role := InstructorRole) else rows[i])
  }

  /** `Command.handle`. Only a unique, non-instructor user is changed, and
      only in its role. */
  function Handle(st: UserStore, username: string): (res: (Outcome, UserStore))
    ensures res.0 != Promoted ==> res.1 == st
    ensures res.0 == NoSuchUser <==> forall i :: 0 <= i < |st.rows| ==> st.rows[i].username != username
    ensures res.0 == Ambiguous <==> |WithUsername(st.rows, username)| > 1
    ensures res.0 == AlreadyInstructor <==>
      |WithUsername(st.rows, username)| == 1 && WithUsername(st.rows, username)[0].role == InstructorRole
    ensures res.0 == Promoted ==>
      && res.1.nextId == st.nextId
      && |res.1.rows| == |st.rows|
      && (forall i :: 0 <= i < |st.rows| && st.rows[i].username != username ==> res.1.rows[i] == st.rows[i])
      && (forall i :: 0 <= i < |st.rows| && st.rows[i].username == username ==>
            && st.rows[i].role != InstructorRole
            && res.1.rows[i] == st.rows[i].(role := InstructorRole))
  {
    var matches := WithUsername(st.rows, username);
    if |matches| == 0 then
      (NoSuchUser, st)
    else if |matches| > 1 then
      (Ambiguous, st)
    else if matches[0].role == InstructorRole then
      (AlreadyInstructor, st)
    else
      assert forall i :: 0 <= i < |st.rows| && st.rows[i].username == username ==> st.rows[i] == matches[0] by {
        forall i | 0 <= i < |st.rows| && st.rows[i].username == username
          ensures st.rows[i] == matches[0]
        {
          assert st.rows[i] in matches;
        }
      }
      (Promoted, UserStore(PromoteRows(st.rows, username), st.nextId))
  }

  /** Running the command twice has the effect of running it once. */
  lemma Idempotent(st: UserStore, username: string)
    ensures Handle(Handle(st, username).1, username).1 == Handle(st, username).1
  {
    var (out, st') := Handle(st, username);
    if out == Promoted {
      var m := WithUsername(st.rows, username);
      var m' := WithUsername(st'.rows, username);
      var p := (u: User) => u.username == username;
      Seqs.CountCongruent(st.rows, p, p);
      assert |m'| == |m| by {
        SameNamesCount(st.rows, st'.rows, username);
      }
      assert m'[0] in st'.rows;
      var i :| 0 <= i < |st'.rows| && st'.rows[i] == m'[0];
    }
  }

  /** Rows that agree on usernames position by position have as many matches. */
  lemma {:induction false} SameNamesCount(a: seq<User>, b: seq<User>, username: string)
    requires |a| == |b|
    requires forall i :: 0 <= i < |a| ==> a[i].username == b[i].username
    ensures |WithUsername(a, username)| == |WithUsername(b, username)|
  {
    if |a| > 0 {
      SameNamesCount(a[1..], b[1..], username);
    }
  }

  /** Promotion keeps ids, usernames and emails unique. */
  lemma HandleKeepsValid(st: UserStore, username: string)
    requires Valid(st)
    ensures Valid(Handle(st, username).1)
  {
    var st' := Handle(st, username).1;
    if st' != st {
      SameKeysValid(st, st');
    }
  }

  /** Validity depends only on the ids, usernames and emails, position by
      position, and on the next id. */
  lemma SameKeysValid(a: UserStore, b: UserStore)
    requires Valid(a)
    requires |b.rows| == |a.rows| && b.nextId == a.nextId
    requires forall i :: 0 <= i < |a.rows| ==> SameKeys(a.rows[i], b.rows[i])
    ensures Valid(b)
  {
  }

  predicate SameKeys(u: User, v: User) {
    u.id == v.id && u.username == v.username && u.email == v.email
  }
}

=== FILE: ordering.dfy ===
/**
  Django's `order_by(...)` and `Meta.ordering` as a stable insertion sort
  under a "may come before" relation. Rows that tie keep their stored order;
  the database leaves the order of ties open, so this is one admissible choice.
 */
module Ordering {

  /** Any two values are comparable under `before` (so it is also reflexive). */
  ghost predicate Total<T(!new)>(before: (T, T) -> bool) {
    forall a, b :: before(a, b) || before(b, a)
  }

  ghost predicate Transitive<T(!new)>(before: (T, T) -> bool) {
    forall a, b, c :: before(a, b) && before(b, c) ==> before(a, c)
  }

  /** A total preorder: what an `order_by` over one or more keys describes. */
  ghost predicate Preorder<T(!new)>(before: (T, T) -> bool) {
    Total(before) && Transitive(before)
  }

  /** Every element may come before every later one. */
  predicate SortedBy<T>(s: seq<T>, before: (T, T) -> bool) {
    forall i, j :: 0 <= i < j < |s| ==> before(s[i], s[j])
  }

  /** Places `x` in front of the first element it may precede. */
  function Insert<T(!new)>(x: T, s: seq<T>, before: (T, T) -> bool): (r: seq<T>)
    requires Preorder(before)
    requires SortedBy(s, before)
    ensures SortedBy(r, before)
    ensures multiset(r) == multiset(s) + multiset{x}
    ensures |r| == |s| + 1
  {
    if |s| == 0 || before(x, s[0]) then
      [x] + s
    else
      var t := Insert(x, s[1..], before);
      assert s == [s[0]] + s[1..];
      assert forall k :: 0 <= k < |t| ==> before(s[0], t[k]) by {
        forall k | 0 <= k < |t| ensures before(s[0], t[k]) {
          assert t[k] in multiset(t);
          assert t[k] == x || t[k] in multiset(s[1..]);
          if t[k] != x {
            var m :| 0 <= m < |s[1..]| && s[1..][m] == t[k];
            assert before(s[0], s[m + 1]);
          }
        }
      }
      [s[0]] + t
  }

  /** The elements of `s` rearranged so that `before` holds between every
      element and each later one. */
  function Sort<T(!new)>(s: seq<T>, before: (T, T) -> bool): (r: seq<T>)
    requires Preorder(before)
    ensures SortedBy(r, before)
    ensures multiset(r) == multiset(s)
    ensures |r| == |s|
  {
    if |s| == 0 then []
    else
      assert s == [s[0]] + s[1..];
      Insert(s[0], Sort(s[1..], before), before)
  }
}

=== FILE: post_card.dfy ===
/**
  The post card (frontend/src/components/posts.tsx): the shortened content
  and the statistics it shows.
 */
module PostCard {

  import opened Wrappers
  import opened Text

  /** Text longer than `limit` cut to its first `limit` characters followed
      by "..."; anything shorter shown whole. */
  function Preview(content: string, limit: nat): (r: string)
    ensures |content| <= limit ==> r == content
    ensures |content| > limit ==> |r| == limit + 3 && r[limit..] == "..."
    ensures StartsWith(r, Take(content, limit))
    ensures |r| <= limit + 3
  {
    if |content| > limit then
      var r := content[..limit] + "...";
      assert r[..limit] == content[..limit];
      r
    else content
  }

  /** The card's optional statistics. */
  datatype CardStats = CardStats(votes: Option<int>, answers: Option<int>, views: Option<int>)

  /** What the card displays: the title when it is non-empty, the shortened
      content, the author's handle, and the statistics items in order. */
  datatype CardView = CardView(title: Option<string>, text: string, handle: string, stats: seq<(string, int)>)

  function Item(key: string, value: Option<int>): seq<(string, int)> {
    if value.Some? then [(key, value.value)] else []
  }

  /** The items for the statistics that are defined: votes, answers, views. */
  function ShownStats(stats: Option<CardStats>): (r: seq<(string, int)>)
    ensures stats.None? ==> r == []
    ensures stats.Some? ==>
      |r| == (if stats.value.votes.Some? then 1 else 0) + (if stats.value.answers.Some? then 1 else 0)
             + (if stats.value.views.Some? then 1 else 0)
    ensures forall i :: 0 <= i < |r| ==> r[i].0 in {"Votes", "Answers", "Views"}
    ensures stats.Some? ==>
      && ((exists i :: 0 <= i < |r| && r[i].0 == "Votes") <==> stats.value.votes.Some?)
      && ((exists i :: 0 <= i < |r| && r[i].0 == "Answers") <==> stats.value.answers.Some?)
      && ((exists i :: 0 <= i < |r| && r[i].0 == "Views") <==> stats.value.views.Some?)
    ensures stats.Some? ==> forall i :: 0 <= i < |r| ==>
      && (r[i].0 == "Votes" ==> stats.value.votes == Some(r[i].1))
      && (r[i].0 == "Answers" ==> stats.value.answers == Some(r[i].1))
      && (r[i].0 == "Views" ==> stats.value.views == Some(r[i].1))
  {
    match stats
    case None => []
    case Some(s) =>
      var a, b, c := Item("Votes", s.votes), Item("Answers", s.answers), Item("Views", s.views);
      var r := a + b + c;
      assert forall i :: 0 <= i < |r| ==>
        (i < |a| && r[i] == a[i]) || (|a| <= i < |a| + |b| && r[i] == b[i - |a|]) || (|a| + |b| <= i && r[i] == c[i - |a| - |b|]);
      assert |a| > 0 ==> r[0] == a[0];
      assert |b| > 0 ==> r[|a|] == b[0];
      assert |c| > 0 ==> r[|a| + |b|] == c[0];
      r
  }

  /** The card component. */
  function Card(title: Option<string>, content: string, username: string, stats: Option<CardStats>): (v: CardView)
    ensures v.title.Some? <==> Truthy(title)
    ensures v.title.Some? ==> v.title == title
    ensures v.text == Preview(content, 150)
    ensures v.handle == "@" + username
    ensures v.stats == ShownStats(stats)
  {
    CardView(if Truthy(title) then title else None, Preview(content, 150), "@" + username, ShownStats(stats))
  }
}

=== FILE: posting.dfy ===
/**
  Posting a question: `QuestionListCreateView.perform_create`
  (backend/questions/views.py) picks the author, the serializer stores the
  question and its tags, and the post-save receiver notifies the author.
 */
module Posting {

  import opened Wrappers
  import opened Text
  import opened CoreModels
  import opened Questions
  import opened Signals
  import opened Fields
  import Accounts

  /** The content the question endpoint writes to. */
  datatype Forum = Forum(questions: seq<Question>, nextQuestionId: nat, tags: seq<Tag>, notes: NoteTable)

  /** The author the view settles on, or the exception a lookup by a
      username held by several rows raises (only `DoesNotExist` is caught). */
  datatype AuthorChoice = Chosen(author: Option<UserId>) | LookupRaised

  /** The author rule of `perform_create`: the user named in the request if
      there is one, else the first user by primary key, else nobody. */
  function ChooseAuthor(users: Accounts.UserStore, username: Option<string>): (r: AuthorChoice)
    ensures r == LookupRaised <==> Truthy(username) && |Accounts.WithUsername(users.rows, username.value)| > 1
    ensures Truthy(username) && |Accounts.WithUsername(users.rows, username.value)| == 1 ==>
      r == Chosen(Some(Accounts.WithUsername(users.rows, username.value)[0].id))
    ensures !Truthy(username) || (forall i :: 0 <= i < |users.rows| ==> users.rows[i].username != username.value) ==>
      r == Chosen(if |users.rows| > 0 then Some(users.rows[0].id) else None)
    ensures r == Chosen(None) <==> |users.rows| == 0
    ensures r.Chosen? && r.author.Some? ==> exists i :: 0 <= i < |users.rows| && users.rows[i].id == r.author.value
  {
    var matches := if Truthy(username) then Accounts.WithUsername(users.rows, username.value) else [];
    if |matches| > 1 then LookupRaised
    else if |matches| == 1 then
      assert matches[0] in users.rows;
      Chosen(Some(matches[0].id))
    else if |users.rows| > 0 then Chosen(Some(users.rows[0].id))
    else Chosen(None)
  }

  /** With usernames unique the lookup never raises, and the fallback author
      is the user with the lowest id. */
  lemma ChooseAuthorValid(users: Accounts.UserStore, username: Option<string>)
    requires Accounts.Valid(users)
    ensures ChooseAuthor(users, username).Chosen?
    ensures |users.rows| > 0 ==> forall i :: 0 <= i < |users.rows| ==> users.rows[0].id <= users.rows[i].id
  {
    if Truthy(username) {
      Accounts.UsernameUnique(users, username.value);
    }
  }

  /** What the create endpoint answers: a 400 with the field errors, or the
      author decision of `perform_create`. */
  datatype PostStatus = FieldsRejected(errors: QuestionErrors) | Decided(choice: AuthorChoice)

  /** Every stored question came through the serializer's fields. */
  predicate CleanForum(forum: Forum) {
    forall i :: 0 <= i < |forum.questions| ==> CleanQuestion(forum.questions[i])
  }

  /** `serializer.save` on validated data: one question with the next id and
      the input's title, body and lower-cased tags, and the post-save
      notification for its author. */
  function StoreQuestion(forum: Forum, author: Option<UserId>, input: QuestionInput, now: int): (r: Forum)
    ensures |r.questions| == |forum.questions| + 1
    ensures r.questions[..|forum.questions|] == forum.questions
    ensures r.nextQuestionId == forum.nextQuestionId + 1
    ensures var q := r.questions[|forum.questions|];
      && q.id == forum.nextQuestionId
      && q.author == author
      && q.title == input.title && q.body == input.body
      && q.tags == LoweredSet(input.tags.GetOr([]))
      && q.views == 0 && !q.isClosed
    ensures author.Some? ==>
      && |r.notes.rows| == |forum.notes.rows| + 1
      && r.notes.rows[|forum.notes.rows|].user == author.value
      && !r.notes.rows[|forum.notes.rows|].isRead
    ensures author.None? ==> r.notes == forum.notes
    ensures UniqueTagNames(forum.tags) ==> UniqueTagNames(r.tags)
    ensures CleanForum(forum) && CleanValue(input.title, Some(TitleMaxLength)) && CleanValue(input.body, None) ==>
      CleanForum(r)
  {
    var (q, tags') := CreateQuestion(forum.tags, forum.nextQuestionId, input, author, now);
    var questions' := forum.questions + [q];
    assert questions'[..|forum.questions|] == forum.questions;
    Forum(questions', forum.nextQuestionId + 1, tags', OnQuestionSaved(forum.notes, q, true))
  }

  /** A question post: the fields are validated first and a refusal stores
      nothing; otherwise the author is chosen, one question is stored with
      the next id, the trimmed title and body and the trimmed, lower-cased
      tags, and the author is told it was posted. */
  function PostQuestion(users: Accounts.UserStore, forum: Forum, username: Option<string>,
                        data: QuestionData, now: int): (r: (PostStatus, Forum))
    ensures r.0.FieldsRejected? <==> ValidateQuestion(data, false).FieldsInvalid?
    ensures r.0.FieldsRejected? ==> r.0.errors == ValidateQuestion(data, false).errors && r.1 == forum
    ensures r.0.Decided? ==> r.0.choice == ChooseAuthor(users, username)
    ensures r.0 == Decided(LookupRaised) ==> r.1 == forum
    ensures r.0.Decided? && r.0.choice.Chosen? ==>
      && |r.1.questions| == |forum.questions| + 1
      && r.1.questions[..|forum.questions|] == forum.questions
      && r.1.nextQuestionId == forum.nextQuestionId + 1
      && data.title.Given? && data.body.Given?
      && var q := r.1.questions[|forum.questions|];
         && q.id == forum.nextQuestionId
         && q.author == r.0.choice.author
         && q.title == Trim(data.title.value) && q.body == Trim(data.body.value)
         && q.tags == LoweredSet(if data.tags.Given? then TrimAll(data.tags.value) else [])
         && q.views == 0 && !q.isClosed
    ensures r.0.Decided? && r.0.choice.Chosen? && r.0.choice.author.Some? ==>
      && |r.1.notes.rows| == |forum.notes.rows| + 1
      && r.1.notes.rows[|forum.notes.rows|].user == r.0.choice.author.value
      && !r.1.notes.rows[|forum.notes.rows|].isRead
    ensures r.0 == Decided(Chosen(None)) ==> r.1.notes == forum.notes
    ensures UniqueTagNames(forum.tags) ==> UniqueTagNames(r.1.tags)
    ensures CleanForum(forum) ==> CleanForum(r.1)
  {
    match ValidateQuestion(data, false)
    case FieldsInvalid(errors) => (FieldsRejected(errors), forum)
    case Validated(patch) =>
      match ChooseAuthor(users, username)
      case LookupRaised => (Decided(LookupRaised), forum)
      case Chosen(author) =>
        var input := QuestionInput(patch.title.value, patch.body.value, patch.tags);
        assert input.tags.GetOr([]) == if data.tags.Given? then TrimAll(data.tags.value) else [];
        (Decided(Chosen(author)), StoreQuestion(forum, author, input, now))
  }

  /** The first stored question with the given primary key. */
  function QuestionIndex(questions: seq<Question>, id: nat): (r: Option<nat>)
    ensures r.None? <==> forall i :: 0 <= i < |questions| ==> questions[i].id != id
    ensures r.Some? ==> r.value < |questions| && questions[r.value].id == id
  {
    if |questions| == 0 then None
    else if questions[0].id == id then Some(0)
    else
      match QuestionIndex(questions[1..], id)
      case None => None
      case Some(k) => Some(k + 1)
  }

  /** What the detail endpoint answers to PUT or PATCH. */
  datatype EditStatus = QuestionNotFound | EditRejected(errors: QuestionErrors) | Edited

  /** `QuestionDetailView`'s update: the question is looked up first (404),
      then the fields are validated (`partial` for PATCH), then
      `QuestionSerializer.update` runs; the post-save receiver adds nothing
      on a re-save. Only the edited question and the tag table change. */
  function EditQuestion(forum: Forum, id: nat, data: QuestionData, partial: bool): (r: (EditStatus, Forum))
    ensures r.0 == QuestionNotFound <==> forall i :: 0 <= i < |forum.questions| ==> forum.questions[i].id != id
    ensures r.0.EditRejected? <==> QuestionIndex(forum.questions, id).Some? && ValidateQuestion(data, partial).FieldsInvalid?
    ensures r.0.EditRejected? ==> r.0.errors == ValidateQuestion(data, partial).errors
    ensures !r.0.Edited? ==> r.1 == forum
    ensures r.0.Edited? ==>
      && QuestionIndex(forum.questions, id).Some?
      && var i := QuestionIndex(forum.questions, id).value;
         var before := forum.questions[i];
         && |r.1.questions| == |forum.questions|
         && (forall j :: 0 <= j < |forum.questions| && j != i ==> r.1.questions[j] == forum.questions[j])
         && r.1.questions[i].id == id
         && r.1.questions[i].title == (if data.title.Given? then Trim(data.title.value) else before.title)
         && r.1.questions[i].body == (if data.body.Given? then Trim(data.body.value) else before.body)
         && r.1.questions[i].tags == (if data.tags.Given? then LoweredSet(TrimAll(data.tags.value)) else before.tags)
         && r.1.nextQuestionId == forum.nextQuestionId
         && r.1.notes == forum.notes
    ensures UniqueTagNames(forum.tags) ==> UniqueTagNames(r.1.tags)
    ensures CleanForum(forum) ==> CleanForum(r.1)
  {
    match QuestionIndex(forum.questions, id)
    case None => (QuestionNotFound, forum)
    case Some(i) =>
      match ValidateQuestion(data, partial)
      case FieldsInvalid(errors) => (EditRejected(errors), forum)
      case Validated(patch) =>
        var (q, tags') := UpdateQuestion(forum.tags, forum.questions[i], patch);
        (Edited, forum.(questions := forum.questions[i := q], tags := tags', notes := OnQuestionSaved(forum.notes, q, false)))
  }
}

=== FILE: profile_page.dfy ===
/**
  The profile page (frontend/src/pages/user.tsx): loading the profile,
  posting a question from its modal, and the role badge.
 */
module ProfilePage {

  import opened Wrappers
  import opened Text
  import opened Browser
  import StudentDashboard

  datatype Profile = Profile(username: string, email: string, role: string)

  /** What loading the profile did. */
  datatype ProfileStep = ProfileStep(nav: Nav, profile: Option<Profile>, storage: Storage, fetched: bool)

  /** `fetchProfile`: without a token nothing happens (no navigation); a 401
      drops the token and goes to the login page; an instructor is sent to
      `/instructor` with nothing stored; any other profile is stored. */
  function FetchProfile(storage: Storage, response: Response<Profile>): (r: ProfileStep)
    ensures !r.fetched <==> !Truthy(GetItem(storage, "token"))
    ensures !r.fetched ==> r == ProfileStep(Stay, None, storage, false)
    ensures r.fetched && response.Answered? && response.status == 401 ==>
      r == ProfileStep(GoTo("/login"), None, storage - {"token"}, true)
    ensures r.fetched && Ok(response) && response.body.role == "instructor" ==>
      r == ProfileStep(GoTo("/instructor"), None, storage, true)
    ensures r.profile.Some? <==> r.fetched && Ok(response) && response.body.role != "instructor"
    ensures r.profile.Some? ==> r.profile == Some(response.body) && r.nav == Stay
  {
    if !Truthy(GetItem(storage, "token")) then ProfileStep(Stay, None, storage, false)
    else if response.Answered? && response.status == 401 then ProfileStep(GoTo("/login"), None, storage - {"token"}, true)
    else if Ok(response) then
      if response.body.role == "instructor" then ProfileStep(GoTo("/instructor"), None, storage, true)
      else ProfileStep(Stay, Some(response.body), storage, true)
    else ProfileStep(Stay, None, storage, true)
  }

  /** What a post attempt did on this page: as on the student dashboard,
      plus the storage and the navigation. */
  datatype PostStep = PostStep(outcome: StudentDashboard.PostOutcome, storage: Storage, nav: Nav)

  const Expired := "Your session has expired. Please log in again."

  /** `handleCreatePost`: the same guard and request as the student
      dashboard; a 401 drops the token and goes to the login page; success
      selects the `posts` tab. */
  function CreatePost(draft: StudentDashboard.Draft, storage: Storage, response: Response<string>): (r: PostStep)
    ensures r.outcome.request == StudentDashboard.PostRequestFor(draft, storage)
    ensures r.outcome.request.None? ==> r == PostStep(StudentDashboard.PostOutcome(None, draft, false, None), storage, Stay)
    ensures r.outcome.request.Some? && response.Answered? && response.status == 401 ==>
      && r.storage == storage - {"token"} && r.nav == GoTo("/login")
      && r.outcome.alert == Some(Expired) && r.outcome.draft == draft && !r.outcome.refetch
    ensures r.outcome.request.Some? && Ok(response) ==>
      && r.outcome.draft == StudentDashboard.Draft("", "", "", false, "posts")
      && r.outcome.refetch && r.nav == Stay
    ensures r.storage != storage ==> response.Answered? && response.status == 401
  {
    var student := StudentDashboard.CreatePost(draft, storage, response);
    if student.request.Some? && response.Answered? && response.status == 401 then
      PostStep(student.(draft := draft, refetch := false, alert := Some(Expired)), storage - {"token"}, GoTo("/login"))
    else if student.request.Some? && Ok(response) then
      PostStep(student.(draft := student.draft.(tab := "posts")), storage, Stay)
    else PostStep(student, storage, Stay)
  }

  /** Apart from the 401 handling and the tab selected on success, posting
      here behaves exactly as on the student dashboard. */
  lemma PostLikeStudentDashboard(draft: StudentDashboard.Draft, storage: Storage, response: Response<string>)
    requires !(response.Answered? && response.status == 401)
    ensures var here := CreatePost(draft, storage, response);
      var there := StudentDashboard.CreatePost(draft, storage, response);
      && here.storage == storage && here.nav == Stay
      && here.outcome.(draft := here.outcome.draft.(tab := there.draft.tab)) == there
  {
  }

  /** The role badge. */
  function Badge(role: string): (r: string)
    ensures r == "Instructor" <==> role == "instructor"
    ensures role != "instructor" ==> r == " Student"
  {
    if role == "instructor" then "Instructor" else " Student"
  }
}

=== FILE: question_detail.dfy ===
/**
  The question page (frontend/src/pages/QuestionDetailPage.tsx): which
  answers it lists, submitting a new answer, the answers heading and the
  submit button's state.
 */
module QuestionDetail {

  import opened Wrappers
  import opened Seqs
  import opened Text

  datatype AnswerItem = AnswerItem(id: int, question: int, body: string)

  /** `allAnswers.filter(a => a.question === id)`. */
  function AnswersOf(all: seq<AnswerItem>, id: int): (r: seq<AnswerItem>)
    ensures forall i :: 0 <= i < |r| ==> r[i].question == id && r[i] in all
    ensures forall a :: a in all && a.question == id ==> a in r
    ensures |r| == Count(all, (a: AnswerItem) => a.question == id)
  {
    Filter(all, (a: AnswerItem) => a.question == id)
  }

  /** Answers to other questions added to the store do not show, and an
      answer to this one shows at the end: the local append after posting
      agrees with what a reload would list. */
  lemma AnswersOfAppend(all: seq<AnswerItem>, id: int, a: AnswerItem)
    ensures AnswersOf(all + [a], id) == AnswersOf(all, id) + (if a.question == id then [a] else [])
  {
    FilterAppend(all, [a], (x: AnswerItem) => x.question == id);
    FilterSingleton(a, (x: AnswerItem) => x.question == id);
  }

  /** The page's state around the answer form. */
  datatype FormState = FormState(answers: seq<AnswerItem>, body: string, error: string, success: string, submitting: bool)

  /** What `answersAPI.create` did: the created answer, or the message of
      the error it threw. */
  datatype CreateResult = Created(answer: AnswerItem) | Failed(message: string)

  /** The request the form sends. */
  datatype AnswerRequest = AnswerRequest(body: string, question: int)

  const Empty := "Answer cannot be empty"
  const Posted := "✅ Answer posted successfully!"

  /** `handleSubmitAnswer`: a blank body only sets the error; otherwise the
      error is cleared, the request sent, and on success the answer is
      appended and the field cleared, on failure the error reports the
      message. The form is not left submitting. */
  function SubmitAnswer(s: FormState, question: int, result: CreateResult): (r: (Option<AnswerRequest>, FormState))
    ensures r.0.None? <==> AllSpace(s.body)
    ensures r.0.None? ==> r.1 == s.(error := Empty)
    ensures r.0.Some? ==> r.0.value == AnswerRequest(s.body, question) && !r.1.submitting
    ensures r.0.Some? && result.Created? ==>
      && r.1.answers == s.answers + [result.answer]
      && r.1.body == "" && r.1.success == Posted && r.1.error == ""
    ensures r.0.Some? && result.Failed? ==>
      && r.1.answers == s.answers && r.1.body == s.body
      && r.1.error == "Failed to post answer: " + result.message
  {
    if Trim(s.body) == "" then (None, s.(error := Empty))
    else
      var sent := s.(submitting := true, error := "");
      var after := match result
        case Created(a) => sent.(answers := s.answers + [a], body := "", success := Posted)
        case Failed(m) => sent.(error := "Failed to post answer: " + m);
      (Some(AnswerRequest(s.body, question)), after.(submitting := false))
  }

  /** The heading: the count and "Answer", plural unless exactly one. */
  function Heading(count: nat): (h: string)
    ensures count == 1 ==> h == "1 Answer"
    ensures count != 1 ==> h == NatToString(count) + " Answers"
  {
    NatToString(count) + " " + (if count == 1 then "Answer" else "Answers")
  }

  /** Whether the submit button is disabled. */
  function SubmitDisabled(submitting: bool, body: string): (d: bool)
    ensures d <==> submitting || AllSpace(body)
  {
    submitting || Trim(body) == ""
  }

  /** A click on an enabled button always sends a request, and every
      successful submission adds exactly one answer to the list. */
  lemma EnabledButtonSends(s: FormState, question: int, result: CreateResult)
    requires !SubmitDisabled(s.submitting, s.body)
    ensures SubmitAnswer(s, question, result).0 == Some(AnswerRequest(s.body, question))
    ensures result.Created? ==> |SubmitAnswer(s, question, result).1.answers| == |s.answers| + 1
  {
  }
}

=== FILE: questions.dfy ===
/**
  Questions (backend/questions/models.py) and the tag bookkeeping of
  `QuestionSerializer.create` / `update` (backend/questions/serializers.py).
  A question's tags are a set of tag names: tag names are unique, so a name
  identifies its row in the tag table.
 */
module Questions {

  import opened Wrappers
  import opened Seqs
  import opened Text
  import opened CoreModels
  import opened Fields
  import Ordering
  import Voting

  datatype Question = Question(
    id: nat,
    title: string,
    body: string,
    author: Option<UserId>,
    tags: set<string>,
    createdAt: int,
    views: nat,
    isClosed: bool)

  /** A question as first stored: no views, open, no tags yet. */
  function NewQuestion(id: nat, title: string, body: string, author: Option<UserId>, createdAt: int): (q: Question)
    ensures q.views == 0 && !q.isClosed && q.tags == {}
    ensures q.id == id && q.title == title && q.body == body && q.author == author && q.createdAt == createdAt
  {
    Question(id, title, body, author, {}, createdAt, 0, false)
  }

  // ---------------------------------------------------------------------
  // The tag table

  /** Position of the tag named `name`, the first one if several. */
  function TagIndex(tags: seq<Tag>, name: string): (r: Option<nat>)
    ensures r.None? <==> forall i :: 0 <= i < |tags| ==> tags[i].name != name
    ensures r.Some? ==> r.value < |tags| && tags[r.value].name == name
    ensures r.Some? ==> forall i :: 0 <= i < r.value ==> tags[i].name != name
  {
    if |tags| == 0 then None
    else if tags[0].name == name then Some(0)
    else
      match TagIndex(tags[1..], name)
      case None => None
      case Some(k) => Some(k + 1)
  }

  predicate HasTag(tags: seq<Tag>, name: string) {
    TagIndex(tags, name).Some?
  }

  /** The usage count recorded for `name`; 0 for a tag that does not exist yet. */
  function UsageOf(tags: seq<Tag>, name: string): nat {
    match TagIndex(tags, name)
    case None => 0
    case Some(i) => tags[i].usageCount
  }

  /** `Tag.objects.get_or_create(name=name)`: the table afterwards, the
      position of the tag and whether it was created. */
  function GetOrCreate(tags: seq<Tag>, name: string): (r: (seq<Tag>, nat, bool))
    ensures r.1 < |r.0| && r.0[r.1].name == name
    ensures r.2 <==> !HasTag(tags, name)
    ensures !r.2 ==> r.0 == tags
    ensures r.2 ==> r.0 == tags + [NewTag(name)] && r.1 == |tags|
  {
    match TagIndex(tags, name)
    case Some(i) => (tags, i, false)
    case None => (tags + [NewTag(name)], |tags|, true)
  }

  /** `tag.increment_usage()`, taken to add one to `usage_count`. */
  function Increment(tags: seq<Tag>, i: nat): (r: seq<Tag>)
    requires i < |tags|
    ensures |r| == |tags| && r[i].usageCount == tags[i].usageCount + 1 && r[i].name == tags[i].name
    ensures forall j :: 0 <= j < |tags| && j != i ==> r[j] == tags[j]
  {
    tags[i := tags[i].(usageCount := tags[i].usageCount + 1)]
  }

  /** One iteration of the serializers' tag loops: get or create the
      lower-cased tag, then count a use of it always (create) or only when
      the tag is new (update). */
  function TagStep(tags: seq<Tag>, raw: string, always: bool): (r: seq<Tag>)
    ensures |tags| <= |r| <= |tags| + 1
    ensures forall i :: 0 <= i < |tags| ==> r[i].name == tags[i].name && r[i].usageCount >= tags[i].usageCount
    ensures !always ==> r[..|tags|] == tags
  {
    var (t, i, created) := GetOrCreate(tags, Lower(raw));
    if always || created then Increment(t, i) else t
  }

  /** The whole loop over the submitted tag names. */
  function AddTags(tags: seq<Tag>, names: seq<string>, always: bool): (r: seq<Tag>)
    ensures |tags| <= |r| <= |tags| + |names|
    ensures forall i :: 0 <= i < |tags| ==> r[i].name == tags[i].name && r[i].usageCount >= tags[i].usageCount
    ensures !always ==> r[..|tags|] == tags
    decreases |names|
  {
    if |names| == 0 then tags else AddTags(TagStep(tags, names[0], always), names[1..], always)
  }

  /** The names the question ends up tagged with. */
  function LoweredSet(names: seq<string>): set<string> {
    set i | 0 <= i < |names| :: Lower(names[i])
  }

  /** The first name's tag together with the rest's. */
  lemma LoweredSetCons(names: seq<string>)
    requires |names| > 0
    ensures LoweredSet(names) == {Lower(names[0])} + LoweredSet(names[1..])
  {
    forall x | x in LoweredSet(names) ensures x in {Lower(names[0])} + LoweredSet(names[1..]) {
      var i :| 0 <= i < |names| && Lower(names[i]) == x;
      if i > 0 {
        assert names[1..][i - 1] == names[i];
      }
    }
    forall x | x in LoweredSet(names[1..]) ensures x in LoweredSet(names) {
      var i :| 0 <= i < |names[1..]| && Lower(names[1..][i]) == x;
      assert names[i + 1] == names[1..][i];
    }
  }

  lemma {:induction false} TagIndexSameNames(a: seq<Tag>, b: seq<Tag>, name: string)
    requires |a| == |b|
    requires forall i :: 0 <= i < |a| ==> a[i].name == b[i].name
    ensures TagIndex(a, name) == TagIndex(b, name)
  {
    if |a| > 0 {
      TagIndexSameNames(a[1..], b[1..], name);
    }
  }

  lemma {:induction false} TagIndexAppend(tags: seq<Tag>, t: Tag, name: string)
    ensures TagIndex(tags + [t], name) ==
      if TagIndex(tags, name).Some? then TagIndex(tags, name)
      else if t.name == name then Some(|tags|) else None
  {
    if |tags| > 0 {
      assert (tags + [t])[1..] == tags[1..] + [t];
      TagIndexAppend(tags[1..], t, name);
    }
  }

  /** One loop iteration adds a use to the tag it touches, at most, and
      leaves every other tag's usage alone. */
  lemma StepUsage(tags: seq<Tag>, raw: string, always: bool, name: string)
    ensures UsageOf(TagStep(tags, raw, always), name) ==
      UsageOf(tags, name) + (if Lower(raw) == name && (always || !HasTag(tags, name)) then 1 else 0)
    ensures HasTag(TagStep(tags, raw, always), name) <==> HasTag(tags, name) || Lower(raw) == name
  {
    var (t, i, created) := GetOrCreate(tags, Lower(raw));
    if created {
      TagIndexAppend(tags, NewTag(Lower(raw)), name);
    }
    if always || created {
      TagIndexSameNames(Increment(t, i), t, name);
    }
  }

  /** On create, every occurrence of a name among the submitted ones counts
      a use of its tag. */
  lemma {:induction false} CreateUsage(tags: seq<Tag>, names: seq<string>, name: string)
    ensures UsageOf(AddTags(tags, names, true), name) == UsageOf(tags, name) + Count(names, (x: string) => Lower(x) == name)
    decreases |names|
  {
    if |names| > 0 {
      StepUsage(tags, names[0], true, name);
      CreateUsage(TagStep(tags, names[0], true), names[1..], name);
    }
  }

  /** On update, a use is counted only for a tag the loop created. */
  lemma {:induction false} UpdateUsage(tags: seq<Tag>, names: seq<string>, name: string)
    ensures UsageOf(AddTags(tags, names, false), name) ==
      UsageOf(tags, name) + (if !HasTag(tags, name) && name in LoweredSet(names) then 1 else 0)
    decreases |names|
  {
    if |names| > 0 {
      var t := TagStep(tags, names[0], false);
      StepUsage(tags, names[0], false, name);
      UpdateUsage(t, names[1..], name);
      LoweredSetCons(names);
    }
  }

  /** After the loop every submitted name has its tag, existing tags remain,
      and no other tag appears. */
  lemma {:induction false} AddTagsNames(tags: seq<Tag>, names: seq<string>, always: bool, name: string)
    ensures HasTag(AddTags(tags, names, always), name) <==> HasTag(tags, name) || name in LoweredSet(names)
    decreases |names|
  {
    if |names| > 0 {
      StepUsage(tags, names[0], always, name);
      AddTagsNames(TagStep(tags, names[0], always), names[1..], always, name);
      LoweredSetCons(names);
    }
  }

  /** get_or_create never makes a second tag with a name already in use. */
  lemma {:induction false} AddTagsKeepsUnique(tags: seq<Tag>, names: seq<string>, always: bool)
    requires UniqueTagNames(tags)
    ensures UniqueTagNames(AddTags(tags, names, always))
    decreases |names|
  {
    if |names| > 0 {
      var (t, i, created) := GetOrCreate(tags, Lower(names[0]));
      assert UniqueTagNames(t);
      var t' := TagStep(tags, names[0], always);
      assert forall j :: 0 <= j < |t| ==> t'[j].name == t[j].name;
      AddTagsKeepsUnique(t', names[1..], always);
    }
  }

  // ---------------------------------------------------------------------
  // The serializer

  /** The writable fields of a create request; `tags` may be left out. */
  datatype QuestionInput = QuestionInput(title: string, body: string, tags: Option<seq<string>>)

  /** `QuestionSerializer.create` with the author and timestamp chosen by the view. */
  function CreateQuestion(tags: seq<Tag>, id: nat, input: QuestionInput, author: Option<UserId>, now: int): (r: (Question, seq<Tag>))
    ensures var names := input.tags.GetOr([]);
      && r.0 == NewQuestion(id, input.title, input.body, author, now).(tags := LoweredSet(names))
      && (forall n {:trigger UsageOf(r.1, n)} :: UsageOf(r.1, n) == UsageOf(tags, n) + Count(names, (x: string) => Lower(x) == n))
      && (forall n :: n in r.0.tags ==> HasTag(r.1, n))
      && (UniqueTagNames(tags) ==> UniqueTagNames(r.1))
  {
    var names := input.tags.GetOr([]);
    var tags' := AddTags(tags, names, true);
    assert forall n {:trigger UsageOf(tags', n)} :: UsageOf(tags', n) == UsageOf(tags, n) + Count(names, (x: string) => Lower(x) == n) by {
      forall n { CreateUsage(tags, names, n); }
    }
    assert forall n :: n in LoweredSet(names) ==> HasTag(tags', n) by {
      forall n | n in LoweredSet(names) { AddTagsNames(tags, names, true, n); }
    }
    assert UniqueTagNames(tags) ==> UniqueTagNames(tags') by {
      if UniqueTagNames(tags) { AddTagsKeepsUnique(tags, names, true); }
    }
    (NewQuestion(id, input.title, input.body, author, now).(tags := LoweredSet(names)), tags')
  }

  /** The fields an update may carry; absent ones are left alone. */
  datatype QuestionPatch = QuestionPatch(title: Option<string>, body: Option<string>, tags: Option<seq<string>>)

  /** `QuestionSerializer.update`. */
  function UpdateQuestion(tags: seq<Tag>, q: Question, patch: QuestionPatch): (r: (Question, seq<Tag>))
    ensures r.0 == q.(title := patch.title.GetOr(q.title), body := patch.body.GetOr(q.body), tags := r.0.tags)
    ensures patch.tags.None? ==> r.0.tags == q.tags && r.1 == tags
    ensures patch.tags.Some? ==> r.0.tags == LoweredSet(patch.tags.value)
    ensures forall n {:trigger UsageOf(r.1, n)} ::
      (UsageOf(r.1, n) == UsageOf(tags, n) +
        (if patch.tags.Some? && !HasTag(tags, n) && n in LoweredSet(patch.tags.value) then 1 else 0))
    ensures forall n :: n in r.0.tags ==> HasTag(r.1, n) || n in q.tags
    ensures UniqueTagNames(tags) ==> UniqueTagNames(r.1)
  {
    var q' := q.(title := patch.title.GetOr(q.title), body := patch.body.GetOr(q.body));
    match patch.tags
    case None => (q', tags)
    case Some(names) =>
      var tags' := AddTags(tags, names, false);
      assert forall n {:trigger UsageOf(tags', n)} ::
        (UsageOf(tags', n) == UsageOf(tags, n) + (if !HasTag(tags, n) && n in LoweredSet(names) then 1 else 0)) by {
        forall n { UpdateUsage(tags, names, n); }
      }
      assert forall n :: n in LoweredSet(names) ==> HasTag(tags', n) by {
        forall n | n in LoweredSet(names) { AddTagsNames(tags, names, false, n); }
      }
      assert UniqueTagNames(tags) ==> UniqueTagNames(tags') by {
        if UniqueTagNames(tags) { AddTagsKeepsUnique(tags, names, false); }
      }
      (q'.(tags := LoweredSet(names)), tags')
  }

  // ---------------------------------------------------------------------
  // The serializer's fields

  /** `Question.title` is a `CharField(max_length=255)`. */
  const TitleMaxLength: nat := 255

  /** Each item of the write-only `tags` list is a `CharField(max_length=50)`. */
  const TagMaxLength: nat := 50

  /** The writable members of a create or update request as they arrive. */
  datatype QuestionData = QuestionData(title: Field<string>, body: Field<string>, tags: Field<seq<string>>)

  /** The field errors of a refused request; `None` for a field that passed. */
  datatype QuestionErrors = QuestionErrors(title: Option<FieldError>, body: Option<FieldError>, tags: Option<ListError>)

  datatype Validation = Validated(patch: QuestionPatch) | FieldsInvalid(errors: QuestionErrors)

  function CheckTitle(data: QuestionData, partial: bool): Checked<string> {
    CheckText(data.title, true, partial, Some(TitleMaxLength))
  }

  function CheckBody(data: QuestionData, partial: bool): Checked<string> {
    CheckText(data.body, true, partial, None)
  }

  function CheckTags(data: QuestionData): ListChecked {
    CheckList(data.tags, Some(TagMaxLength))
  }

  /** What the serializer's fields let through. */
  predicate CleanPatch(p: QuestionPatch) {
    && (p.title.Some? ==> CleanValue(p.title.value, Some(TitleMaxLength)))
    && (p.body.Some? ==> CleanValue(p.body.value, None))
    && (p.tags.Some? ==> forall i :: 0 <= i < |p.tags.value| ==> CleanValue(p.tags.value[i], Some(TagMaxLength)))
  }

  /** The field step of `is_valid` for `QuestionSerializer`: `title` and
      `body` are required (except in a partial update) and `tags` is optional.
      A request is refused exactly when some field refuses it, and the errors
      name exactly those fields; otherwise the validated data holds the
      trimmed title, body and tags of the members that were sent. */
  function ValidateQuestion(data: QuestionData, partial: bool): (r: Validation)
    ensures r.FieldsInvalid? <==>
      CheckTitle(data, partial).Refused? || CheckBody(data, partial).Refused? || CheckTags(data).ListRefused?
    ensures r.FieldsInvalid? ==>
      && (r.errors.title.Some? <==> CheckTitle(data, partial).Refused?)
      && (r.errors.body.Some? <==> CheckBody(data, partial).Refused?)
      && (r.errors.tags.Some? <==> CheckTags(data).ListRefused?)
    ensures r.Validated? ==>
      && CleanPatch(r.patch)
      && r.patch.title == (if data.title.Given? then Some(Trim(data.title.value)) else None)
      && r.patch.body == (if data.body.Given? then Some(Trim(data.body.value)) else None)
      && r.patch.tags == (if data.tags.Given? then Some(TrimAll(data.tags.value)) else None)
    ensures r.Validated? && !partial ==> r.patch.title.Some? && r.patch.body.Some?
  {
    var title := CheckTitle(data, partial);
    var body := CheckBody(data, partial);
    var tags := CheckTags(data);
    if title.Refused? || body.Refused? || tags.ListRefused? then
      FieldsInvalid(QuestionErrors(title.ErrorOf(), body.ErrorOf(), tags.ErrorOf()))
    else
      Validated(QuestionPatch(title.ValueOf(), body.ValueOf(), tags.ValuesOf()))
  }

  /** The request that carries a patch's members and nothing else. */
  function PatchData(p: QuestionPatch): QuestionData {
    QuestionData(
      if p.title.Some? then Given(p.title.value) else Absent,
      if p.body.Some? then Given(p.body.value) else Absent,
      if p.tags.Some? then Given(p.tags.value) else Absent)
  }

  lemma TitleAgain(p: QuestionPatch, partial: bool)
    requires CleanPatch(p)
    requires !partial ==> p.title.Some?
    ensures CheckTitle(PatchData(p), partial) == if p.title.Some? then Clean(p.title.value) else Skipped
  {
    if p.title.Some? { CleanTextFixes(p.title.value, Some(TitleMaxLength)); }
  }

  lemma BodyAgain(p: QuestionPatch, partial: bool)
    requires CleanPatch(p)
    requires !partial ==> p.body.Some?
    ensures CheckBody(PatchData(p), partial) == if p.body.Some? then Clean(p.body.value) else Skipped
  {
    if p.body.Some? { CleanTextFixes(p.body.value, None); }
  }

  lemma TagsAgain(p: QuestionPatch)
    requires CleanPatch(p)
    ensures CheckTags(PatchData(p)) == if p.tags.Some? then ListClean(p.tags.value) else ListSkipped
  {
    if p.tags.Some? { CheckListFixes(p.tags.value, Some(TagMaxLength)); }
  }

  /** A clean patch, sent again as a request, validates to itself. */
  lemma RevalidatePatch(p: QuestionPatch, partial: bool)
    requires CleanPatch(p)
    requires !partial ==> p.title.Some? && p.body.Some?
    ensures ValidateQuestion(PatchData(p), partial) == Validated(p)
  {
    var again := PatchData(p);
    TitleAgain(p, partial);
    BodyAgain(p, partial);
    TagsAgain(p);
    var title, body, tags := CheckTitle(again, partial), CheckBody(again, partial), CheckTags(again);
    assert !title.Refused? && !body.Refused? && !tags.ListRefused?;
    assert QuestionPatch(title.ValueOf(), body.ValueOf(), tags.ValuesOf()) == p;
  }

  /** Validated data passes the fields again unchanged: the field step is
      idempotent. */
  lemma RevalidateQuestion(data: QuestionData, partial: bool)
    requires ValidateQuestion(data, partial).Validated?
    ensures ValidateQuestion(PatchData(ValidateQuestion(data, partial).patch), partial)
         == ValidateQuestion(data, partial)
  {
    RevalidatePatch(ValidateQuestion(data, partial).patch, partial);
  }

  /** A stored question whose title and body came through the fields. */
  predicate CleanQuestion(q: Question) {
    CleanValue(q.title, Some(TitleMaxLength)) && CleanValue(q.body, None)
  }

  /** Names that differ only in ASCII case land on one tag, and no stored tag
      name has an upper-case letter. */
  lemma CaseInsensitiveTags(names: seq<string>, t: string)
    requires t in LoweredSet(names)
    ensures forall k :: 0 <= k < |t| ==> !IsUpperAscii(t[k])
    ensures forall i :: 0 <= i < |names| && Lower(names[i]) == Lower(t) ==> Lower(names[i]) == t
  {
    var i :| 0 <= i < |names| && Lower(names[i]) == t;
    LowerIdempotent(names[i]);
  }

  // ---------------------------------------------------------------------
  // Derived values and order

  /** `Question.vote_count`: up votes minus down votes on this question. */
  function VoteCount(q: Question, votes: seq<Vote>): (r: int)
    ensures -(Voting.VotesOn(votes, QuestionKind, q.id) as int) <= r <= Voting.VotesOn(votes, QuestionKind, q.id)
  {
    Voting.Score(votes, QuestionKind, q.id)
  }

  /** `Question.comment_count`: the comments whose generic key is this question. */
  function CommentCount(q: Question, comments: seq<Comment>): (r: nat)
    ensures r <= |comments|
    ensures r == 0 <==> forall i :: 0 <= i < |comments| ==> comments[i].kind != QuestionKind || comments[i].objectId != q.id
  {
    Count(comments, (c: Comment) => c.kind == QuestionKind && c.objectId == q.id)
  }

  /** Posting a comment raises the count of the question it is on by one and
      no other question's. */
  lemma CommentCountAdd(q: Question, comments: seq<Comment>, c: Comment)
    ensures CommentCount(q, comments + [c]) ==
      CommentCount(q, comments) + (if c.kind == QuestionKind && c.objectId == q.id then 1 else 0)
  {
    CountAppend(comments, [c], (c: Comment) => c.kind == QuestionKind && c.objectId == q.id);
    CountSingle(c, (c: Comment) => c.kind == QuestionKind && c.objectId == q.id);
  }

  /** `Meta.ordering = ['-created_at']` */
  predicate NewerFirst(a: Question, b: Question) {
    a.createdAt >= b.createdAt
  }

  lemma NewerFirstPreorder()
    ensures Ordering.Preorder(NewerFirst)
  {
  }

  /** `Question.objects.all()` in its default order: the same questions,
      newest first. */
  function ListQuestions(qs: seq<Question>): (r: seq<Question>)
    ensures multiset(r) == multiset(qs)
    ensures forall i, j :: 0 <= i < j < |r| ==> r[i].createdAt >= r[j].createdAt
  {
    NewerFirstPreorder();
    Ordering.Sort(qs, NewerFirst)
  }
}

=== FILE: questions_page.dfy ===
/**
  The questions list (frontend/src/pages/QuestionsPage.tsx): the day
  labels of `formatDate` and the body preview.
 */
module QuestionsPage {

  import opened Text
  import PostCard

  const DayMs := 86400000

  /** `Math.ceil(Math.abs(now - date) / 86400000)` for a difference in
      whole milliseconds. */
  function DiffDays(diff: int): (n: nat)
    ensures n * DayMs >= Abs(diff) > (n - 1) * DayMs
  {
    (Abs(diff) + DayMs - 1) / DayMs
  }

  function Abs(x: int): nat { if x < 0 then -x else x }

  /** What `formatDate` shows; `CalendarDate` stands for the locale date. */
  datatype DayLabel = Today | Yesterday | DaysAgo(days: nat) | CalendarDate

  function LabelText(l: DayLabel): string
    requires !l.CalendarDate?
  {
    match l
    case Today => "Today"
    case Yesterday => "Yesterday"
    case DaysAgo(n) => NatToString(n) + " days ago"
  }

  /** `formatDate`, given `now - date` in milliseconds. Only an exact match
      is "Today"; anything up to a full day either way is "Yesterday"; two
      to six days show the count; later dates fall through to the calendar
      date. */
  function FormatDate(diff: int): (l: DayLabel)
    ensures l == Today <==> diff == 0
    ensures l == Yesterday <==> 0 < Abs(diff) <= DayMs
    ensures l.DaysAgo? <==> DayMs < Abs(diff) <= 6 * DayMs
    ensures l.DaysAgo? ==> 2 <= l.days <= 6 && l.days == DiffDays(diff)
    ensures l == CalendarDate <==> Abs(diff) > 6 * DayMs
  {
    var days := DiffDays(diff);
    if days == 0 then Today
    else if days == 1 then Yesterday
    else if days < 7 then DaysAgo(days)
    else CalendarDate
  }

  /** Past and future dates the same distance away get the same label. */
  lemma FormatDateSymmetric(diff: int)
    ensures FormatDate(diff) == FormatDate(-diff)
  {
  }

  /** The body preview: its first 200 characters, then "..." exactly when
      the body is longer. */
  function BodyPreview(body: string): (r: string)
    ensures |body| > 200 <==> |r| == 203 && r[200..] == "..."
    ensures StartsWith(r, Take(body, 200))
  {
    Take(body, 200) + (if |body| > 200 then "..." else "")
  }

  /** The list shortens bodies by the card's rule with a limit of 200. */
  lemma BodyPreviewIsCardRule(body: string)
    ensures BodyPreview(body) == PostCard.Preview(body, 200)
  {
  }
}

=== FILE: register_form.dfy ===
/**
  The registration form (frontend/src/components/Form.tsx): the password
  check before any request, the request it sends, and the error message it
  builds from the server's validation errors.
 */
module RegisterForm {

  import opened Wrappers
  import opened Text
  import opened Browser

  datatype FormData = FormData(username: string, firstName: string, lastName: string,
                               email: string, password: string, confirmPassword: string)

  /** The JSON body of the registration request. */
  datatype RegisterRequest = RegisterRequest(username: string, firstName: string, lastName: string,
                                             email: string, password: string, role: string)

  /** The URL the form posts to, fixed in the component. */
  const RegisterUrl := "http://localhost:8000/api/register/"

  /** A value of the error object: a single message or a list of them, as
      Django REST framework reports field errors. */
  datatype ErrorValue = Message(text: string) | Messages(texts: seq<string>)

  /** `Object.values(data).flat()`: the messages in order, lists opened one
      level. */
  function Flatten(values: seq<ErrorValue>): (r: seq<string>)
    ensures forall m :: m in r <==> exists i :: 0 <= i < |values| && HasMessage(values[i], m)
  {
    if |values| == 0 then []
    else
      var rest := Flatten(values[1..]);
      var r := Messages(values[0]) + rest;
      assert forall m :: (exists i :: 0 <= i < |values| && HasMessage(values[i], m)) <==>
        HasMessage(values[0], m) || exists j :: 0 <= j < |values[1..]| && HasMessage(values[1..][j], m);
      r
  }

  function Messages(v: ErrorValue): seq<string> {
    match v
    case Message(t) => [t]
    case Messages(ts) => ts
  }

  predicate HasMessage(v: ErrorValue, m: string) {
    m in Messages(v)
  }

  const Fallback := "Registration failed"

  /** `errorMessage || 'Registration failed'`, where `errorMessage` joins
      the flattened messages with single spaces. */
  function ErrorMessage(values: seq<ErrorValue>): (r: string)
    ensures r != ""
    ensures (forall m :: m in Flatten(values) ==> m == "") && |Flatten(values)| <= 1 ==> r == Fallback
    ensures (exists m :: m in Flatten(values) && m != "") ==> r == Join(Flatten(values), ' ')
  {
    var parts := Flatten(values);
    var joined := Join(parts, ' ');
    assert |parts| == 1 ==> parts[0] in parts;
    if joined == "" then Fallback
    else
      JoinNonEmpty(parts, ' ');
      joined
  }

  /** A join is empty exactly when it joins nothing or a single empty
      string: a non-empty part, or two parts with their separator, make it
      non-empty. */
  lemma {:induction false} JoinNonEmpty(parts: seq<string>, sep: char)
    ensures Join(parts, sep) == "" <==> |parts| == 0 || (|parts| == 1 && parts[0] == "")
    ensures (exists m :: m in parts && m != "") ==> Join(parts, sep) != ""
  {
    if |parts| > 1 {
      JoinNonEmpty(parts[1..], sep);
      assert parts == [parts[0]] + parts[1..];
      assert forall m :: m in parts ==> m == parts[0] || m in parts[1..];
    }
  }

  /** When no message contains a space and at least one is non-empty, the
      shown error splits back into exactly the server's messages. */
  lemma ErrorMessageWords(values: seq<ErrorValue>)
    requires exists m :: m in Flatten(values) && m != ""
    requires forall m :: m in Flatten(values) ==> ' ' !in m
    ensures Split(ErrorMessage(values), ' ') == Flatten(values)
  {
    var parts := Flatten(values);
    assert forall i :: 0 <= i < |parts| ==> parts[i] in parts;
    SplitJoin(parts, ' ');
  }

  /** What one submit did: the request sent (if any), the error shown, the
      navigation and the alert. */
  datatype SubmitStep = SubmitStep(request: Option<RegisterRequest>, error: string, nav: Nav, alert: Option<string>)

  const Mismatch := "Passwords do not match"
  const Welcome := "Registration successful! Please login."
  const Broken := "Something went wrong. Please try again."

  /** `handleSubmit`. The error is cleared first; mismatched passwords stop
      before the request; the request always asks for the role `student`.
      An accepted registration alerts and goes to the login page; a
      rejected one shows the server's messages; an unreachable server, or a
      rejection whose body is not JSON (`None`), shows the generic error. */
  function Submit(form: FormData, response: Response<Option<seq<ErrorValue>>>): (r: SubmitStep)
    ensures r.request.None? <==> form.password != form.confirmPassword
    ensures r.request.None? ==> r == SubmitStep(None, Mismatch, Stay, None)
    ensures r.request.Some? ==>
      && r.request.value.role == "student"
      && r.request.value == RegisterRequest(form.username, form.firstName, form.lastName, form.email, form.password, "student")
    ensures r.request.Some? && Ok(response) ==> r.error == "" && r.nav == GoTo("/login") && r.alert == Some(Welcome)
    ensures r.request.Some? && response.Answered? && !Ok(response) && response.body.Some? ==>
      r.error == ErrorMessage(response.body.value) && r.nav == Stay && r.alert.None?
    ensures r.request.Some? && (response.NetworkError? || (!Ok(response) && response.body.None?)) ==>
      r.error == Broken && r.nav == Stay && r.alert.None?
    ensures r.nav != Stay ==> r.error == ""
  {
    if form.password != form.confirmPassword then SubmitStep(None, Mismatch, Stay, None)
    else
      var request := RegisterRequest(form.username, form.firstName, form.lastName, form.email, form.password, "student");
      match response
      case NetworkError => SubmitStep(Some(request), Broken, Stay, None)
      case Answered(_, body) =>
        if Ok(response) then SubmitStep(Some(request), "", GoTo("/login"), Some(Welcome))
        else if body.None? then SubmitStep(Some(request), Broken, Stay, None)
        else SubmitStep(Some(request), ErrorMessage(body.value), Stay, None)
  }

  /** Every submit that leaves the form shows some error, and one that ends
      on the login page shows none. */
  lemma SubmitShowsError(form: FormData, response: Response<Option<seq<ErrorValue>>>)
    ensures Submit(form, response).nav == Stay <==> Submit(form, response).error != ""
  {
  }
}

=== FILE: seqs.dfy ===
/**
  Counting and order-preserving filtering over sequences: the model of
  `list.filter(p)`, `.filter(p).length` and Django's `.filter(...).count()`.
 */
module Seqs {

  /** Number of elements of `s` that satisfy `p`. */
  function Count<T>(s: seq<T>, p: T -> bool): (n: nat)
    ensures n <= |s|
    ensures n == 0 <==> forall i :: 0 <= i < |s| ==> !p(s[i])
    ensures n == |s| <==> forall i :: 0 <= i < |s| ==> p(s[i])
  {
    if |s| == 0 then 0
    else (if p(s[0]) then 1 else 0) + Count(s[1..], p)
  }

  /** The elements of `s` that satisfy `p`, in their original order. */
  function Filter<T>(s: seq<T>, p: T -> bool): (r: seq<T>)
    ensures |r| == Count(s, p)
    ensures forall i :: 0 <= i < |r| ==> r[i] in s && p(r[i])
    ensures forall i :: 0 <= i < |s| && p(s[i]) ==> s[i] in r
  {
    if |s| == 0 then []
    else if p(s[0]) then [s[0]] + Filter(s[1..], p)
    else Filter(s[1..], p)
  }

  lemma {:induction false} CountAppend<T>(a: seq<T>, b: seq<T>, p: T -> bool)
    ensures Count(a + b, p) == Count(a, p) + Count(b, p)
  {
    if |a| == 0 {
      assert a + b == b;
    } else {
      assert (a + b)[1..] == a[1..] + b;
      CountAppend(a[1..], b, p);
    }
  }

  /**
    Filtering distributes over concatenation and keeps exactly the
    elements that pass: together with the singleton case these two
    equations determine `Filter` completely, so it is order-preserving.
   */
  lemma {:induction false} FilterAppend<T>(a: seq<T>, b: seq<T>, p: T -> bool)
    ensures Filter(a + b, p) == Filter(a, p) + Filter(b, p)
  {
    if |a| == 0 {
      assert a + b == b;
    } else {
      assert (a + b)[1..] == a[1..] + b;
      FilterAppend(a[1..], b, p);
    }
  }

  lemma CountSingle<T>(x: T, p: T -> bool)
    ensures Count([x], p) == if p(x) then 1 else 0
  {
    assert [x][1..] == [];
  }

  /** Replacing one element changes the count by that element's share only. */
  lemma CountUpdate<T>(s: seq<T>, i: nat, x: T, p: T -> bool)
    requires i < |s|
    ensures Count(s[i := x], p) == Count(s, p) - (if p(s[i]) then 1 else 0) + (if p(x) then 1 else 0)
  {
    var a, b := s[..i], s[i + 1..];
    assert s == a + ([s[i]] + b);
    assert s[i := x] == a + ([x] + b);
    CountAppend(a, [s[i]] + b, p);
    CountAppend([s[i]], b, p);
    CountAppend(a, [x] + b, p);
    CountAppend([x], b, p);
    CountSingle(s[i], p);
    CountSingle(x, p);
  }

  /** Removing one element lowers the count by that element's share. */
  lemma {:induction false} CountRemove<T>(s: seq<T>, i: nat, p: T -> bool)
    requires i < |s|
    ensures Count(s[..i] + s[i + 1..], p) == Count(s, p) - (if p(s[i]) then 1 else 0)
  {
    if i == 0 {
      assert s[..0] + s[1..] == s[1..];
    } else {
      var t := s[..i] + s[i + 1..];
      assert t[0] == s[0];
      assert t[1..] == s[1..][..i - 1] + s[1..][i..];
      CountRemove(s[1..], i - 1, p);
    }
  }

  lemma FilterSingleton<T>(x: T, p: T -> bool)
    ensures Filter([x], p) == if p(x) then [x] else []
  {
    assert [x][1..] == [];
  }

  /** Counting `p` splits into the elements with `p && q` and with `p && !q`. */
  lemma {:induction false} CountSplit<T>(s: seq<T>, p: T -> bool, q: T -> bool)
    ensures Count(s, p) == Count(s, x => p(x) && q(x)) + Count(s, x => p(x) && !q(x))
  {
    if |s| > 0 {
      CountSplit(s[1..], p, q);
    }
  }

  /** Counting is monotone in the predicate. */
  lemma {:induction false} CountMonotone<T>(s: seq<T>, p: T -> bool, q: T -> bool)
    requires forall x :: p(x) ==> q(x)
    ensures Count(s, p) <= Count(s, q)
  {
    if |s| > 0 {
      CountMonotone(s[1..], p, q);
    }
  }

  /** Two predicates that agree on every element of `s` count alike. */
  lemma {:induction false} CountCongruent<T>(s: seq<T>, p: T -> bool, q: T -> bool)
    requires forall i :: 0 <= i < |s| ==> (p(s[i]) <==> q(s[i]))
    ensures Count(s, p) == Count(s, q)
  {
    if |s| > 0 {
      CountCongruent(s[1..], p, q);
    }
  }

  /** No value occurs twice. */
  predicate Distinct<T(==)>(s: seq<T>) {
    forall i, j :: 0 <= i < j < |s| ==> s[i] != s[j]
  }

  lemma {:induction false} FilterDistinct<T>(s: seq<T>, p: T -> bool)
    requires Distinct(s)
    ensures Distinct(Filter(s, p))
  {
    if |s| > 0 {
      FilterDistinct(s[1..], p);
      assert s[0] !in s[1..];
    }
  }

  /** Filtering keeps everything when everything passes. */
  lemma {:induction false} FilterAll<T>(s: seq<T>, p: T -> bool)
    requires forall i :: 0 <= i < |s| ==> p(s[i])
    ensures Filter(s, p) == s
  {
    if |s| > 0 {
      FilterAll(s[1..], p);
    }
  }

  /** In a sequence without repeats, a predicate that only one value can
      satisfy is satisfied at most once. */
  lemma {:induction false} CountAtMostOne<T>(s: seq<T>, p: T -> bool, x: T)
    requires Distinct(s)
    requires forall i :: 0 <= i < |s| && p(s[i]) ==> s[i] == x
    ensures Count(s, p) <= 1
  {
    if |s| > 0 {
      CountAtMostOne(s[1..], p, x);
      if p(s[0]) {
        assert forall i :: 0 <= i < |s[1..]| ==> !p(s[1..][i]) by {
          forall i | 0 <= i < |s[1..]| ensures !p(s[1..][i]) {
            assert s[1..][i] == s[i + 1];
          }
        }
      }
    }
  }
}

=== FILE: session.dfy ===
/**
  The client's session over `localStorage` (frontend/src/Service/api.ts):
  `authAPI.register` / `login` store the user returned by the server,
  `logout` forgets it, `getCurrentUser` reads it back, and
  `dashboardAPI.getStats` derives the student statistics from it.
  The network is a parameter: what `fetch` produced.
 */
module Session {

  import opened Wrappers
  import opened Seqs
  import opened Text
  import opened Browser
  import opened StoredUserJson

  const UserKey := "user"
  const CannotConnect := "Cannot connect to server. Is the backend running?"
  const NotLoggedInMessage := "User not logged in"

  /** The fields of a successful `LoginResponse` body. */
  datatype LoginResponse = LoginResponse(success: bool, message: string, userId: nat,
                                         username: string, email: string, role: string, bio: Bio)

  /** An HTTP answer: its `ok` flag, the `error` member of a failure body,
      and the body of a success. */
  datatype Reply = Reply(ok: bool, error: Option<string>, body: LoginResponse)

  /** What `fetch` produced: a rejection (a `TypeError` or another error,
      with its message) or an answer. */
  datatype Fetch = Unreachable(typeError: bool, message: string) | Replied(reply: Reply)

  datatype CallOutcome = Returned(response: LoginResponse) | Threw(message: string)

  /** The record the client keeps, renaming `user_id` to `id`. */
  function Stored(r: LoginResponse): StoredUser {
    StoredUser(r.userId, r.username, r.email, r.role, r.bio)
  }

  datatype CurrentUser = NoUser | LoggedIn(user: StoredUser) | Unreadable

  /** `getCurrentUser`: no entry, an empty one, or the text "null" (which
      `JSON.parse` reads as `null`) means nobody; otherwise the parsed
      record, `Unreadable` for a text outside the record's shape. */
  function GetCurrentUser(storage: Storage): (r: CurrentUser)
    ensures r == NoUser <==> !Truthy(GetItem(storage, UserKey)) || GetItem(storage, UserKey) == Some("null")
    ensures r.LoggedIn? ==> storage[UserKey] == Encode(r.user)
    ensures (exists u :: UserKey in storage && storage[UserKey] == Encode(u)) ==> r.LoggedIn?
  {
    match GetItem(storage, UserKey)
    case None => NoUser
    case Some(text) =>
      if text == "" || text == "null" then NoUser
      else match Decode(text)
        case None =>
          assert forall u :: text != Encode(u) by {
            forall u ensures text != Encode(u) { DecodeEncode(u); }
          }
          Unreadable
        case Some(u) =>
          EncodeDecode(text);
          LoggedIn(u)
  }

  /** The shared body of `register` and `login`; `fallback` is the message
      used when a failure body has no `error`. */
  function AuthCall(storage: Storage, fetch: Fetch, fallback: string): (res: (CallOutcome, Storage))
    ensures fetch.Unreachable? ==> res == (Threw(
      if fetch.typeError && Includes(fetch.message, "fetch") then CannotConnect else fetch.message), storage)
    ensures fetch.Replied? && !fetch.reply.ok ==> res == (Threw(
      if Truthy(fetch.reply.error) then fetch.reply.error.value else fallback), storage)
    ensures fetch.Replied? && fetch.reply.ok ==>
      && res.0 == Returned(fetch.reply.body)
      && res.1.Keys == storage.Keys + {UserKey}
      && (forall k :: k in storage && k != UserKey ==> res.1[k] == storage[k])
      && GetCurrentUser(res.1) == LoggedIn(Stored(fetch.reply.body))
  {
    match fetch
    case Unreachable(typeError, message) =>
      (Threw(if typeError && Includes(message, "fetch") then CannotConnect else message), storage)
    case Replied(reply) =>
      if !reply.ok then
        (Threw(if Truthy(reply.error) then reply.error.value else fallback), storage)
      else
        var storage' := storage[UserKey := Encode(Stored(reply.body))];
        StoredUserReads(storage, Stored(reply.body));
        (Returned(reply.body), storage')
  }

  /** A record written under `user` is read back as the logged-in user. */
  lemma StoredUserReads(storage: Storage, u: StoredUser)
    ensures GetCurrentUser(storage[UserKey := Encode(u)]) == LoggedIn(u)
  {
    var text := Encode(u);
    DecodeEncode(u);
    assert text[0] == '{';
    assert GetItem(storage[UserKey := text], UserKey) == Some(text);
  }

  /** `authAPI.register` */
  function Register(storage: Storage, fetch: Fetch): (res: (CallOutcome, Storage))
    ensures fetch.Replied? && !fetch.reply.ok && !Truthy(fetch.reply.error) ==>
      res == (Threw("Registration failed"), storage)
    ensures res.0.Threw? ==> res.1 == storage
    ensures res.0.Returned? ==> GetCurrentUser(res.1) == LoggedIn(Stored(res.0.response))
  {
    AuthCall(storage, fetch, "Registration failed")
  }

  /** `authAPI.login` */
  function Login(storage: Storage, fetch: Fetch): (res: (CallOutcome, Storage))
    ensures fetch.Replied? && !fetch.reply.ok && !Truthy(fetch.reply.error) ==>
      res == (Threw("Login failed"), storage)
    ensures res.0.Threw? ==> res.1 == storage
    ensures res.0.Returned? ==> GetCurrentUser(res.1) == LoggedIn(Stored(res.0.response))
  {
    AuthCall(storage, fetch, "Login failed")
  }

  /** `authAPI.logout`: only the `user` entry is removed. */
  function Logout(storage: Storage): (r: Storage)
    ensures GetCurrentUser(r) == NoUser
    ensures r.Keys == storage.Keys - {UserKey}
    ensures forall k :: k in r ==> r[k] == storage[k]
  {
    storage - {UserKey}
  }

  /** Logging in, then out, leaves the session as if nobody had logged in,
      whatever was stored before. */
  lemma LoginThenLogout(storage: Storage, fetch: Fetch)
    ensures Logout(Login(storage, fetch).1) == Logout(storage)
  {
  }

  /** The statistics `getStats` returns. */
  datatype Stats = Stats(username: string, questionsAsked: nat, questionsAnswered: nat,
                         reputation: nat, questionVotes: nat, answerVotes: nat)

  datatype StatsOutcome = StatsThrew(message: string) | StatsUnreadable | Computed(stats: Stats)

  /** `dashboardAPI.getStats`, given the author usernames of all questions,
      or `None` when fetching them failed. */
  function GetStats(storage: Storage, questionAuthors: Option<seq<string>>): (r: StatsOutcome)
    ensures GetCurrentUser(storage) == NoUser <==> r == StatsThrew(NotLoggedInMessage)
    ensures GetCurrentUser(storage) == Unreadable <==> r == StatsUnreadable
    ensures r.Computed? ==>
      && GetCurrentUser(storage).LoggedIn?
      && r.stats.username == GetCurrentUser(storage).user.username
      && r.stats.questionsAnswered == 0 && r.stats.reputation == 0
      && r.stats.questionVotes == 0 && r.stats.answerVotes == 0
    ensures r.Computed? && questionAuthors.None? ==> r.stats.questionsAsked == 0
    ensures r.Computed? && questionAuthors.Some? ==>
      && r.stats.questionsAsked <= |questionAuthors.value|
      && (r.stats.questionsAsked == 0 <==>
            forall i :: 0 <= i < |questionAuthors.value| ==> questionAuthors.value[i] != r.stats.username)
  {
    match GetCurrentUser(storage)
    case NoUser => StatsThrew(NotLoggedInMessage)
    case Unreadable => StatsUnreadable
    case LoggedIn(user) =>
      var asked := match questionAuthors
        case None => 0
        case Some(authors) => Count(authors, (a: string) => a == user.username);
      Computed(Stats(user.username, asked, 0, 0, 0, 0))
  }

  /** The asked count grows by one with each question the user posts and is
      unaffected by other users' questions. */
  lemma StatsCountOwnQuestions(storage: Storage, authors: seq<string>, author: string)
    requires GetCurrentUser(storage).LoggedIn?
    ensures var before := GetStats(storage, Some(authors)).stats.questionsAsked;
      var after := GetStats(storage, Some(authors + [author])).stats.questionsAsked;
      after == before + (if author == GetCurrentUser(storage).user.username then 1 else 0)
  {
    var name := GetCurrentUser(storage).user.username;
    CountAppend(authors, [author], (a: string) => a == name);
    CountSingle(author, (a: string) => a == name);
  }
}

=== FILE: signals.dfy ===
/**
  The post-save receivers of backend/core/signals.py: which saves create
  which notifications. The notification table is a sequence of rows and the
  id the next row receives.
 */
module Signals {

  import opened Wrappers
  import opened Text
  import opened CoreModels
  import opened Questions
  import opened Answers
  import opened CoreViews

  datatype NoteTable = NoteTable(rows: seq<Notification>, nextId: nat)

  /** The title as the messages quote it: its first 30 characters, or all
      of it when shorter. */
  function TitleExcerpt(title: string): (r: string)
    ensures StartsWith(title, r)
    ensures |title| <= 30 ==> r == title
    ensures |title| > 30 ==> |r| == 30
  {
    Take(title, 30)
  }

  const AnsweredLead := " answered your question: "
  const PostedHead := "Your question '"
  const PostedTail := "...' was posted successfully!"

  /** "{username} answered your question: {title[:30]}..." */
  function AnsweredMessage(answerer: string, title: string): (m: string)
    ensures StartsWith(m, answerer + AnsweredLead)
    ensures |m| == |answerer| + |AnsweredLead| + |TitleExcerpt(title)| + 3
    ensures m[|answerer| + |AnsweredLead|..|m| - 3] == TitleExcerpt(title)
    ensures m[|m| - 3..] == "..."
  {
    var head := answerer + AnsweredLead;
    var m := head + TitleExcerpt(title) + "...";
    assert m[..|head|] == head;
    m
  }

  /** For one answerer, two titles give the same message exactly when they
      agree on their first 30 characters. */
  lemma AnsweredMessageTitles(answerer: string, t1: string, t2: string)
    ensures AnsweredMessage(answerer, t1) == AnsweredMessage(answerer, t2)
        <==> TitleExcerpt(t1) == TitleExcerpt(t2)
  {
    var m1, m2 := AnsweredMessage(answerer, t1), AnsweredMessage(answerer, t2);
    if m1 == m2 {
      assert m1[|answerer| + |AnsweredLead|..|m1| - 3] == m2[|answerer| + |AnsweredLead|..|m2| - 3];
    }
  }

  /** "Your question '{title[:30]}...' was posted successfully!" */
  function PostedMessage(title: string): (m: string)
    ensures StartsWith(m, PostedHead)
    ensures |m| == |PostedHead| + |TitleExcerpt(title)| + |PostedTail|
    ensures m[|PostedHead|..|m| - |PostedTail|] == TitleExcerpt(title)
    ensures m[|m| - |PostedTail|..] == PostedTail
  {
    var m := PostedHead + TitleExcerpt(title) + PostedTail;
    assert m[..|PostedHead|] == PostedHead;
    m
  }

  /** Two titles give the same confirmation exactly when they agree on their
      first 30 characters. */
  lemma PostedMessageTitles(t1: string, t2: string)
    ensures PostedMessage(t1) == PostedMessage(t2) <==> TitleExcerpt(t1) == TitleExcerpt(t2)
  {
    var m1, m2 := PostedMessage(t1), PostedMessage(t2);
    if m1 == m2 {
      assert m1[|PostedHead|..|m1| - |PostedTail|] == m2[|PostedHead|..|m2| - |PostedTail|];
    }
  }

  /** Every row's id is below the next id, and ids increase along the
      table, so no two rows share one. */
  predicate IdsFresh(notes: NoteTable) {
    && (forall i :: 0 <= i < |notes.rows| ==> notes.rows[i].id < notes.nextId)
    && (forall i, j :: 0 <= i < j < |notes.rows| ==> notes.rows[i].id < notes.rows[j].id)
  }

  /** `Notification.objects.create`: appends one notification under the
      next id. */
  function Notify(notes: NoteTable, user: UserId, kind: string, message: string,
                  actor: Option<UserId>, target: Option<(ContentKind, nat)>): (r: NoteTable)
    ensures |r.rows| == |notes.rows| + 1 && r.rows[..|notes.rows|] == notes.rows
    ensures var n := r.rows[|notes.rows|];
      && n.id == notes.nextId && !n.isRead && n.user == user && n.kind == kind
      && n.message == message && n.actor == actor && n.target == target
    ensures r.nextId > notes.nextId
    ensures IdsFresh(notes) ==> IdsFresh(r)
  {
    var r := NoteTable(notes.rows + [NewNotification(notes.nextId, user, kind, message, actor, target)], notes.nextId + 1);
    assert r.rows[..|notes.rows|] == notes.rows;
    r
  }

  /** `notify_question_author`, after `answer` (to `question`, written by the
      user named `answerer`) was saved. A created answer by anyone but the
      question's author notifies that author, unread, pointing at the answer.
      A question without an author gets no notification. */
  function OnAnswerSaved(notes: NoteTable, answer: Answer, question: Question, answerer: string, created: bool): (r: NoteTable)
    requires answer.question == question.id
    ensures !created || question.author == Some(answer.user) || question.author.None? ==> r == notes
    ensures created && question.author.Some? && question.author != Some(answer.user) ==>
      && |r.rows| == |notes.rows| + 1
      && r.rows[..|notes.rows|] == notes.rows
      && var n := r.rows[|notes.rows|];
         && n.user == question.author.value
         && !n.isRead
         && n.actor == Some(answer.user)
         && n.target == Some((AnswerKind, answer.id))
         && n.message == AnsweredMessage(answerer, question.title)
    ensures IdsFresh(notes) ==> IdsFresh(r)
  {
    if created && question.author.Some? && question.author != Some(answer.user) then
      var r := Notify(notes, question.author.value, "answer", AnsweredMessage(answerer, question.title),
                      Some(answer.user), Some((AnswerKind, answer.id)));
      assert r.rows[..|notes.rows|] == notes.rows;
      r
    else notes
  }

  /** `notify_question_created`: a created question notifies its own author. */
  function OnQuestionSaved(notes: NoteTable, question: Question, created: bool): (r: NoteTable)
    ensures !created || question.author.None? ==> r == notes
    ensures created && question.author.Some? ==>
      && |r.rows| == |notes.rows| + 1
      && r.rows[..|notes.rows|] == notes.rows
      && var n := r.rows[|notes.rows|];
         && n.user == question.author.value
         && !n.isRead
         && n.actor.None?
         && n.target == Some((QuestionKind, question.id))
         && n.message == PostedMessage(question.title)
    ensures IdsFresh(notes) ==> IdsFresh(r)
  {
    if created && question.author.Some? then
      var r := Notify(notes, question.author.value, "question", PostedMessage(question.title),
                      None, Some((QuestionKind, question.id)));
      assert r.rows[..|notes.rows|] == notes.rows;
      r
    else notes
  }

  /** Both receivers only ever add to the question author's list: every
      other user's notifications stay as they were. */
  lemma SignalsReachOnlyTheirRecipient(notes: NoteTable, answer: Answer, question: Question, answerer: string,
                                       other: UserId)
    requires answer.question == question.id
    requires question.author != Some(other)
    ensures NotificationsFor(OnAnswerSaved(notes, answer, question, answerer, true).rows, other)
         == NotificationsFor(notes.rows, other)
    ensures NotificationsFor(OnQuestionSaved(notes, question, true).rows, other)
         == NotificationsFor(notes.rows, other)
  {
    var p := (n: Notification) => n.user == other;
    var a := OnAnswerSaved(notes, answer, question, answerer, true);
    if a != notes {
      assert a.rows == notes.rows + [a.rows[|notes.rows|]];
      Seqs.FilterAppend(notes.rows, [a.rows[|notes.rows|]], p);
      Seqs.FilterSingleton(a.rows[|notes.rows|], p);
    }
    var q := OnQuestionSaved(notes, question, true);
    if q != notes {
      assert q.rows == notes.rows + [q.rows[|notes.rows|]];
      Seqs.FilterAppend(notes.rows, [q.rows[|notes.rows|]], p);
      Seqs.FilterSingleton(q.rows[|notes.rows|], p);
    }
  }
}

=== FILE: stored_user.dfy ===
/**
  The JSON text the client keeps under the `user` key of `localStorage`
  (frontend/src/Service/api.ts): `JSON.stringify` of
  `{id, username, email, role, bio}` and the `JSON.parse` that reads it
  back. Only this one record shape is modelled, with string escapes for the
  quote and the backslash.
 */
module StoredUserJson {

  import opened Wrappers
  import opened Text

  /** `bio` is left out of the text when undefined and written as `null`
      when the server sent null. */
  datatype Bio = Undefined | Null | BioText(text: string)

  datatype StoredUser = StoredUser(id: nat, username: string, email: string, role: string, bio: Bio)

  // ---------------------------------------------------------------------
  // Strings

  /** The characters of a JSON string literal between its quotes. */
  function Escape(s: string): (r: string)
    ensures |r| >= |s|
  {
    if |s| == 0 then ""
    else (if s[0] == '"' || s[0] == '\\' then ['\\', s[0]] else [s[0]]) + Escape(s[1..])
  }

  function Quote(s: string): string {
    "\"" + Escape(s) + "\""
  }

  /** Reads the rest of a string literal whose opening quote was consumed:
      its text and what follows the closing quote. */
  function ReadString(t: string): Option<(string, string)>
    decreases |t|
  {
    if |t| == 0 then None
    else if t[0] == '"' then Some(("", t[1..]))
    else if t[0] == '\\' then
      if |t| >= 2 && (t[1] == '"' || t[1] == '\\') then
        match ReadString(t[2..])
        case None => None
        case Some((s, rest)) => Some(([t[1]] + s, rest))
      else None
    else
      match ReadString(t[1..])
      case None => None
      case Some((s, rest)) => Some(([t[0]] + s, rest))
  }

  function ReadQuoted(t: string): Option<(string, string)> {
    if |t| > 0 && t[0] == '"' then ReadString(t[1..]) else None
  }

  lemma {:induction false} ReadEscaped(s: string, rest: string)
    ensures ReadString(Escape(s) + "\"" + rest) == Some((s, rest))
  {
    if |s| > 0 {
      ReadEscaped(s[1..], rest);
      var head := if s[0] == '"' || s[0] == '\\' then ['\\', s[0]] else [s[0]];
      assert Escape(s) + "\"" + rest == head + (Escape(s[1..]) + "\"" + rest);
      assert [s[0]] + s[1..] == s;
    }
  }

  /** Whatever `ReadString` accepts is exactly an escaped text, its closing
      quote and the rest: the reader admits no second spelling. */
  lemma {:induction false} ReadStringCanonical(t: string)
    requires ReadString(t).Some?
    ensures var (s, rest) := ReadString(t).value; t == Escape(s) + "\"" + rest
    decreases |t|
  {
    if t[0] != '"' {
      var k := if t[0] == '\\' then 2 else 1;
      ReadStringCanonical(t[k..]);
      var (s, rest) := ReadString(t).value;
      var (s', rest') := ReadString(t[k..]).value;
      assert s[1..] == s';
      assert t == t[..k] + t[k..];
    }
  }

  lemma ReadQuotedRoundTrip(s: string, rest: string)
    ensures ReadQuoted(Quote(s) + rest) == Some((s, rest))
  {
    var t := Quote(s) + rest;
    assert t[1..] == Escape(s) + "\"" + rest;
    ReadEscaped(s, rest);
  }

  lemma ReadQuotedCanonical(t: string)
    requires ReadQuoted(t).Some?
    ensures var (s, rest) := ReadQuoted(t).value; t == Quote(s) + rest
  {
    ReadStringCanonical(t[1..]);
    assert t == [t[0]] + t[1..];
  }

  // ---------------------------------------------------------------------
  // Numbers

  /** Length of the run of decimal digits at the front of `t`. */
  function SpanDigits(t: string): (n: nat)
    ensures n <= |t|
    ensures forall i :: 0 <= i < n ==> IsDigit(t[i])
    ensures n < |t| ==> !IsDigit(t[n])
  {
    if |t| == 0 || !IsDigit(t[0]) then 0 else 1 + SpanDigits(t[1..])
  }

  /** A JSON natural number: a digit run without a leading zero. */
  function ReadNat(t: string): Option<(nat, string)> {
    var n := SpanDigits(t);
    if n == 0 || (n > 1 && t[0] == '0') then None
    else Some((DigitsValue(t[..n]), t[n..]))
  }

  lemma {:induction false} SpanOfDigits(ds: string, rest: string)
    requires forall i :: 0 <= i < |ds| ==> IsDigit(ds[i])
    requires |rest| == 0 || !IsDigit(rest[0])
    ensures SpanDigits(ds + rest) == |ds|
  {
    if |ds| > 0 {
      assert (ds + rest)[1..] == ds[1..] + rest;
      SpanOfDigits(ds[1..], rest);
    }
  }

  lemma NatToStringNoLeadingZero(n: nat)
    ensures |NatToString(n)| > 1 ==> NatToString(n)[0] != '0'
  {
    if n >= 10 {
      NatToStringLeading(n);
    }
  }

  lemma {:induction false} NatToStringLeading(n: nat)
    requires n >= 1
    ensures NatToString(n)[0] != '0'
  {
    if n >= 10 {
      NatToStringLeading(n / 10);
    }
  }

  lemma ReadNatRoundTrip(n: nat, rest: string)
    requires |rest| == 0 || !IsDigit(rest[0])
    ensures ReadNat(NatToString(n) + rest) == Some((n, rest))
  {
    var ds := NatToString(n);
    SpanOfDigits(ds, rest);
    NatToStringNoLeadingZero(n);
    assert (ds + rest)[..|ds|] == ds;
    NatToStringValue(n);
  }

  lemma {:induction false} DigitsValuePositive(ds: string)
    requires |ds| >= 1 && forall i :: 0 <= i < |ds| ==> IsDigit(ds[i])
    requires ds[0] != '0'
    ensures DigitsValue(ds) >= 1
    decreases |ds|
  {
    if |ds| > 1 {
      DigitsValuePositive(ds[..|ds| - 1]);
    }
  }

  /** A digit run without a leading zero is the rendering of its value. */
  lemma {:induction false} DigitsCanonical(ds: string)
    requires |ds| >= 1 && forall i :: 0 <= i < |ds| ==> IsDigit(ds[i])
    requires |ds| > 1 ==> ds[0] != '0'
    ensures NatToString(DigitsValue(ds)) == ds
    decreases |ds|
  {
    var v := DigitsValue(ds);
    var last := ds[|ds| - 1];
    if |ds| == 1 {
      assert ds[..|ds| - 1] == [];
      assert DigitsValue(ds[..|ds| - 1]) == 0;
      assert v == last as int - '0' as int;
      assert DigitChar(v) == last;
    } else {
      var init := ds[..|ds| - 1];
      DigitsValuePositive(init);
      DigitsCanonical(init);
      assert v / 10 == DigitsValue(init) && v % 10 == last as int - '0' as int;
      assert DigitChar(v % 10) == last;
      assert ds == init + [last];
    }
  }

  lemma ReadNatCanonical(t: string)
    requires ReadNat(t).Some?
    ensures var (n, rest) := ReadNat(t).value; t == NatToString(n) + rest
  {
    var k := SpanDigits(t);
    DigitsCanonical(t[..k]);
    assert t == t[..k] + t[k..];
  }

  // ---------------------------------------------------------------------
  // The record

  function Expect(lit: string, t: string): Option<string> {
    if StartsWith(t, lit) then Some(t[|lit|..]) else None
  }

  function EncodeBio(b: Bio): string {
    match b
    case Undefined => ""
    case Null => ",\"bio\":null"
    case BioText(s) => ",\"bio\":" + Quote(s)
  }

  /** `JSON.stringify({id, username, email, role, bio})` */
  function Encode(u: StoredUser): (r: string)
    ensures StartsWith(r, "{\"id\":")
    ensures |r| > 0 && r[|r| - 1] == '}'
  {
    "{\"id\":" + (NatToString(u.id) +
    (",\"username\":" + (Quote(u.username) +
    (",\"email\":" + (Quote(u.email) +
    (",\"role\":" + (Quote(u.role) +
    (EncodeBio(u.bio) + "}"))))))))
  }

  function DecodeBio(t: string): Option<Bio> {
    if t == "}" then Some(Undefined)
    else if t == ",\"bio\":null}" then Some(Null)
    else
      match Expect(",\"bio\":", t)
      case None => None
      case Some(t1) =>
        match ReadQuoted(t1)
        case None => None
        case Some((b, t2)) => if t2 == "}" then Some(BioText(b)) else None
  }

  /** A labelled string field: the key, then a string literal. */
  function ReadField(key: string, t: string): Option<(string, string)> {
    match Expect(key, t)
    case None => None
    case Some(t1) => ReadQuoted(t1)
  }

  /** `JSON.parse` of the stored text, for texts of this record's shape;
      `None` for every other text. */
  function Decode(t: string): (r: Option<StoredUser>)
    ensures r.Some? ==> StartsWith(t, "{\"id\":")
  {
    match Expect("{\"id\":", t)
    case None => None
    case Some(t1) =>
      match ReadNat(t1)
      case None => None
      case Some((id, t2)) =>
        match ReadField(",\"username\":", t2)
        case None => None
        case Some((username, t3)) =>
          match ReadField(",\"email\":", t3)
          case None => None
          case Some((email, t4)) =>
            match ReadField(",\"role\":", t4)
            case None => None
            case Some((role, t5)) =>
              match DecodeBio(t5)
              case None => None
              case Some(bio) => Some(StoredUser(id, username, email, role, bio))
  }

  lemma ExpectPrefix(lit: string, rest: string)
    ensures Expect(lit, lit + rest) == Some(rest)
  {
    assert (lit + rest)[..|lit|] == lit;
  }

  lemma ReadFieldRoundTrip(key: string, s: string, rest: string)
    ensures ReadField(key, key + (Quote(s) + rest)) == Some((s, rest))
  {
    ExpectPrefix(key, Quote(s) + rest);
    ReadQuotedRoundTrip(s, rest);
  }

  lemma DecodeBioRoundTrip(b: Bio)
    ensures DecodeBio(EncodeBio(b) + "}") == Some(b)
  {
    if b.BioText? {
      var t := EncodeBio(b) + "}";
      assert t == ",\"bio\":" + (Quote(b.text) + "}");
      assert t[7] == '"';
      ExpectPrefix(",\"bio\":", Quote(b.text) + "}");
      ReadQuotedRoundTrip(b.text, "}");
    }
  }

  /** Reading back what was written gives the record. */
  lemma {:induction false} DecodeEncode(u: StoredUser)
    ensures Decode(Encode(u)) == Some(u)
  {
    var t5 := EncodeBio(u.bio) + "}";
    var t4 := ",\"role\":" + (Quote(u.role) + t5);
    var t3 := ",\"email\":" + (Quote(u.email) + t4);
    var t2 := ",\"username\":" + (Quote(u.username) + t3);
    var t1 := NatToString(u.id) + t2;
    ExpectPrefix("{\"id\":", t1);
    ReadNatRoundTrip(u.id, t2);
    ReadFieldRoundTrip(",\"username\":", u.username, t3);
    ReadFieldRoundTrip(",\"email\":", u.email, t4);
    ReadFieldRoundTrip(",\"role\":", u.role, t5);
    DecodeBioRoundTrip(u.bio);
  }

  lemma ReadFieldCanonical(key: string, t: string)
    requires ReadField(key, t).Some?
    ensures var (s, rest) := ReadField(key, t).value; t == key + (Quote(s) + rest)
  {
    var t1 := Expect(key, t).value;
    ReadQuotedCanonical(t1);
    assert t == key + t1;
  }

  lemma DecodeBioCanonical(t: string)
    requires DecodeBio(t).Some?
    ensures t == EncodeBio(DecodeBio(t).value) + "}"
  {
    if t != "}" && t != ",\"bio\":null}" {
      var t1 := Expect(",\"bio\":", t).value;
      ReadQuotedCanonical(t1);
      assert t == ",\"bio\":" + t1;
    }
  }

  /** Every text the reader accepts is exactly what the writer produces for
      the record it reads: there is one spelling per record. */
  lemma {:induction false} EncodeDecode(t: string)
    requires Decode(t).Some?
    ensures Encode(Decode(t).value) == t
  {
    var t1 := Expect("{\"id\":", t).value;
    assert t == "{\"id\":" + t1;
    ReadNatCanonical(t1);
    var (id, t2) := ReadNat(t1).value;
    ReadFieldCanonical(",\"username\":", t2);
    var (username, t3) := ReadField(",\"username\":", t2).value;
    ReadFieldCanonical(",\"email\":", t3);
    var (email, t4) := ReadField(",\"email\":", t3).value;
    ReadFieldCanonical(",\"role\":", t4);
    var (role, t5) := ReadField(",\"role\":", t4).value;
    DecodeBioCanonical(t5);
  }
}

=== FILE: student_dashboard.dfy ===
/**
  The student dashboard (frontend/src/pages/student/Dashboard.tsx): loading
  the profile, posting a question from the modal, the notification list's
  read state, the pending-questions list and relative timestamps.
 */
module StudentDashboard {

  import opened Wrappers
  import opened Seqs
  import opened Text
  import opened Browser

  // ---------------------------------------------------------------- tags

  /** Trimmed pieces have no surrounding white space and no character the
      pieces lacked. */
  lemma TrimAllFacts(pieces: seq<string>, sep: char)
    requires forall i :: 0 <= i < |pieces| ==> sep !in pieces[i]
    ensures forall x :: x in TrimAll(pieces) ==> Trimmed(x) && sep !in x
  {
    var trimmed := TrimAll(pieces);
    forall x | x in trimmed ensures Trimmed(x) && sep !in x {
      var k :| 0 <= k < |trimmed| && trimmed[k] == x;
      TrimExcludes(pieces[k], sep);
    }
  }

  predicate NonEmpty(s: string) { s != "" }

  /** `text.split(',').map(t => t.trim()).filter(t => t)`. */
  function ParseTags(text: string): (r: seq<string>)
    ensures forall i :: 0 <= i < |r| ==> r[i] != "" && Trimmed(r[i]) && ',' !in r[i]
    ensures forall k :: 0 <= k < |Split(text, ',')| && !AllSpace(Split(text, ',')[k]) ==>
      Trim(Split(text, ',')[k]) in r
    ensures |r| <= |Split(text, ',')|
  {
    var pieces := Split(text, ',');
    var trimmed := TrimAll(pieces);
    TrimAllFacts(pieces, ',');
    Filter(trimmed, NonEmpty)
  }

  /** Tags already in canonical form survive being joined with commas and
      parsed again. */
  lemma ParseTagsJoin(tags: seq<string>)
    requires forall i :: 0 <= i < |tags| ==> tags[i] != "" && Trimmed(tags[i]) && ',' !in tags[i]
    ensures ParseTags(Join(tags, ',')) == tags
  {
    if |tags| == 0 {
      ParseTagsEmpty();
    } else {
      SplitJoin(tags, ',');
      TrimAllTrimmed(tags);
      FilterAll(tags, NonEmpty);
    }
  }

  /** Trimming distributes over concatenation. */
  lemma TrimAllAppend(a: seq<string>, b: seq<string>)
    ensures TrimAll(a + b) == TrimAll(a) + TrimAll(b)
  {
  }

  /** A field without a comma is one piece: no tag when it is blank,
      otherwise the piece trimmed. */
  lemma ParseTagsSingle(text: string)
    requires ',' !in text
    ensures ParseTags(text) == if AllSpace(text) then [] else [Trim(text)]
  {
    SplitSingle(text, ',');
    assert TrimAll([text]) == [Trim(text)];
    assert [Trim(text)][1..] == [];
  }

  /** A comma splits the field into two fields parsed on their own, in
      order. With `ParseTagsSingle` this fixes the result for every text:
      the trimmed non-blank pieces, in order, each as often as it was typed. */
  lemma ParseTagsConcat(a: string, b: string)
    ensures ParseTags(a + "," + b) == ParseTags(a) + ParseTags(b)
  {
    SplitConcat(a, b, ',');
    assert a + "," + b == a + [','] + b;
    TrimAllAppend(Split(a, ','), Split(b, ','));
    FilterAppend(TrimAll(Split(a, ',')), TrimAll(Split(b, ',')), NonEmpty);
  }

  /** An empty field gives no tags. */
  lemma ParseTagsEmpty()
    ensures ParseTags("") == []
  {
    assert Split("", ',') == [""];
    assert Trim("") == "";
    assert TrimAll([""]) == [""];
    assert Filter([""], NonEmpty) == [];
  }

  /** Trimming pieces without surrounding white space changes none of them. */
  lemma TrimAllTrimmed(pieces: seq<string>)
    requires forall i :: 0 <= i < |pieces| ==> Trimmed(pieces[i])
    ensures TrimAll(pieces) == pieces
  {
    forall i | 0 <= i < |pieces| ensures Trim(pieces[i]) == pieces[i] {
      TrimOfTrimmed(pieces[i]);
    }
  }

  /** Parsing is stable: re-joining the parsed tags and parsing again gives
      the same list. */
  lemma ParseTagsStable(text: string)
    ensures ParseTags(Join(ParseTags(text), ',')) == ParseTags(text)
  {
    ParseTagsJoin(ParseTags(text));
  }

  // ---------------------------------------------------------- posting

  /** The modal's fields and the selected tab. */
  datatype Draft = Draft(title: string, body: string, tagsText: string, modalOpen: bool, tab: string)

  /** The body and credentials of the POST to `/api/posts/`. */
  datatype PostRequest = PostRequest(title: string, body: string, tags: seq<string>, authorization: string)

  /** The request `handleCreatePost` sends, or none when the title or the
      body is empty. The header is built even without a stored token. */
  function PostRequestFor(draft: Draft, storage: Storage): (r: Option<PostRequest>)
    ensures r.None? <==> draft.title == "" || draft.body == ""
    ensures r.Some? ==> r.value.title == draft.title && r.value.body == draft.body
    ensures r.Some? ==> r.value.tags == ParseTags(draft.tagsText)
    ensures r.Some? && Truthy(GetItem(storage, "token")) ==>
      r.value.authorization == "Token " + storage["token"]
    ensures r.Some? && "token" !in storage ==> r.value.authorization == "Token null"
  {
    if draft.title == "" || draft.body == "" then None
    else Some(PostRequest(draft.title, draft.body, ParseTags(draft.tagsText),
                          "Token " + TokenText(GetItem(storage, "token"))))
  }

  /** What a post attempt did: the request (if one was sent), the modal
      afterwards, whether the profile is fetched again, and the alert. */
  datatype PostOutcome = PostOutcome(request: Option<PostRequest>, draft: Draft, refetch: bool, alert: Option<string>)

  /** `handleCreatePost`, given the server's answer (its body is the error
      JSON as text). */
  function CreatePost(draft: Draft, storage: Storage, response: Response<string>): (r: PostOutcome)
    ensures r.request == PostRequestFor(draft, storage)
    ensures r.request.None? ==> r == PostOutcome(None, draft, false, None)
    ensures r.request.Some? && Ok(response) ==>
      && r.draft == Draft("", "", "", false, "questions")
      && r.refetch
      && r.alert == Some("Question posted successfully!")
    ensures r.request.Some? && response.Answered? && !Ok(response) ==>
      && r.draft == draft && !r.refetch
      && r.alert == Some("Failed to post question: " + response.body)
    ensures response.NetworkError? ==> r.draft == draft && !r.refetch && r.alert.None?
  {
    match PostRequestFor(draft, storage)
    case None => PostOutcome(None, draft, false, None)
    case Some(request) =>
      if Ok(response) then
        PostOutcome(Some(request), Draft("", "", "", false, "questions"), true, Some("Question posted successfully!"))
      else if response.Answered? then
        PostOutcome(Some(request), draft, false, Some("Failed to post question: " + response.body))
      else PostOutcome(Some(request), draft, false, None)
  }

  // ---------------------------------------------------- notifications

  /** A notification as the dashboard lists it. */
  datatype Note = Note(id: int, kind: string, message: string, isRead: bool, createdAt: string)

  predicate Unread(n: Note) { !n.isRead }

  predicate UniqueIds(notes: seq<Note>) {
    forall i, j :: 0 <= i < j < |notes| ==> notes[i].id != notes[j].id
  }

  /** `markNotificationRead(id)`: the notes carrying `id` become read;
      nothing else changes. */
  function MarkRead(notes: seq<Note>, id: int): (r: seq<Note>)
    ensures |r| == |notes|
    ensures forall i :: 0 <= i < |r| ==> r[i].isRead == (notes[i].isRead || notes[i].id == id)
    ensures forall i :: 0 <= i < |r| ==> r[i].(isRead := notes[i].isRead) == notes[i]
  {
    if |notes| == 0 then []
    else [if notes[0].id == id then notes[0].(isRead := true) else notes[0]] + MarkRead(notes[1..], id)
  }

  /** `markAllNotificationsRead`: every note read, nothing else changed. */
  function MarkAllRead(notes: seq<Note>): (r: seq<Note>)
    ensures |r| == |notes|
    ensures forall i :: 0 <= i < |r| ==> r[i].isRead
    ensures forall i :: 0 <= i < |r| ==> r[i].(isRead := notes[i].isRead) == notes[i]
    ensures UnreadCount(r) == 0
  {
    seq(|notes|, i requires 0 <= i < |notes| => notes[i].(isRead := true))
  }

  /** `unreadCount`. */
  function UnreadCount(notes: seq<Note>): (n: nat)
    ensures n <= |notes|
    ensures n == 0 <==> forall i :: 0 <= i < |notes| ==> notes[i].isRead
  {
    Count(notes, Unread)
  }

  /** A note nobody refers to is untouched by marking another id. */
  lemma {:induction false} MarkReadAbsent(notes: seq<Note>, id: int)
    requires forall i :: 0 <= i < |notes| ==> notes[i].id != id
    ensures MarkRead(notes, id) == notes
  {
    if |notes| > 0 {
      MarkReadAbsent(notes[1..], id);
    }
  }

  /** With unique ids, marking one note read lowers the unread count by one
      exactly when that note was unread, and otherwise leaves it. */
  lemma {:induction false} MarkReadCount(notes: seq<Note>, id: int)
    requires UniqueIds(notes)
    ensures UnreadCount(MarkRead(notes, id)) ==
      UnreadCount(notes) - (if exists i :: 0 <= i < |notes| && notes[i].id == id && !notes[i].isRead then 1 else 0)
  {
    if |notes| > 0 {
      var r := MarkRead(notes, id);
      var tail := notes[1..];
      assert r[1..] == MarkRead(tail, id);
      assert UniqueIds(tail);
      if notes[0].id == id {
        MarkReadAbsent(tail, id);
        assert forall i :: 0 <= i < |notes| && notes[i].id == id ==> i == 0;
      } else {
        MarkReadCount(tail, id);
        assert (exists i :: 0 <= i < |notes| && notes[i].id == id && !notes[i].isRead)
           <==> (exists i :: 0 <= i < |tail| && tail[i].id == id && !tail[i].isRead) by {
          forall i | 0 <= i < |notes| && notes[i].id == id && !notes[i].isRead
            ensures 0 <= i - 1 < |tail| && tail[i - 1].id == id && !tail[i - 1].isRead {
          }
          forall i | 0 <= i < |tail| && tail[i].id == id && !tail[i].isRead
            ensures notes[i + 1].id == id && !notes[i + 1].isRead {
          }
        }
      }
    }
  }

  /** Marking a note read twice is marking it once; marking everything after
      one note is marking everything. */
  lemma MarkReadIdempotent(notes: seq<Note>, id: int)
    ensures MarkRead(MarkRead(notes, id), id) == MarkRead(notes, id)
    ensures MarkAllRead(MarkRead(notes, id)) == MarkAllRead(notes)
  {
    var once := MarkRead(notes, id);
    var twice := MarkRead(once, id);
    forall i | 0 <= i < |notes| ensures twice[i] == once[i] {
      assert twice[i].(isRead := once[i].isRead) == once[i];
    }
    var a, b := MarkAllRead(once), MarkAllRead(notes);
    forall i | 0 <= i < |notes| ensures a[i] == b[i] {
      assert a[i].(isRead := once[i].isRead) == once[i];
      assert b[i].(isRead := notes[i].isRead) == notes[i];
    }
  }

  // -------------------------------------------------------- questions

  /** A question as the profile lists it. */
  datatype QuestionSummary = QuestionSummary(id: int, title: string, commentCount: int)

  datatype Profile = Profile(username: string, email: string, role: string, questions: seq<QuestionSummary>)

  predicate Uncommented(q: QuestionSummary) { q.commentCount == 0 }

  /** `pendingQuestions`: the profile's questions nobody has commented on,
      in their order; none before the profile is loaded. */
  function PendingQuestions(profile: Option<Profile>): (r: seq<QuestionSummary>)
    ensures profile.None? ==> r == []
    ensures forall i :: 0 <= i < |r| ==> r[i].commentCount == 0
    ensures profile.Some? ==>
      && (forall i :: 0 <= i < |r| ==> r[i] in profile.value.questions)
      && (forall q :: q in profile.value.questions && q.commentCount == 0 ==> q in r)
  {
    match profile
    case None => []
    case Some(p) => Filter(p.questions, Uncommented)
  }

  /** A question posted to the list, still without comments, joins the end
      of the pending list; a commented one leaves it as it was. */
  lemma PendingAppend(profile: Profile, q: QuestionSummary)
    ensures PendingQuestions(Some(profile.(questions := profile.questions + [q]))) ==
      PendingQuestions(Some(profile)) + (if q.commentCount == 0 then [q] else [])
  {
    FilterAppend(profile.questions, [q], Uncommented);
    FilterSingleton(q, Uncommented);
  }

  // ------------------------------------------------------------- times

  const MinuteMs := 60000
  const HourMs := 3600000
  const DayMs := 86400000
  const WeekMs := 604800000

  /** A rendered timestamp, or the calendar date when it is a week old or
      more (the locale formatting is not modelled). */
  datatype Stamp = Shown(text: string) | CalendarDate

  /** `formatRelativeTime`, given `now - date` in milliseconds, or `None`
      when the date string is missing or empty. The floors of JavaScript's
      `Math.floor(diff / unit)` are Dafny's `/` by a positive divisor. */
  function FormatRelativeTime(diff: Option<int>): (r: Stamp)
    ensures diff.None? ==> r == Shown("N/A")
    ensures diff.Some? && diff.value < HourMs ==> r == Shown(IntToString(diff.value / MinuteMs) + "m ago")
    ensures diff.Some? && HourMs <= diff.value < DayMs ==> r == Shown(IntToString(diff.value / HourMs) + "h ago")
    ensures diff.Some? && DayMs <= diff.value < WeekMs ==> r == Shown(IntToString(diff.value / DayMs) + "d ago")
    ensures r == CalendarDate <==> diff.Some? && diff.value >= WeekMs
  {
    match diff
    case None => Shown("N/A")
    case Some(ms) =>
      var minutes, hours, days := ms / MinuteMs, ms / HourMs, ms / DayMs;
      if minutes < 60 then Shown(IntToString(minutes) + "m ago")
      else if hours < 24 then Shown(IntToString(hours) + "h ago")
      else if days < 7 then Shown(IntToString(days) + "d ago")
      else CalendarDate
  }

  /** The number shown in each bucket stays within the bucket's unit: under
      an hour shows 0-59 minutes, under a day 1-23 hours, under a week 1-6
      days. */
  lemma RelativeTimeRanges(ms: int)
    requires ms >= 0
    ensures ms < HourMs ==> 0 <= ms / MinuteMs <= 59
    ensures HourMs <= ms < DayMs ==> 1 <= ms / HourMs <= 23
    ensures DayMs <= ms < WeekMs ==> 1 <= ms / DayMs <= 6
  {
  }

  // ----------------------------------------------------------- profile

  /** What loading the profile did: where it navigated, the profile it
      stored, the storage afterwards, and whether a request went out. */
  datatype ProfileStep = ProfileStep(nav: Nav, profile: Option<Profile>, storage: Storage, fetched: bool)

  /** `fetchProfile`: without a token go to the login page; a 401 drops the
      token and goes there too; an instructor's profile sends them to
      `/user` without being stored; any other profile is stored. */
  function FetchProfile(storage: Storage, response: Response<Profile>): (r: ProfileStep)
    ensures !r.fetched <==> !Truthy(GetItem(storage, "token"))
    ensures !r.fetched ==> r == ProfileStep(GoTo("/login"), None, storage, false)
    ensures r.fetched && response.Answered? && response.status == 401 ==>
      r == ProfileStep(GoTo("/login"), None, storage - {"token"}, true)
    ensures r.fetched && Ok(response) && response.body.role == "instructor" ==>
      r == ProfileStep(GoTo("/user"), None, storage, true)
    ensures r.fetched && Ok(response) && response.body.role != "instructor" ==>
      r == ProfileStep(Stay, Some(response.body), storage, true)
    ensures r.profile.Some? ==> r.profile.value.role != "instructor" && r.nav == Stay
    ensures r.fetched && !Ok(response) && !(response.Answered? && response.status == 401) ==>
      r == ProfileStep(Stay, None, storage, true)
  {
    if !Truthy(GetItem(storage, "token")) then ProfileStep(GoTo("/login"), None, storage, false)
    else if response.Answered? && response.status == 401 then ProfileStep(GoTo("/login"), None, storage - {"token"}, true)
    else if Ok(response) then
      if response.body.role == "instructor" then ProfileStep(GoTo("/user"), None, storage, true)
      else ProfileStep(Stay, Some(response.body), storage, true)
    else ProfileStep(Stay, None, storage, true)
  }
}

=== FILE: text.dfy ===
/**
  String operations the application uses on titles, bodies, tag lists and
  URLs: JavaScript's `trim`, `split(',')`, `join`, `substring`,
  `startsWith`, `replace` with a string pattern, Python's `lower()`, and
  decimal rendering of numbers inside template strings.
 */
module Text {

  import opened Wrappers

  /** The characters JavaScript's `String.prototype.trim` removes
      (white space and line terminators). */
  predicate IsSpace(c: char) {
    || c == ' '
    || ('\t' <= c <= '\r')
    || c == '\U{00A0}' || c == '\U{1680}'
    || ('\U{2000}' <= c <= '\U{200A}')
    || c == '\U{2028}' || c == '\U{2029}' || c == '\U{202F}'
    || c == '\U{205F}' || c == '\U{3000}' || c == '\U{FEFF}'
  }

  /** Python and JavaScript truthiness of an optional string: present and
      not empty. */
  predicate Truthy(v: Option<string>) {
    v.Some? && v.value != ""
  }

  predicate AllSpace(s: string) {
    forall k :: 0 <= k < |s| ==> IsSpace(s[k])
  }

  /** `s` has no white space at either end. */
  predicate Trimmed(s: string) {
    |s| == 0 || (!IsSpace(s[0]) && !IsSpace(s[|s| - 1]))
  }

  /** Leading white space removed: the result is a suffix of `s` and what was
      cut off is all white space. */
  function TrimStart(s: string): (r: string)
    ensures |r| <= |s| && r == s[|s| - |r|..]
    ensures AllSpace(s[..|s| - |r|])
    ensures |r| > 0 ==> !IsSpace(r[0])
  {
    if |s| > 0 && IsSpace(s[0]) then TrimStart(s[1..]) else s
  }

  /** Trailing white space removed: the result is a prefix of `s` and what was
      cut off is all white space. */
  function TrimEnd(s: string): (r: string)
    ensures |r| <= |s| && r == s[..|r|]
    ensures AllSpace(s[|r|..])
    ensures |r| > 0 ==> !IsSpace(r[|r| - 1])
  {
    if |s| > 0 && IsSpace(s[|s| - 1]) then TrimEnd(s[..|s| - 1]) else s
  }

  /** JavaScript `s.trim()`. */
  function Trim(s: string): (r: string)
    ensures Trimmed(r)
    ensures r == "" <==> AllSpace(s)
    ensures |r| <= |s|
  {
    var t := TrimStart(s);
    var r := TrimEnd(t);
    AllSpaceSplit(s, |s| - |t|);
    AllSpaceSplit(t, |r|);
    assert |r| > 0 ==> r[0] == t[0] && !AllSpace(r);
    r
  }

  /** A character absent from a string is absent from its trimmed form. */
  lemma TrimExcludes(s: string, c: char)
    requires c !in s
    ensures c !in Trim(s)
  {
    var t := TrimStart(s);
    assert c !in t by {
      SliceChars(s, |s| - |t|, |s|);
    }
    var r := TrimEnd(t);
    SliceChars(t, 0, |r|);
    assert Trim(s) == r;
  }


  /** A string is all white space exactly when both parts of any split are. */
  lemma AllSpaceSplit(s: string, k: nat)
    requires k <= |s|
    ensures AllSpace(s) <==> AllSpace(s[..k]) && AllSpace(s[k..])
  {
    if AllSpace(s[..k]) && AllSpace(s[k..]) {
      forall m | 0 <= m < |s| ensures IsSpace(s[m]) {
        if m < k {
          assert s[m] == s[..k][m];
        } else {
          assert s[m] == s[k..][m - k];
        }
      }
    }
  }

  /** Every character of a slice occurs in the whole. */
  lemma SliceChars(s: string, i: nat, j: nat)
    requires i <= j <= |s|
    ensures forall c :: c in s[i..j] ==> c in s
  {
    forall c | c in s[i..j] ensures c in s {
      var m :| 0 <= m < j - i && s[i..j][m] == c;
      assert s[i + m] == c;
    }
  }

  /** Trimming a string that has no surrounding white space changes nothing,
      so trimming twice is the same as trimming once. */
  lemma TrimOfTrimmed(s: string)
    requires Trimmed(s)
    ensures Trim(s) == s
  {
  }

  /** Every piece trimmed, in order. */
  function TrimAll(pieces: seq<string>): (r: seq<string>)
    ensures |r| == |pieces|
    ensures forall i :: 0 <= i < |r| ==> r[i] == Trim(pieces[i])
  {
    seq(|pieces|, i requires 0 <= i < |pieces| => Trim(pieces[i]))
  }

  /** JavaScript `s.split(sep)` for a one-character separator: always at least
      one piece, and no piece contains the separator. */
  function Split(s: string, sep: char): (r: seq<string>)
    ensures |r| >= 1
    ensures forall i :: 0 <= i < |r| ==> sep !in r[i]
    ensures Join(r, sep) == s
  {
    if |s| == 0 then [""]
    else
      var rest := Split(s[1..], sep);
      if s[0] == sep then
        assert s == [sep] + s[1..];
        [""] + rest
      else
        var r := [[s[0]] + rest[0]] + rest[1..];
        assert r[1..] == rest[1..];
        assert s == [s[0]] + s[1..];
        r
  }

  /** JavaScript `parts.join(sep)` for a one-character separator. */
  function Join(parts: seq<string>, sep: char): string {
    if |parts| == 0 then ""
    else if |parts| == 1 then parts[0]
    else parts[0] + [sep] + Join(parts[1..], sep)
  }

  /** Splitting a joined list of separator-free pieces gives the pieces back. */
  lemma {:induction false} SplitJoin(parts: seq<string>, sep: char)
    requires |parts| >= 1
    requires forall i :: 0 <= i < |parts| ==> sep !in parts[i]
    ensures Split(Join(parts, sep), sep) == parts
  {
    if |parts| == 1 {
      SplitSingle(parts[0], sep);
    } else {
      SplitJoin(parts[1..], sep);
      SplitPiece(parts[0], Join(parts[1..], sep), sep);
      assert parts[0] + [sep] + Join(parts[1..], sep) == parts[0] + ([sep] + Join(parts[1..], sep));
      assert [parts[0]] + parts[1..] == parts;
    }
  }

  /** A separator-free piece followed by the separator and a tail splits into
      the piece and the split of the tail. */
  lemma {:induction false} SplitPiece(piece: string, tail: string, sep: char)
    requires sep !in piece
    ensures Split(piece + ([sep] + tail), sep) == [piece] + Split(tail, sep)
  {
    var x := piece + ([sep] + tail);
    if |piece| == 0 {
      assert x == [sep] + tail;
      assert x[1..] == tail;
    } else {
      SplitPiece(piece[1..], tail, sep);
      assert x[0] == piece[0];
      assert x[1..] == piece[1..] + ([sep] + tail);
      var rest := Split(x[1..], sep);
      assert rest == [piece[1..]] + Split(tail, sep);
      assert Split(x, sep) == [[piece[0]] + rest[0]] + rest[1..];
      assert [piece[0]] + piece[1..] == piece;
    }
  }

  /** Splitting at one separator splits each side on its own: the pieces
      of `a`, then those of `b`. */
  lemma SplitConcat(a: string, b: string, sep: char)
    ensures Split(a + [sep] + b, sep) == Split(a, sep) + Split(b, sep)
  {
    var left, right := Split(a, sep), Split(b, sep);
    JoinAppend(left, right, sep);
    SplitJoin(left + right, sep);
  }

  /** Joining two non-empty lists is joining each and putting one
      separator between. */
  lemma {:induction false} JoinAppend(p: seq<string>, q: seq<string>, sep: char)
    requires |p| >= 1 && |q| >= 1
    ensures Join(p + q, sep) == Join(p, sep) + [sep] + Join(q, sep)
    decreases |p|
  {
    assert (p + q)[0] == p[0];
    assert (p + q)[1..] == p[1..] + q;
    if |p| > 1 {
      JoinAppend(p[1..], q, sep);
    }
  }

  /** A separator-free string is a single piece. */
  lemma {:induction false} SplitSingle(piece: string, sep: char)
    requires sep !in piece
    ensures Split(piece, sep) == [piece]
  {
    if |piece| > 0 {
      SplitSingle(piece[1..], sep);
      assert [piece[0]] + piece[1..] == piece;
    }
  }

  predicate IsUpperAscii(c: char) { 'A' <= c <= 'Z' }

  function LowerChar(c: char): (d: char)
    ensures !IsUpperAscii(d)
    ensures IsUpperAscii(c) ==> d as int == c as int + 32
    ensures !IsUpperAscii(c) ==> d == c
  {
    if IsUpperAscii(c) then (c as int + 32) as char else c
  }

  /** Python `s.lower()` restricted to ASCII letters. */
  function Lower(s: string): (r: string)
    ensures |r| == |s|
    ensures forall i :: 0 <= i < |r| ==> r[i] == LowerChar(s[i])
  {
    if |s| == 0 then "" else [LowerChar(s[0])] + Lower(s[1..])
  }

  /** Lower-casing is idempotent. */
  lemma LowerIdempotent(s: string)
    ensures Lower(Lower(s)) == Lower(s)
  {
    var a := Lower(Lower(s));
    var b := Lower(s);
    assert forall i :: 0 <= i < |a| ==> a[i] == b[i];
  }

  predicate IsDigit(c: char) { '0' <= c <= '9' }

  function DigitChar(d: nat): (c: char)
    requires d < 10
    ensures IsDigit(c) && c as int - '0' as int == d
  {
    ('0' as int + d) as char
  }

  /** Decimal rendering of a natural number, as JavaScript's template strings
      and Python's f-strings produce it. */
  function NatToString(n: nat): (r: string)
    ensures |r| >= 1
    ensures forall i :: 0 <= i < |r| ==> IsDigit(r[i])
  {
    if n < 10 then [DigitChar(n)] else NatToString(n / 10) + [DigitChar(n % 10)]
  }

  /** The number a string of decimal digits denotes. */
  function DigitsValue(ds: string): nat
    requires forall i :: 0 <= i < |ds| ==> IsDigit(ds[i])
  {
    if |ds| == 0 then 0
    else
      assert IsDigit(ds[|ds| - 1]);
      DigitsValue(ds[..|ds| - 1]) * 10 + (ds[|ds| - 1] as int - '0' as int)
  }

  /** Reading back a rendered number gives the number. */
  lemma {:induction false} NatToStringValue(n: nat)
    ensures DigitsValue(NatToString(n)) == n
  {
    if n >= 10 {
      NatToStringValue(n / 10);
      var r := NatToString(n);
      assert r[..|r| - 1] == NatToString(n / 10);
    }
  }

  /** Decimal rendering of an integer, with a leading minus when negative. */
  function IntToString(i: int): (r: string)
    ensures |r| >= 1
    ensures i < 0 <==> r[0] == '-'
  {
    if i < 0 then "-" + NatToString(-i) else NatToString(i)
  }

  predicate StartsWith(s: string, prefix: string) {
    |prefix| <= |s| && s[..|prefix|] == prefix
  }

  /** JavaScript `s.substring(0, n)` for n >= 0. */
  function Take(s: string, n: nat): (r: string)
    ensures |r| == if |s| <= n then |s| else n
    ensures StartsWith(s, r)
  {
    if |s| <= n then s else s[..n]
  }

  predicate OccursAt(s: string, pat: string, i: nat) {
    i + |pat| <= |s| && s[i..i + |pat|] == pat
  }

  /** `i` is the position of the first occurrence of `pat` in `s`. */
  predicate FirstOccurrence(s: string, pat: string, i: nat) {
    OccursAt(s, pat, i) && forall j: nat :: j < i ==> !OccursAt(s, pat, j)
  }

  /** Position of the first occurrence of `pat` in `s` at or after `from`. */
  function IndexFrom(s: string, pat: string, from: nat): (r: Option<nat>)
    requires forall j: nat :: j < from ==> !OccursAt(s, pat, j)
    ensures r.Some? ==> FirstOccurrence(s, pat, r.value)
    ensures r.None? ==> forall j: nat :: !OccursAt(s, pat, j)
    decreases |s| - from
  {
    if from + |pat| > |s| then None
    else if OccursAt(s, pat, from) then Some(from)
    else IndexFrom(s, pat, from + 1)
  }

  /** JavaScript `s.includes(pat)`. */
  function Includes(s: string, pat: string): (r: bool)
    ensures r <==> exists j: nat :: OccursAt(s, pat, j)
  {
    IndexFrom(s, pat, 0).Some?
  }

  /** JavaScript `s.replace(pat, rep)` with a string pattern: only the first
      occurrence is replaced, and a string without one is returned as is. */
  function ReplaceFirst(s: string, pat: string, rep: string): (r: string)
    ensures (forall j: nat :: !OccursAt(s, pat, j)) ==> r == s
    ensures forall i: nat :: FirstOccurrence(s, pat, i) ==> r == s[..i] + rep + s[i + |pat|..]
  {
    match IndexFrom(s, pat, 0)
    case None => s
    case Some(i) =>
      assert forall k: nat :: FirstOccurrence(s, pat, k) ==> k == i by {
        forall k: nat | FirstOccurrence(s, pat, k) ensures k == i {
        }
      }
      s[..i] + rep + s[i + |pat|..]
  }

}

=== FILE: user_page.dfy ===
/**
  The role router (frontend/src/pages/UserPage.tsx): it asks the server for
  the signed-in user's role and shows the instructor or the student
  dashboard accordingly.
 */
module UserPage {

  import opened Wrappers
  import opened Text
  import opened Browser
  import StudentDashboard
  import InstructorDashboard

  /** The part of the dashboard response the router reads. */
  datatype RoleBody = RoleBody(role: string, email: string)

  /** The component's state: the detected role, the loading flag and the
      error message. */
  datatype RouterState = RouterState(role: Option<string>, loading: bool, error: Option<string>)

  /** The state before the request completes. */
  const Initial := RouterState(None, true, None)

  /** What `fetchUserRole` did: the navigation, the state, the storage, and
      whether a request went out. */
  datatype RouterStep = RouterStep(nav: Nav, state: RouterState, storage: Storage, fetched: bool)

  /** `fetchUserRole`. Its `finally` clears the loading flag on every path,
      including the early returns. */
  function FetchUserRole(storage: Storage, response: Response<RoleBody>): (r: RouterStep)
    ensures !r.state.loading
    ensures !r.fetched <==> !Truthy(GetItem(storage, "token"))
    ensures !r.fetched ==> r.nav == GoTo("/login") && r.storage == storage && r.state == Initial.(loading := false)
    ensures r.fetched && response.Answered? && response.status == 401 ==>
      r.nav == GoTo("/login") && r.storage == storage - {"token"} && r.state.error.None?
    ensures r.fetched && Ok(response) ==> r.state.role == Some(response.body.role) && r.state.error.None? && r.nav == Stay
    ensures r.fetched && response.Answered? && !Ok(response) && response.status != 401 ==>
      r.state.error == Some("Failed to fetch user data") && r.nav == Stay
    ensures r.fetched && response.NetworkError? ==> r.state.error == Some("Connection error") && r.nav == Stay
    ensures r.storage != storage ==> r.fetched && response.Answered? && response.status == 401
  {
    var done := Initial.(loading := false);
    if !Truthy(GetItem(storage, "token")) then RouterStep(GoTo("/login"), done, storage, false)
    else match response
      case NetworkError => RouterStep(Stay, done.(error := Some("Connection error")), storage, true)
      case Answered(status, body) =>
        if status == 401 then RouterStep(GoTo("/login"), done, storage - {"token"}, true)
        else if Ok(response) then RouterStep(Stay, done.(role := Some(body.role)), storage, true)
        else RouterStep(Stay, done.(error := Some("Failed to fetch user data")), storage, true)
  }

  datatype View = Spinner | ErrorScreen(message: string) | InstructorView | StudentView

  /** What the component renders for a state: the spinner while loading,
      the error screen for an error, and otherwise the dashboard for the
      role, the student one for every role but `instructor`. */
  function Render(state: RouterState): (v: View)
    ensures v == Spinner <==> state.loading
    ensures v.ErrorScreen? <==> !state.loading && Truthy(state.error)
    ensures v == InstructorView <==> !state.loading && !Truthy(state.error) && state.role == Some("instructor")
  {
    if state.loading then Spinner
    else if Truthy(state.error) then ErrorScreen(state.error.value)
    else if state.role == Some("instructor") then InstructorView
    else StudentView
  }

  /** An accepted role request shows the instructor dashboard for the role
      `instructor` and the student dashboard for every other role,
      including `user`. */
  lemma RouteByRole(storage: Storage, response: Response<RoleBody>)
    requires Truthy(GetItem(storage, "token")) && Ok(response)
    ensures response.body.role == "instructor" ==> Render(FetchUserRole(storage, response).state) == InstructorView
    ensures response.body.role != "instructor" ==> Render(FetchUserRole(storage, response).state) == StudentView
  {
  }

  /** The dashboard the router picks keeps the user: when that dashboard
      loads the same user's profile, with the same role, it does not
      redirect again. */
  lemma ChosenDashboardStays(storage: Storage, role: string, email: string,
                             student: StudentDashboard.Profile, instructor: InstructorDashboard.Profile,
                             prev: InstructorDashboard.Stats)
    requires Truthy(GetItem(storage, "token"))
    requires student.role == role && instructor.role == role
    ensures var v := Render(FetchUserRole(storage, Answered(200, RoleBody(role, email))).state);
      && (v == InstructorView ==> InstructorDashboard.FetchProfile(storage, Answered(200, instructor), prev).nav == Stay)
      && (v == StudentView ==> StudentDashboard.FetchProfile(storage, Answered(200, student)).nav == Stay)
  {
  }
}

=== FILE: voting.dfy ===
/**
  The vote endpoint `VoteCreateView.create` (backend/core/views.py) and the
  `vote_count` property that questions and answers derive from the vote
  table. A vote is a toggle: voting again the same way withdraws the vote,
  voting the other way flips it.
 */
module Voting {

  import opened Wrappers
  import opened Seqs
  import opened Text
  import opened CoreModels
  import Accounts

  /** The request fields the view reads. The object id 0 is falsy and so
      counts as missing. */
  datatype VoteRequest = VoteRequest(
    username: Option<string>,
    voteType: Option<string>,
    contentType: Option<string>,
    objectId: Option<nat>)

  /** `all([username, vote_type, content_type_name, object_id])` */
  predicate Complete(req: VoteRequest) {
    Truthy(req.username) && Truthy(req.voteType) && Truthy(req.contentType)
    && req.objectId.Some? && req.objectId.value != 0
  }

  datatype VoteOutcome =
    | MissingFields        // 400 "Missing required fields"
    | UserNotFound         // 404 "User not found"
    | InvalidContentType   // 400 "Invalid content type"
    | AmbiguousUser        // `get(username=...)` matched several rows and raised
    | Created              // 201 "Vote created"
    | Updated              // 200 "Vote updated"
    | Removed              // 200 "Vote removed"
  {
    function Status(): int {
      match this
      case MissingFields => 400
      case UserNotFound => 404
      case InvalidContentType => 400
      case AmbiguousUser => 500
      case Created => 201
      case Updated => 200
      case Removed => 200
    }
  }

  /** The content type the name selects: only "question" and "answer". */
  function KindNamed(name: string): (r: Option<ContentKind>)
    ensures r == Some(QuestionKind) <==> name == "question"
    ensures r == Some(AnswerKind) <==> name == "answer"
    ensures r.Some? ==> r.value != CommentKind
  {
    if name == "question" then Some(QuestionKind)
    else if name == "answer" then Some(AnswerKind)
    else None
  }

  /** Position of the first vote with `key` (`filter(...).first()`). */
  function FindVote(votes: seq<Vote>, key: VoteKey): (r: Option<nat>)
    ensures r.None? <==> forall i :: 0 <= i < |votes| ==> KeyOf(votes[i]) != key
    ensures r.Some? ==> r.value < |votes| && KeyOf(votes[r.value]) == key
    ensures r.Some? ==> forall i :: 0 <= i < r.value ==> KeyOf(votes[i]) != key
  {
    if |votes| == 0 then None
    else if KeyOf(votes[0]) == key then Some(0)
    else
      match FindVote(votes[1..], key)
      case None => None
      case Some(k) => Some(k + 1)
  }

  /** The vote at `key` after the user asks for `t`: it flips when it had the
      other type and disappears when it had the same type. */
  function Toggle(votes: seq<Vote>, i: nat, t: string): (r: (VoteOutcome, seq<Vote>))
    requires i < |votes|
    ensures votes[i].voteType != t ==> r == (Updated, votes[i := votes[i].(voteType := t)])
    ensures votes[i].voteType == t ==> r == (Removed, votes[..i] + votes[i + 1..])
  {
    if votes[i].voteType != t then (Updated, votes[i := votes[i].(voteType := t)])
    else (Removed, votes[..i] + votes[i + 1..])
  }

  /** What a toggle does to the table: a flip keeps every vote's key and
      changes the type of the toggled vote alone; a removal takes exactly the
      toggled vote out and keeps the others in order. */
  lemma ToggleEffect(votes: seq<Vote>, i: nat, t: string)
    requires i < |votes|
    ensures var r := Toggle(votes, i, t);
      && (r.0 == Updated <==> votes[i].voteType != t)
      && (r.0 == Removed <==> votes[i].voteType == t)
      && (r.0 == Updated ==>
            && |r.1| == |votes| && r.1[i].voteType == t
            && (forall j :: 0 <= j < |votes| ==> KeyOf(r.1[j]) == KeyOf(votes[j]))
            && (forall j :: 0 <= j < |votes| && j != i ==> r.1[j] == votes[j]))
      && (r.0 == Removed ==>
            && multiset(r.1) + multiset{votes[i]} == multiset(votes)
            && (forall j :: 0 <= j < i ==> r.1[j] == votes[j])
            && (forall j :: i < j < |votes| ==> r.1[j - 1] == votes[j]))
  {
    if votes[i].voteType == t {
      assert votes == votes[..i] + [votes[i]] + votes[i + 1..];
    }
  }

  /** `VoteCreateView.create` over the backend user table and the vote table. */
  function CastVote(users: Accounts.UserStore, votes: seq<Vote>, req: VoteRequest): (res: (VoteOutcome, seq<Vote>))
    ensures res.0 in {MissingFields, UserNotFound, InvalidContentType, AmbiguousUser} ==> res.1 == votes
    ensures res.0 == MissingFields <==> !Complete(req)
    ensures res.0 == UserNotFound <==>
      Complete(req) && forall i :: 0 <= i < |users.rows| ==> users.rows[i].username != req.username.value
    ensures res.0 == AmbiguousUser <==>
      Complete(req) && |Accounts.WithUsername(users.rows, req.username.value)| > 1
    ensures res.0 == InvalidContentType <==>
      Complete(req) && |Accounts.WithUsername(users.rows, req.username.value)| == 1
      && KindNamed(req.contentType.value).None?
    ensures res.0 in {Created, Updated, Removed} ==>
      && Complete(req)
      && |Accounts.WithUsername(users.rows, req.username.value)| == 1
      && KindNamed(req.contentType.value).Some?
  {
    if !Complete(req) then (MissingFields, votes)
    else
      var matches := Accounts.WithUsername(users.rows, req.username.value);
      if |matches| == 0 then (UserNotFound, votes)
      else if |matches| > 1 then (AmbiguousUser, votes)
      else match KindNamed(req.contentType.value)
        case None => (InvalidContentType, votes)
        case Some(kind) =>
          var key := VoteKey(matches[0].id, kind, req.objectId.value);
          match FindVote(votes, key)
          case Some(i) => Toggle(votes, i, req.voteType.value)
          case None => (Created, votes + [Vote(key.user, req.voteType.value, key.kind, key.objectId)])
  }

  /** The key a complete request with a known user and content type votes on. */
  function RequestKey(users: Accounts.UserStore, req: VoteRequest): VoteKey
    requires Complete(req)
    requires |Accounts.WithUsername(users.rows, req.username.value)| == 1
    requires KindNamed(req.contentType.value).Some?
  {
    VoteKey(Accounts.WithUsername(users.rows, req.username.value)[0].id,
            KindNamed(req.contentType.value).value, req.objectId.value)
  }

  /** What a vote that reaches the table does: create when the key has no
      vote, otherwise flip or withdraw the first vote at the key. */
  lemma CastVoteEffect(users: Accounts.UserStore, votes: seq<Vote>, req: VoteRequest)
    requires CastVote(users, votes, req).0 in {Created, Updated, Removed}
    ensures var key := RequestKey(users, req);
      var (out, votes') := CastVote(users, votes, req);
      && (out == Created <==> FindVote(votes, key).None?)
      && (out == Created ==> votes' == votes + [Vote(key.user, req.voteType.value, key.kind, key.objectId)])
      && (out == Updated <==> FindVote(votes, key).Some? && votes[FindVote(votes, key).value].voteType != req.voteType.value)
      && (out == Updated ==> var i := FindVote(votes, key).value; votes' == votes[i := votes[i].(voteType := req.voteType.value)])
      && (out == Removed <==> FindVote(votes, key).Some? && votes[FindVote(votes, key).value].voteType == req.voteType.value)
      && (out == Removed ==> var i := FindVote(votes, key).value; votes' == votes[..i] + votes[i + 1..])
  {
  }

  /** The table never gets a second vote for the same user and object. */
  lemma CastVoteKeepsUnique(users: Accounts.UserStore, votes: seq<Vote>, req: VoteRequest)
    requires OneVotePerKey(votes)
    ensures OneVotePerKey(CastVote(users, votes, req).1)
  {
    var (out, votes') := CastVote(users, votes, req);
    if out == Created {
      CastVoteEffect(users, votes, req);
      var key := RequestKey(users, req);
      assert KeyOf(votes'[|votes|]) == key;
      assert votes' == votes + [votes'[|votes|]];
      AppendKeepsUnique(votes, votes'[|votes|]);
    } else if out == Updated {
      CastVoteEffect(users, votes, req);
    } else if out == Removed {
      CastVoteEffect(users, votes, req);
      RemoveKeepsUnique(votes, FindVote(votes, RequestKey(users, req)).value);
    }
  }

  /** Appending a vote whose key is not yet taken keeps keys unique. */
  lemma AppendKeepsUnique(votes: seq<Vote>, v: Vote)
    requires OneVotePerKey(votes)
    requires forall i :: 0 <= i < |votes| ==> KeyOf(votes[i]) != KeyOf(v)
    ensures OneVotePerKey(votes + [v])
  {
    var votes' := votes + [v];
    forall a, b | 0 <= a < b < |votes'|
      ensures KeyOf(votes'[a]) != KeyOf(votes'[b])
    {
      if b == |votes| {
        assert votes'[a] == votes[a];
      } else {
        assert votes'[a] == votes[a] && votes'[b] == votes[b];
      }
    }
  }

  /** Deleting one vote keeps keys unique. */
  lemma RemoveKeepsUnique(votes: seq<Vote>, i: nat)
    requires OneVotePerKey(votes)
    requires i < |votes|
    ensures OneVotePerKey(votes[..i] + votes[i + 1..])
  {
    var votes' := votes[..i] + votes[i + 1..];
    forall a, b | 0 <= a < b < |votes'|
      ensures KeyOf(votes'[a]) != KeyOf(votes'[b])
    {
      var a' := if a < i then a else a + 1;
      var b' := if b < i then b else b + 1;
      assert votes'[a] == votes[a'] && votes'[b] == votes[b'];
    }
  }

  /** Only "up" and "down" reach the table when the requests carry only those. */
  lemma CastVoteKeepsWellTyped(users: Accounts.UserStore, votes: seq<Vote>, req: VoteRequest)
    requires WellTyped(votes)
    requires req.voteType.Some? ==> req.voteType.value in {"up", "down"}
    ensures WellTyped(CastVote(users, votes, req).1)
  {
    var (out, votes') := CastVote(users, votes, req);
    if out in {Created, Updated, Removed} {
      CastVoteEffect(users, votes, req);
      if out == Removed {
        var i := FindVote(votes, RequestKey(users, req)).value;
        forall a | 0 <= a < |votes'|
          ensures votes'[a].voteType in {"up", "down"}
        {
          assert votes'[a] == votes[if a < i then a else a + 1];
        }
      }
    }
  }

  /** A vote withdraws itself: a fresh vote followed by the same request
      leaves the table as it was. */
  lemma VoteTwiceRestores(users: Accounts.UserStore, votes: seq<Vote>, req: VoteRequest)
    requires CastVote(users, votes, req).0 == Created
    ensures CastVote(users, CastVote(users, votes, req).1, req) == (Removed, votes)
  {
    CastVoteEffect(users, votes, req);
    var key := RequestKey(users, req);
    var votes' := CastVote(users, votes, req).1;
    assert forall j :: 0 <= j < |votes| ==> votes'[j] == votes[j];
    assert KeyOf(votes'[|votes|]) == key;
    assert FindVote(votes', key) == Some(|votes|);
    assert votes'[..|votes|] + votes'[|votes| + 1..] == votes;
  }

  /** Flipping a vote twice restores the table. */
  lemma FlipTwiceRestores(users: Accounts.UserStore, votes: seq<Vote>, req: VoteRequest, back: string)
    requires CastVote(users, votes, req).0 == Updated
    requires back == votes[FindVote(votes, RequestKey(users, req)).value].voteType
    requires back != ""
    ensures CastVote(users, CastVote(users, votes, req).1, req.(voteType := Some(back))) == (Updated, votes)
  {
    CastVoteEffect(users, votes, req);
    var key := RequestKey(users, req);
    var i := FindVote(votes, key).value;
    var votes' := CastVote(users, votes, req).1;
    assert FindVote(votes', key) == Some(i) by {
      assert forall j :: 0 <= j < i ==> votes'[j] == votes[j];
    }
    assert votes'[i := votes'[i].(voteType := back)] == votes;
  }

  /** The votes on one object of one kind with the given type. */
  function Tally(votes: seq<Vote>, kind: ContentKind, id: nat, t: string): nat {
    Count(votes, (v: Vote) => v.kind == kind && v.objectId == id && v.voteType == t)
  }

  /** How many votes point at the object at all. */
  function VotesOn(votes: seq<Vote>, kind: ContentKind, id: nat): nat {
    Count(votes, (v: Vote) => v.kind == kind && v.objectId == id)
  }

  /** `vote_count`: up votes minus down votes on one object. Its magnitude is
      bounded by the number of votes on the object; it is zero when nobody
      voted on it. */
  function Score(votes: seq<Vote>, kind: ContentKind, id: nat): (r: int)
    ensures -(VotesOn(votes, kind, id) as int) <= r <= VotesOn(votes, kind, id)
    ensures VotesOn(votes, kind, id) == 0 ==> r == 0
  {
    TalliesWithin(votes, kind, id);
    Tally(votes, kind, id, "up") - Tally(votes, kind, id, "down")
  }

  /** Up and down votes on an object together are at most all votes on it. */
  lemma {:induction false} TalliesWithin(votes: seq<Vote>, kind: ContentKind, id: nat)
    ensures Tally(votes, kind, id, "up") + Tally(votes, kind, id, "down") <= VotesOn(votes, kind, id)
  {
    if |votes| > 0 {
      TalliesWithin(votes[1..], kind, id);
    }
  }

  /** A vote's contribution to the score of the object it points at. */
  function Weight(v: Vote, kind: ContentKind, id: nat): int {
    if v.kind != kind || v.objectId != id then 0
    else if v.voteType == "up" then 1
    else if v.voteType == "down" then -1
    else 0
  }

  /** Appending a vote moves each score by that vote's weight. */
  lemma ScoreAppend(votes: seq<Vote>, w: Vote, kind: ContentKind, id: nat)
    ensures Score(votes + [w], kind, id) == Score(votes, kind, id) + Weight(w, kind, id)
  {
    CountAppend(votes, [w], (v: Vote) => v.kind == kind && v.objectId == id && v.voteType == "up");
    CountAppend(votes, [w], (v: Vote) => v.kind == kind && v.objectId == id && v.voteType == "down");
    CountSingle(w, (v: Vote) => v.kind == kind && v.objectId == id && v.voteType == "up");
    CountSingle(w, (v: Vote) => v.kind == kind && v.objectId == id && v.voteType == "down");
  }

  /** Replacing a vote moves each score by the difference of the weights. */
  lemma ScoreUpdate(votes: seq<Vote>, i: nat, w: Vote, kind: ContentKind, id: nat)
    requires i < |votes|
    ensures Score(votes[i := w], kind, id) == Score(votes, kind, id) - Weight(votes[i], kind, id) + Weight(w, kind, id)
  {
    CountUpdate(votes, i, w, (v: Vote) => v.kind == kind && v.objectId == id && v.voteType == "up");
    CountUpdate(votes, i, w, (v: Vote) => v.kind == kind && v.objectId == id && v.voteType == "down");
  }

  /** Deleting a vote takes its weight off each score. */
  lemma ScoreRemove(votes: seq<Vote>, i: nat, kind: ContentKind, id: nat)
    requires i < |votes|
    ensures Score(votes[..i] + votes[i + 1..], kind, id) == Score(votes, kind, id) - Weight(votes[i], kind, id)
  {
    CountRemove(votes, i, (v: Vote) => v.kind == kind && v.objectId == id && v.voteType == "up");
    CountRemove(votes, i, (v: Vote) => v.kind == kind && v.objectId == id && v.voteType == "down");
  }

  /** Every table change the endpoint makes moves each score by the weight
      of the vote written minus the weight of the vote replaced. */
  lemma CastVoteScore(users: Accounts.UserStore, votes: seq<Vote>, req: VoteRequest, kind: ContentKind, id: nat)
    requires CastVote(users, votes, req).0 in {Created, Updated, Removed}
    ensures var key := RequestKey(users, req);
      var (out, votes') := CastVote(users, votes, req);
      var written := Vote(key.user, req.voteType.value, key.kind, key.objectId);
      && (out == Created ==> Score(votes', kind, id) == Score(votes, kind, id) + Weight(written, kind, id))
      && (out == Updated ==> var i := FindVote(votes, key).value;
            Score(votes', kind, id) == Score(votes, kind, id) - Weight(votes[i], kind, id) + Weight(written, kind, id))
      && (out == Removed ==> var i := FindVote(votes, key).value;
            Score(votes', kind, id) == Score(votes, kind, id) - Weight(votes[i], kind, id))
  {
    CastVoteEffect(users, votes, req);
    var key := RequestKey(users, req);
    var out := CastVote(users, votes, req).0;
    var written := Vote(key.user, req.voteType.value, key.kind, key.objectId);
    if out == Created {
      ScoreAppend(votes, written, kind, id);
    } else if out == Updated {
      var i := FindVote(votes, key).value;
      assert written == votes[i].(voteType := req.voteType.value);
      ScoreUpdate(votes, i, written, kind, id);
    } else {
      ScoreRemove(votes, FindVote(votes, key).value, kind, id);
    }
  }

  /** A vote on an answer never moves a question's score, and the other way
      round: the content type keeps the two id spaces apart. */
  lemma OtherKindUntouched(users: Accounts.UserStore, votes: seq<Vote>, req: VoteRequest, kind: ContentKind, id: nat)
    requires CastVote(users, votes, req).0 in {Created, Updated, Removed}
    requires RequestKey(users, req).kind != kind || RequestKey(users, req).objectId != id
    ensures Score(CastVote(users, votes, req).1, kind, id) == Score(votes, kind, id)
  {
    CastVoteScore(users, votes, req, kind, id);
    CastVoteEffect(users, votes, req);
  }
}

=== FILE: wrappers.dfy ===
/**
  Small failure-carrying datatypes shared by every module of the model.
  `Option` stands for Python's `None` and JavaScript's `null`/`undefined`.
 */
module Wrappers {

  datatype Option<+T> = None | Some(value: T) {

    /** The wrapped value, or `default` when there is none. */
    function GetOr(default: T): T {
      match this
      case Some(v) => v
      case None => default
    }
  }
}
